=== FILE: README.md ===
# zentropi, modelled in Dafny

zentropi is a Python framework for agents that talk in *frames*. A frame
is a named message with a data payload, routing meta and a kind: command,
event, message, request, response or state. An agent (a *Zentropian*)
keeps two handler registries. Events are dispatched through one of them.
The other watches *states*, which are typed fields whose every change is
first put to the state handlers as a `State` frame. Each registry files a
handler by name under one of three match modes:

- exact, optionally ignoring case;
- parse, where a `{}` format pattern is matched against the frame's text;
- fuzzy, scored against the frame's name.

A registry answers a frame with the first mode that produces handlers,
and otherwise with its `*` catch-all handlers. Agents reach each other
through connections, kept in a registry by tag and by endpoint. Connected
agents meet in *spaces*, and a server relays each frame to the members of
the frame's space. A `Config` class holds typed options with a provenance
(default, config file, environment, runtime) and freeze / modify / extend
locks. A separate MicroPython runtime (`src/zentropi.py`) repeats the
event path on its own: a sparse dict codec, a websocket connection guarded
by assertions, and an agent with a set of handlers per event name.

The Dafny project follows the package layout, one module per source file:

| file | module | models |
|---|---|---|
| results.dfy | `Results` | Python exceptions as `Result`, `Option` and `Outcome` |
| values.dfy | `PyValues` | dynamically typed values, truthiness, hashability and dict keys, the `str` helpers used |
| symbols.dfy | `Symbols` | `KIND` |
| utils.dfy | `Utils` | `deflate_dict` and the `validate_*` functions |
| frames.dfy | `Frames` | `Frame`, its subclasses, `build`, `as_dict` / `from_dict` |
| handlers.dfy | `Handlers` | `Handler`, `HandlerRegistry` (add / remove), `Registry` |
| matching.dfy | `Matching` | `HandlerRegistry.match` and its three match functions |
| fields.dfy | `Fields` | `Field` |
| states.dfy | `States` | `States` |
| events.dfy | `Events` | `Events` |
| connections.dfy | `Connections` | `build_connection_instance`, `ConnectionRegistry` |
| spaces.dfy | `Spaces` | `Space`, `Spaces` |
| zentropian.dfy | `Zentropian` | `Zentropian` and the module-level decorators |
| agent.dfy | `Agent` | `Agent` |
| config.dfy | `Config` | `sources`, `Option`, `Config` |
| micro.dfy | `Micro` | the MicroPython runtime `src/zentropi.py` |

Objects are immutable datatypes, and every operation is a pure function
that returns the updated object. An exception becomes an `Err` or `Fail`
carrying the exception's class. Anything the code cannot see is a
parameter of the function that needs it:

- the JSON size of a dict (`Sizer`);
- the `parse` library and the fuzzy scorer (`Matchers`);
- the result of calling user code;
- fresh uuids, the clock and `ticks_us`;
- the iteration order of a Python set of handlers (`order` in the environments of States, Events and Zentropian; a parameter of Micro.TriggerEventHandler);
- the outcome of a transport's synchronous `connect` or `bind`.

## Model

| member | source | states |
|---|---|---|
| Symbols.KindValue | src/zentropi/symbols.py:7-16 | each kind has its own integer, from -1 (timer) to 6 (state) |
| Symbols.KindOf | src/zentropi/symbols.py:7-16 | `KIND(i)` succeeds exactly for -1..6 and inverts the kind's value |
| Symbols.KindValueInjective | src/zentropi/symbols.py:7-16 | distinct kinds have distinct values, and looking up a kind's value gives that kind back |
| Utils.Deflate | src/zentropi/utils.py:77-78 | keeps exactly the truthy entries, with their values |
| Utils.DeflateIdempotent | src/zentropi/utils.py:77-78 | deflating twice is the same as deflating once |
| Utils.ValidateName | src/zentropi/utils.py:91-100 | None passes as no name; a string passes iff it is non-empty, not blank and at most 128 characters; everything else is ValueError |
| Utils.ValidateKind | src/zentropi/utils.py:103-112 | None gives unset; an enum member passes; an int passes iff it is a kind's value; anything else is ValueError |
| Utils.ValidateData | src/zentropi/utils.py:115-123 | None gives an empty payload; a dict passes iff its JSON is under 10 KiB; anything else is AssertionError |
| Utils.ValidateMeta | src/zentropi/utils.py:126-131 | None gives empty meta; a dict passes iff its JSON is under 512 bytes; anything else is AssertionError |
| Utils.ValidateId | src/zentropi/utils.py:134-138 | None gives no id; a string is kept; anything else is AssertionError |
| Frames.ClassFor | src/zentropi/frames.py:169-286 | each kind other than timer and unset has the subclass that forces it |
| Frames.PutRouting | src/zentropi/frames.py:54-61 | a falsy routing value leaves meta alone; a valid name is stored under its key; anything else is ValueError |
| Frames.Stamp | src/zentropi/frames.py:62-65 | a non-zero timestamp is stored; otherwise an existing timestamp is kept or the current time is stored; other keys are untouched |
| Frames.PutAllRouting | src/zentropi/frames.py:54-61 | source, target, space and reply_to end up routed in meta, and other keys are unchanged |
| Frames.RoutedMeta | src/zentropi/frames.py:54-65 | the constructor's meta carries a timestamp by the timestamp rule and the routed attributes; with no routing argument and no timestamp a meta that has one comes back unchanged |
| Frames.NewFrame | src/zentropi/frames.py:38-65 | a frame is built exactly when the name, payload, meta and id validate, the base class's kind validates and every truthy routing name is valid; errors follow the source's order: an invalid name is ValueError, a bad payload, meta or id AssertionError, and a bad kind or routing name ValueError; a built frame satisfies every validator, its id is the given one or a fresh uuid, its kind is the subclass's or the validated argument, and its meta follows the routing and timestamp rules |
| Frames.Attr | src/zentropi/frames.py:23-26 | a payload attribute is the stored value or None |
| Frames.SetAttr | src/zentropi/frames.py:28-32 | setting an attribute stores it and leaves the others, except `data`, which replaces the payload with any value, dict or not |
| Frames.DataAttrAsWritten | src/zentropi/frames.py:75-77 | an attribute read on an empty payload is AttributeError, because `data` then yields a plain dict |
| Frames.SetName | src/zentropi/frames.py:71-73 | the name setter succeeds iff the name validates, and changes only the name |
| Frames.SetData | src/zentropi/frames.py:79-81 | the data setter succeeds iff the payload validates, and changes only the payload |
| Frames.SetMeta | src/zentropi/frames.py:103-121 | a routing setter changes that one meta key and nothing else |
| Frames.ClassForArg | src/zentropi/frames.py:127-146 | `build` picks the subclass of a valid kind argument, and the base class otherwise |
| Frames.Build | src/zentropi/frames.py:127-146 | a built frame is valid, of the subclass for its kind, and carries the kind asked for; an out-of-range kind fails |
| Frames.AsDict | src/zentropi/frames.py:156-163 | the dict holds exactly the frame's truthy fields |
| Frames.FromDictAsWritten | src/zentropi/frames.py:148-150 | a dict without `name`, or with keys `build` does not accept, is TypeError |
| Frames.FromDict | src/zentropi/frames.py:148-150 | unknown keys are TypeError; with a name present it agrees with the code as written |
| Frames.RoundTrip | src/zentropi/frames.py:148-163 | `from_dict(as_dict(f))` rebuilds every valid frame, as the subclass for its kind |
| Frames.Rebuild | src/zentropi/frames.py:38-65 | passing a valid frame's own fields back to the constructor, with no routing and no timestamp, gives the same frame |
| Frames.AsWrittenLosesNamelessFrames | src/zentropi/frames.py:148-163 | as written, the round trip fails exactly for nameless frames and holds for named ones |
| Frames.NamelessFrameCounterexample | src/zentropi/frames.py:148-163 | a concrete nameless frame fails as written and round-trips once corrected |
| Handlers.FilterNames | src/zentropi/handlers.py:29-66 | the filter names are the keyword names with their leading `_` removed |
| Handlers.Filters | src/zentropi/handlers.py:29-66 | each filter maps to the value of its `_`-prefixed keyword |
| Handlers.NewHandler | src/zentropi/handlers.py:29-66 | a handler is built exactly when the function is callable, meta is None or a dict, parse and fuzzy are not both set, kind and name validate, a name is given and every keyword starts with `_`; in the source's order the failures are ValueError (not callable, meta not a dict, parse with fuzzy, bad kind or name), TypeError (no name) and AssertionError (other keywords); a built handler has one match mode (parse over fuzzy over exact), its name's length and its filters |
| Handlers.ValidateHandler | src/zentropi/utils.py:81-88 | None passes as nothing, a handler passes, and anything else is ValueError |
| Handlers.Iterated | src/zentropi/handlers.py:114-121 | the handlers a set is iterated over are exactly the set's, in whatever order the runtime chooses |
| Handlers.InsertPos | src/zentropi/handlers.py:115-117 | the insertion point comes after every key no longer than the new key and before the first longer one |
| Handlers.Insert | src/zentropi/handlers.py:140-145 | adding to an index adds exactly one copy of the key |
| Handlers.InsertSorted | src/zentropi/handlers.py:115-117 | an index sorted by length stays sorted after an insert |
| Handlers.FirstIndex | src/zentropi/handlers.py:151-156 | a removal finds the first occurrence of the key |
| Handlers.RemoveFirst | src/zentropi/handlers.py:151-156 | removing a missing key is ValueError; otherwise exactly one copy goes and the order by length is kept |
| Handlers.DeleteAt | src/zentropi/handlers.py:151-156 | deleting one position removes exactly that name and keeps the order by length |
| Handlers.WithoutMultiset | src/zentropi/handlers.py:150 | removing a handler from its set takes out exactly that handler |
| Handlers.WithoutNoDup | src/zentropi/handlers.py:150 | a handler set stays duplicate-free and loses the removed handler |
| Handlers.EmptyRegistryInv | src/zentropi/handlers.py:113-121 | a new registry satisfies the invariant: the indices hold one entry per handler of their mode and are sorted by length |
| Handlers.Add | src/zentropi/handlers.py:127-147 | errors for a non-handler, for no mode, and for a duplicate; otherwise the handler is appended under its (lower-cased if ignoring case) name, that name goes into its mode's index, and the other indices are unchanged |
| Handlers.Remove | src/zentropi/handlers.py:149-156 | a handler not filed under the name is KeyError; otherwise it leaves the table and one copy of the name leaves its mode's index |
| Handlers.CountAppend | src/zentropi/handlers.py:139-145 | appending a handler adds one to its own mode's count and zero to the others |
| Handlers.CountWithout | src/zentropi/handlers.py:150-156 | removing a filed handler subtracts one from its own mode's count |
| Handlers.NoDupAppend | src/zentropi/handlers.py:136-139 | appending a handler that is not yet filed keeps the set duplicate-free |
| Handlers.FileCounts | src/zentropi/handlers.py:139-145 | filing a handler keeps the index counts in step with the table |
| Handlers.UnfileCounts | src/zentropi/handlers.py:150-156 | unfiling a handler keeps the index counts in step with the table |
| Handlers.AddSorted | src/zentropi/handlers.py:140-145 | after an add, every index is still sorted by length |
| Handlers.AddCounts | src/zentropi/handlers.py:139-145 | after an add, every index counts its mode's handlers per name |
| Handlers.AddWellFormed | src/zentropi/handlers.py:136-139 | after an add, every handler set is duplicate-free and holds only handlers with a mode |
| Handlers.AppendWellFormed | src/zentropi/handlers.py:136-139 | appending a handler with a mode that is not yet in its set keeps every set duplicate-free and mode-bearing |
| Handlers.AddPreservesInv | src/zentropi/handlers.py:127-147 | an add preserves the registry invariant |
| Handlers.RemoveSorted | src/zentropi/handlers.py:151-156 | after a remove, every index is still sorted by length |
| Handlers.RemoveCounts | src/zentropi/handlers.py:150-156 | after a remove, every index counts its mode's handlers per name |
| Handlers.RemoveWellFormed | src/zentropi/handlers.py:150 | after a remove, every handler set is still duplicate-free and holds only handlers with a mode |
| Handlers.UnfileWellFormed | src/zentropi/handlers.py:150 | taking a handler out of one set keeps every set duplicate-free and mode-bearing |
| Handlers.RemovePreservesInv | src/zentropi/handlers.py:149-156 | a remove preserves the registry invariant |
| Handlers.RemoveFailsOnlyWhenAbsent | src/zentropi/handlers.py:149-156 | under the invariant, a removal fails iff the handler is not filed under the name, so the index removal never fails on its own |
| Handlers.CountPositive | src/zentropi/handlers.py:150-156 | a set holding a handler of a mode has a positive count for that mode |
| Handlers.AddedIsRemovable | src/zentropi/handlers.py:127-156 | a handler just added can be removed under the key it was filed under |
| Handlers.AddThenRemoveTable | src/zentropi/handlers.py:127-156 | add then remove gives back every name's handler set, a never-filed name reading as empty |
| Handlers.AddThenRemoveIndices | src/zentropi/handlers.py:127-156 | add then remove gives back every index as a multiset |
| Handlers.AddThenRemove | src/zentropi/handlers.py:127-156 | add followed by remove succeeds and undoes the add |
| Handlers.WithoutAppended | src/zentropi/handlers.py:139-150 | removing the handler just appended restores the set |
| Handlers.NewRegistry | src/zentropi/handlers.py:211-216 | a registry is created iff the callback is falsy or callable, and starts empty |
| Handlers.SetRegistryCallback | src/zentropi/handlers.py:236-241 | the callback setter succeeds iff the callback is falsy or callable, and changes only the callback |
| Matching.IgnoringCase | src/zentropi/handlers.py:175-177 | keeps exactly the handlers that ignore case |
| Matching.MatchExact | src/zentropi/handlers.py:171-178 | the exact name gives all its handlers; failing that, the lower-cased name gives its case-ignoring handlers; otherwise nothing; a nameless frame raises |
| Matching.Reverse | src/zentropi/handlers.py:181 | the parse index is tried from longest to shortest pattern |
| Matching.FirstParse | src/zentropi/handlers.py:181-189 | the first pattern that parses is chosen, and every earlier one fails |
| Matching.ParseText | src/zentropi/handlers.py:182-185 | the text matched is a string `text` in the payload, or else the frame's name |
| Matching.ParseTextAsWritten | src/zentropi/handlers.py:182 | as written, an empty payload is AttributeError, and otherwise it agrees with the intended text |
| Matching.Merged | src/zentropi/handlers.py:191-194 | named groups overwrite payload keys, and `args` holds the fixed groups |
| Matching.ParseWith | src/zentropi/handlers.py:180-197 | no pattern parsing gives no handlers; a hit gives the pattern's handlers and merges the groups into the payload only |
| Matching.MatchParse | src/zentropi/handlers.py:180-197 | an empty parse index gives nothing; otherwise the text is the payload text or the name, and a nameless frame without text is TypeError |
| Matching.MatchParseAsWritten | src/zentropi/handlers.py:180-197 | as written, a parse index with an empty payload is AttributeError, and otherwise it agrees with the corrected version |
| Matching.Best | src/zentropi/handlers.py:202-204 | the best-scoring key is chosen, and ties go to the first one |
| Matching.MatchFuzzy | src/zentropi/handlers.py:199-207 | an empty fuzzy index gives nothing; otherwise the best key's handlers if its score reaches the threshold |
| Matching.Match | src/zentropi/handlers.py:158-169 | every handler returned is filed in the registry; an empty answer means no catch-all is set; only the payload of the frame can change |
| Matching.MatchAsWritten | src/zentropi/handlers.py:158-169 | as written, matching agrees with the corrected version whenever the parse step does not meet an empty payload |
| Matching.ExactNameWins | src/zentropi/handlers.py:158-178 | a frame whose name has exact handlers gets exactly those, unchanged |
| Matching.BuiltHandlerIsMatched | src/zentropi/handlers.py:29-66 | a handler built for an exact, case-sensitive name and added to an empty registry is exactly what a frame of that name matches |
| Matching.CatchAllWhenNothingMatches | src/zentropi/handlers.py:158-169 | when no mode matches, the catch-all handlers are returned |
| Matching.ParseAnswersBeforeFuzzy | src/zentropi/handlers.py:118-121 | when the exact step gives nothing, a parse hit is the answer, ahead of fuzzy and catch-all handlers |
| Matching.FuzzyAnswersAfterExactAndParse | src/zentropi/handlers.py:158-169 | a fuzzy hit is the answer exactly when exact and parse both gave nothing |
| Matching.MatchIsFirstAnswer | src/zentropi/handlers.py:158-169 | every answer of `match` is the first non-empty one of exact, parse and fuzzy, in that order, or else the catch-all set |
| Matching.NamelessFrameSkipsEmptyIndex | src/zentropi/handlers.py:158-169 | an empty index is skipped, so a nameless frame fails in the exact step only when an exact pattern is filed |
| Matching.ParseHitIsLongest | src/zentropi/handlers.py:181-189 | the chosen parse pattern is at least as long as every pattern that also parses |
| Matching.EmptyPayloadParse | src/zentropi/handlers.py:180-197 | for an empty payload, the code as written raises, while the corrected version parses the name |
| Matching.ParseCounterexample | src/zentropi/handlers.py:180-197 | a concrete "hello {name}" registry and an event with no payload: AttributeError as written, a match once corrected |
| Fields.CleanAndValidate | src/zentropi/fields.py:64-71 | the cleaned value is returned if it validates; a clean error passes through; a failed validation is ValueError |
| Fields.BaseAcceptsAll | src/zentropi/fields.py:73-81 | the base field's hooks accept every value unchanged |
| Fields.NewField | src/zentropi/fields.py:26-33 | a field is created iff its default cleans and validates; a falsy `validate` answer is AttributeError, while an exception raised by `clean` or `validate` passes through unchanged; the name defaults to the object id |
| Fields.NewFieldErrorsAgree | src/zentropi/fields.py:26-33 | the constructor fails exactly when the setter would, with the same error except that a falsy answer is AttributeError in the constructor and ValueError in the setter |
| Fields.RaisingValidateKeepsValueError | src/zentropi/fields.py:64-71 | a `validate` that raises ValueError gives ValueError at construction, and one that answers False gives AttributeError |
| Fields.NewFieldThenRead | src/zentropi/fields.py:26-33 | a new field reads back its cleaned default, and assigning the default again leaves it unchanged |
| Fields.ValueOf | src/zentropi/fields.py:54-58 | the value is the stored one unless that is None, in which case it is the default |
| Fields.SetValue | src/zentropi/fields.py:60-62 | setting succeeds iff the value cleans and validates, and stores the cleaned value |
| Fields.SetName | src/zentropi/fields.py:47-52 | the name setter accepts exactly non-empty strings |
| Fields.Describe | src/zentropi/fields.py:83-84 | the description holds the kind, the name and the current value |
| Fields.SetThenRead | src/zentropi/fields.py:54-62 | after a set, reading gives the cleaned value, or the default when that is None |
| Fields.SetValueKeepsRest | src/zentropi/fields.py:60-62 | a set changes only the stored value |
| States.NewStates | src/zentropi/states.py:11-17 | created iff the callback is falsy or callable, with no states and no handlers |
| States.SetCallback | src/zentropi/states.py:96-101 | the setter accepts None or a callable, and changes only the callback |
| States.AddState | src/zentropi/states.py:19-25 | the name is filed as a field named after the class; a field is kept, and a value becomes a base field; the other states are untouched |
| States.GetState | src/zentropi/states.py:27-32 | a missing state is KeyError, a slot that holds no field is ValueError, and a field gives its value |
| States.LastAnswer | src/zentropi/states.py:42-45 | every handler is called, each as an internal call; the answer is the last handler's result, and the first error stops the loop |
| States.ChangeFrame | src/zentropi/states.py:40-41 | the frame put to the handlers is a `State` named after the state, carrying the new and the last value |
| States.Commit | src/zentropi/states.py:50-52 | the field takes the value iff it cleans and validates |
| States.UpdateState | src/zentropi/states.py:34-52 | missing state is KeyError, a non-field slot ValueError; without a callback the value is stored; with one, the state frame (the new and last value) is matched against the state handlers, the reported frame is the match's frame and the consulted handlers are exactly the matched set in the runtime's iteration order, and the value is stored only when the last answer is True; only the named state changes |
| States.RemoveState | src/zentropi/states.py:54-55 | a missing state is KeyError; otherwise exactly that state goes |
| States.SetItem | src/zentropi/states.py:80-84 | item assignment updates an existing state and adds a new one |
| States.SetAttr | src/zentropi/states.py:67-75 | `callback` goes to its setter, private names and callables are ignored, and other names are item assignments |
| States.GetAttr | src/zentropi/states.py:57-65 | object attributes and methods are read from the object, and any other name is a state read |
| States.AddHandler | src/zentropi/states.py:109-110 | adding a state handler is the registry's add |
| States.RemoveHandler | src/zentropi/states.py:112-113 | removing a state handler is the registry's remove |
| States.AddThenGet | src/zentropi/states.py:19-32 | a value just added reads back |
| States.UpdateWithoutCallbackLands | src/zentropi/states.py:34-52 | with no callback, an update to a base field reads back as the new value |
| States.LastHandlerDecides | src/zentropi/states.py:41-52 | with handlers consulted, the value lands iff the last handler answered True |
| States.LastAnswerOk | src/zentropi/states.py:42-45 | a successful round of internal calls means every call succeeded, and the answer is the last one's |
| States.NonBoolAnswerRejected | src/zentropi/states.py:46-49 | a last answer that is not a bool makes the update ValueError |
| States.RemoveThenGet | src/zentropi/states.py:27-55 | a removed state no longer reads |
| Events.NewEvents | src/zentropi/events.py:22-27 | created iff the callback is falsy or callable, with an empty registry |
| Events.SetCallback | src/zentropi/events.py:39-44 | the setter accepts a falsy or callable callback, and changes only the callback |
| Events.AddHandler | src/zentropi/events.py:29-30 | adding an event handler is the registry's add |
| Events.RemoveHandler | src/zentropi/events.py:32-33 | removing an event handler is the registry's remove |
| Events.RunAll | src/zentropi/events.py:49-53 | the emit loop passes iff every handler returns None when called with the emit's `internal` flag |
| Events.EmitFrame | src/zentropi/events.py:46-53 | an emit builds a valid event, matches it, runs the matched set in the runtime's iteration order, and returns only when every matched handler, called with the given `internal` flag, returned None; a frame that cannot be built fails the emit |
| Events.Emit | src/zentropi/events.py:46-53 | the method's own parameters carry no source and no reply_to; every handler it ran was called with its `internal` flag and returned None |
| Events.EmitReachesAll | src/zentropi/events.py:46-53 | whatever the iteration order, an emit succeeds iff every matched handler returns None for the given `internal` flag, and then it reports exactly those handlers |
| Events.EmitCarriesRouting | src/zentropi/events.py:46-53 | a given source and reply_to end up in the emitted frame's meta |
| Spaces.SpaceJoin | src/zentropi/spaces.py:18-23 | a member joining again is ValueError; otherwise the agent is added |
| Spaces.SpaceLeave | src/zentropi/spaces.py:25-29 | a non-member leaving is ValueError; otherwise the agent is removed |
| Spaces.JoinThenLeave | src/zentropi/spaces.py:18-29 | joining and then leaving restores the space |
| Spaces.Agents | src/zentropi/spaces.py:38-44 | no space lists every connected agent; a known space lists its members; a list or dict space is TypeError; any other unknown space is ValueError |
| Spaces.MemberSpaces | src/zentropi/spaces.py:49 | lists exactly the spaces the agent is a member of, in creation order and without repeats |
| Spaces.SpacesOf | src/zentropi/spaces.py:46-49 | no agent lists every space, and an agent lists its own spaces; a list or dict agent is TypeError as soon as there is a space to test it against |
| Spaces.JoinReply | src/zentropi/spaces.py:60-62 | the reply is a `join` or `join-failed` command naming the space |
| Spaces.Named | src/zentropi/spaces.py:52-56 | an unknown space name starts as an empty space |
| Spaces.Join | src/zentropi/spaces.py:51-62 | a member joining again is refused with `join-failed` and no change; otherwise the agent is added, the space is created when new, and `join` is returned |
| Spaces.JoinPreservesInv | src/zentropi/spaces.py:51-62 | a join keeps every space filed under its own name and listed once in creation order |
| Spaces.JoinTwice | src/zentropi/spaces.py:51-62 | joining twice leaves the spaces as the first join left them, and the second reply is `join-failed` |
| Spaces.AgentConnect | src/zentropi/spaces.py:64-73 | a name already connected, or a truthy non-connection, is ValueError; otherwise the agent is recorded |
| Spaces.AgentConnectThenAgents | src/zentropi/spaces.py:38-44 | after a registration the agent list gains exactly that name, space memberships are unchanged, and registering the name again is ValueError |
| Spaces.JoinThenAgents | src/zentropi/spaces.py:38-62 | after a join the named space exists and lists the agent |
| Spaces.GroupOf | src/zentropi/spaces.py:84-87 | a missing space or a member that never registered is KeyError, and a member registered without a connection is AttributeError; otherwise the space's connections |
| Spaces.Groups | src/zentropi/spaces.py:84-87 | one group per target space, in order, or the first KeyError |
| Spaces.Targets | src/zentropi/spaces.py:78-83 | the frame's own space if the source is a member of it, and otherwise every space of the source |
| Spaces.HandleCommand | src/zentropi/spaces.py:90-98 | a non-command is ValueError; a list or dict source is TypeError and an unknown source KeyError; a `join` is performed and its reply sent back on the source's connection, and a source without a connection is AttributeError; other commands do nothing |
| Spaces.Broadcast | src/zentropi/spaces.py:75-88 | commands go to the command handler; any other frame is sent, unchanged, to every member of each target space; a source whose spaces cannot be listed fails the broadcast with that error |
| Spaces.BroadcastToOwnSpace | src/zentropi/spaces.py:78-88 | a frame addressed to a space its source belongs to reaches only that space |
| Spaces.BroadcastToSourceSpaces | src/zentropi/spaces.py:78-83 | a frame with no space reaches every space its source belongs to |
| Connections.ForScheme | src/zentropi/connections/registry.py:19-26 | `inmemory://` and `redis://` pick their transport; any other scheme is ValueError |
| Connections.BuildAsWritten | src/zentropi/connections/registry.py:13-26 | as written, a connection class is refused with ValueError and an instance is called (TypeError); with no class the scheme decides |
| Connections.Build | src/zentropi/connections/registry.py:13-26 | a subclass of Connection is instantiated; any other object is ValueError; with no class the scheme decides |
| Connections.BuildAgreesWithoutClass | src/zentropi/connections/registry.py:13-26 | the corrected build agrees with the code as written when no class is passed, and wherever that code succeeds |
| Connections.UserClassRejected | src/zentropi/connections/registry.py:14-18 | a concrete subclass: refused as written, instantiated once corrected |
| Connections.NoConnectionsInv | src/zentropi/connections/registry.py:30-34 | a new registry satisfies the invariant: every tag and endpoint set is drawn from the connections, and every connection has a tag |
| Connections.File | src/zentropi/connections/registry.py:50-52 | the connection is added to the set, to its tag and to its endpoint, and nothing else changes |
| Connections.Connect | src/zentropi/connections/registry.py:44-52 | connect succeeds iff a connection can be built (by the corrected `Build`) and the transport call passes, and only then files it; the build's or the transport's error passes through |
| Connections.Bind | src/zentropi/connections/registry.py:54-62 | bind succeeds iff a connection can be built (by the corrected `Build`) and the transport call passes, and only then files it; the build's or the transport's error passes through |
| Connections.FilePreservesInv | src/zentropi/connections/registry.py:50-52 | filing keeps the registry invariant |
| Connections.FileTagsInv | src/zentropi/connections/registry.py:51 | filing keeps every tag set non-empty and drawn from the connections |
| Connections.FileEndpointsInv | src/zentropi/connections/registry.py:52 | filing keeps every endpoint set drawn from the connections |
| Connections.FileCovered | src/zentropi/connections/registry.py:50-51 | filing keeps every connection under some tag |
| Connections.ConnectFiles | src/zentropi/connections/registry.py:44-52 | after a connect, the new connection is registered, under its tag and under its endpoint |
| Connections.CallAsWritten | src/zentropi/connections/registry.py:44-62 | as written, a coroutine transport is AttributeError, because the agent has no `spawn`; a synchronous one ends as its own call does |
| Connections.CallSpawned | src/zentropi/connections/registry.py:44-62 | once corrected, a coroutine transport passes, and a synchronous one agrees with the as-written outcome |
| Connections.CoroutineRegistrationFails | src/zentropi/connections/registry.py:44-62 | as written, `connect` and `bind` on a coroutine transport are AttributeError and file nothing |
| Connections.CoroutineRegistrationFiles | src/zentropi/connections/registry.py:44-62 | once corrected, a coroutine transport is registered under its tag and its endpoint |
| Connections.StripEach | src/zentropi/connections/registry.py:89 | every piece is stripped |
| Connections.NonEmpty | src/zentropi/connections/registry.py:89 | keeps exactly the non-empty pieces |
| Connections.CommaTags | src/zentropi/connections/registry.py:89 | a comma list gives exactly its non-empty stripped pieces |
| Connections.ParseTags | src/zentropi/connections/registry.py:86-93 | the tags are never empty: no tags means `default`, a string without a comma is one tag, a comma string is split, and a list is taken as given |
| Connections.StripKeepsOut | src/zentropi/connections/registry.py:89 | stripping adds no character |
| Connections.CommaTagsClean | src/zentropi/connections/registry.py:89 | every tag from a comma list is non-empty, has no comma, and has no surrounding blanks |
| Connections.CommaTagsAreClean | src/zentropi/connections/registry.py:87-89 | a comma string parses to clean tags only |
| Connections.StripTrimmed | src/zentropi/connections/registry.py:89 | a stripped piece neither starts nor ends with whitespace |
| Connections.ConnectionsByTags | src/zentropi/connections/registry.py:86-99 | an unknown tag is KeyError; otherwise each tag's connections, in tag order |
| Connections.GroupsFor | src/zentropi/connections/registry.py:94-99 | a name missing from the tag table is KeyError; otherwise the groups come back in name order |
| Connections.ConnectionsByEndpoint | src/zentropi/connections/registry.py:101-104 | no endpoint lists every connection; an endpoint lists its own, or none when unknown; a list or dict endpoint is TypeError |
| Connections.Fan | src/zentropi/connections/registry.py:64-84 | broadcast, join and leave reach the connections of the given tags, or fail with their KeyError |
| Connections.Broadcast | src/zentropi/connections/registry.py:64-70 | broadcasting sends the frame over the tags' connections |
| Connections.FanReachesRegistered | src/zentropi/connections/registry.py:64-99 | a fan-out only reaches registered connections |
| Connections.FanDefault | src/zentropi/connections/registry.py:92-99 | with no tags the fan-out reaches exactly the `default` connections |
| Connections.FanNeedsDefault | src/zentropi/connections/registry.py:92-96 | with no tags and no `default` tag, the fan-out is KeyError |
| Zentropian.Payload | src/zentropi/zentropian.py:61-73 | a handler gets the agent first if it asks for it, and the frame unless it is a timer handler |
| Zentropian.Trigger | src/zentropi/zentropian.py:61-73 | an async handler is NotImplementedError; otherwise the handler is called with its payload |
| Zentropian.AddHandler | src/zentropi/zentropian.py:34-40 | event handlers go to the events registry and state handlers to the states; any other kind is ValueError |
| Zentropian.AddHandlerRegisters | src/zentropi/zentropian.py:34-40 | an added handler is registered, and so is every handler registered before |
| Zentropian.AddAll | src/zentropi/zentropian.py:42-48 | registering a list of handlers changes only the two registries |
| Zentropian.InspectHandlers | src/zentropi/zentropian.py:42-48 | inspection changes only the two registries |
| Zentropian.AddAllRegisters | src/zentropi/zentropian.py:42-48 | after registering a list, every handler in it is registered, and so is every earlier one |
| Zentropian.InspectRegistersAll | src/zentropi/zentropian.py:42-48 | after inspection, every handler from every method's `meta` is registered |
| Zentropian.InitialName | src/zentropi/zentropian.py:19 | a falsy name becomes a fresh uuid; a truthy one must validate |
| Zentropian.NewZentropian | src/zentropi/zentropian.py:17-24 | a new agent has its name, no connections, no states, and both callbacks set to the trigger |
| Zentropian.SetName | src/zentropi/zentropian.py:30-32 | the name setter accepts exactly None or a valid name |
| Zentropian.HandleFrameAsWritten | src/zentropi/zentropian.py:50-59 | as written, handling a frame never succeeds: an event is AttributeError and a state without a `match` state KeyError |
| Zentropian.TriggerAll | src/zentropi/zentropian.py:58-59 | the handlers run in turn; the loop passes iff every trigger succeeds |
| Zentropian.RegistryFor | src/zentropi/zentropian.py:51-57 | events use the events registry, states the state registry, and any other frame has none |
| Zentropian.HandleFrame | src/zentropi/zentropian.py:50-59 | another kind of frame is ValueError; otherwise the frame is matched in its registry and every matched handler is triggered, in the runtime's iteration order |
| Zentropian.HandleFrameReachesExactHandlers | src/zentropi/zentropian.py:50-59 | an event with exact handlers reaches exactly those once corrected, and raises AttributeError as written |
| Zentropian.EmitAsWritten | src/zentropi/zentropian.py:93-98 | as written, every emit is TypeError |
| Zentropian.NameValue | src/zentropi/zentropian.py:26-28 | the name property as a routing value |
| Zentropian.Emit | src/zentropi/zentropian.py:93-98 | the event is emitted locally with the agent as source, and is broadcast on the default tag iff it is not internal and the agent is connected |
| Zentropian.InternalEmitStaysLocal | src/zentropi/zentropian.py:93-98 | an internal emit is not broadcast and carries the agent's name as its source |
| Zentropian.Connect | src/zentropi/zentropian.py:100-101 | connect delegates to the registry with no class and leaves the agent connected; a failing synchronous transport fails it, and a coroutine transport (spawned, as corrected) succeeds iff the connection can be built |
| Zentropian.Bind | src/zentropi/zentropian.py:103-104 | bind delegates to the registry with no class and leaves the agent connected; a failing synchronous transport fails it, and a coroutine transport (spawned, as corrected) succeeds iff the connection can be built |
| Zentropian.Join | src/zentropi/zentropian.py:106-107 | join fans out over the given tags |
| Zentropian.Close | src/zentropi/zentropian.py:109-121 | both an endpoint and tags is ValueError; otherwise the endpoint's, the tags' or all connections are closed, and an endpoint that cannot be looked up fails with its error |
| Zentropian.OnStateMethod | src/zentropi/zentropian.py:75-82 | the method decorator builds a state handler and registers it at once |
| Zentropian.OnEventMethod | src/zentropi/zentropian.py:84-91 | the method decorator builds an event handler and registers it at once |
| Zentropian.Decorate | src/zentropi/zentropian.py:124-147 | the module decorator appends the new handler to the function's `meta`, or creates the list |
| Zentropian.DecoratedMethodIsRegistered | src/zentropi/zentropian.py:75-147 | a decorated method is registered by inspection, just as the method decorator registers it |
| Agent.ShouldStopMetaOk | src/zentropi/agent.py:15-16 | `_on_should_stop` carries one exact state handler for `should_stop` that receives the agent |
| Agent.WithFlags | src/zentropi/agent.py:11-12 | `should_stop` and `running` are added as base fields holding False |
| Agent.NewAgent | src/zentropi/agent.py:9-13 | a new agent has no loop, and exactly the states `should_stop` and `running`, both False |
| Agent.NewAgentRegisters | src/zentropi/agent.py:9-16 | a new agent has its stop handler and every decorated handler registered |
| Agent.AssignmentAddsState | src/zentropi/states.py:67-84 | assigning an attribute that is not yet a state adds it |
| Agent.InitRegisters | src/zentropi/zentropian.py:17-24 | the base constructor registers every decorated handler |
| Agent.OnShouldStop | src/zentropi/agent.py:15-19 | the handler answers True; it closes all connections exactly on a change from False to True; an empty payload is AttributeError |
| Agent.ClosedBy | src/zentropi/agent.py:17-18 | the connections an update closed are those the stop handler closed for its frame |
| Agent.Stop | src/zentropi/agent.py:43-44 | stop assigns True to `should_stop` and changes nothing else |
| Agent.StopLatches | src/zentropi/agent.py:15-19 | after a stop, `should_stop` reads True, unless the state handlers declined the change and the states are unchanged |
| Agent.StopClosesOnce | src/zentropi/agent.py:17-18 | the first stop closes the connections, and a second one does not close again |
| Agent.SetLoop | src/zentropi/agent.py:27-33 | a second loop is AssertionError; a given loop is kept; with none given a default is taken once; nothing else changes |
| Agent.LoopIsSetOnce | src/zentropi/agent.py:27-41 | once a loop is set, asking again with none keeps it and giving another is AssertionError |
| Config.ValidateSourceValue | src/zentropi/config.py:19-25 | exactly the four source numbers pass (a bool counts as 0 or 1); anything else is ValueError |
| Config.ValidateSource | src/zentropi/config.py:61-65 | a falsy source is the default, and any other is validated |
| Config.Cast | src/zentropi/config.py:47 | calling a type on its own instance returns the value, a bool cast to int becomes 0 or 1, and `NoneType` cannot be called |
| Config.Validate | src/zentropi/config.py:43-51 | without coercion a value not of the type is ValueError and a non-type validator TypeError; with coercion the validator is called |
| Config.NewOption | src/zentropi/config.py:29-41 | a non-callable validator is ValueError; the default is validated and is the initial value; the source is validated; the flags are made bool |
| Config.SourceLabel | src/zentropi/config.py:83-85 | the source property is the label of the source |
| Config.SetValue | src/zentropi/config.py:79-81 | an invalid value fails before any write; otherwise the value is written, and an invalid source then raises |
| Config.SetOptionValue | src/zentropi/config.py:75-77 | the value setter succeeds iff the value validates, and changes only the value |
| Config.SetPrivate | src/zentropi/config.py:159-162 | a private attribute is set on the object and no option changes |
| Config.ValidateObject | src/zentropi/config.py:167-168 | an Option object assigned to an existing option is refused |
| Config.FreshOption | src/zentropi/config.py:169-175 | an Option object is renamed for its key; a plain value becomes an option validated by its own type |
| Config.SetOptionAsWritten | src/zentropi/config.py:158-183 | private names go to the object; a frozen config that cannot be modified refuses changes; as written, the extension lock also rejects changes to existing options, after writing them |
| Config.SetOption | src/zentropi/config.py:158-183 | private names go to the object; changes to existing options obey only the modify lock; new options obey the extend lock and are appended in order |
| Config.ModifyRaisesAfterWriting | src/zentropi/config.py:163-178 | a concrete config that may be modified but not extended: as written, the change is raised but kept; corrected, it is accepted |
| Config.SetOptionPreservesInv | src/zentropi/config.py:158-183 | an assignment keeps the option order listing every option once |
| Config.AsWrittenAgreesElsewhere | src/zentropi/config.py:158-183 | the corrected assignment agrees with the code as written everywhere except existing options under the extend lock |
| Config.LockedConfigUnchanged | src/zentropi/config.py:164-166 | under the modify lock an existing option is refused unchanged, both as written and corrected |
| Config.AssignmentReadsBack | src/zentropi/config.py:158-203 | a valid assignment to an existing option passes, and the frozen config then reads back the validated value |
| Config.CheckRequired | src/zentropi/config.py:134-144 | passes iff every required option holds a value; otherwise ValueError |
| Config.Finish | src/zentropi/config.py:123-125 | construction ends frozen, after checking the required options when asked to |
| Config.GetAttr | src/zentropi/config.py:185-203 | before freezing, and for private names, the object's attribute; then methods; then the option's value; an unknown name is AttributeError when strict and None otherwise |
| Config.FilterExport | src/zentropi/config.py:228-233 | exactly the options selected for config or env, with their values |
| Config.FilterImport | src/zentropi/config.py:235-242 | exactly the selected options that the incoming data gives a non-None value, with that value |
| Config.ImportMatchesExport | src/zentropi/config.py:228-242 | import picks exactly the names export would list and the data supplies |
| Config.ImportAsWritten | src/zentropi/config.py:265-268 | the values are assigned in turn through `_set_option_value` as written, with the CONFIG source, and the first failure stops the loop with the earlier writes kept |
| Config.Import | src/zentropi/config.py:265-268 | the same loop over the corrected assignment |
| Config.ImportPreservesInv | src/zentropi/config.py:265-268 | importing keeps the option order listing every option once |
| Config.SetOptionKeepsLocks | src/zentropi/config.py:163-178 | assigning a public name leaves the frozen, modify and extend flags as they were |
| Config.ImportAgreesWhenExtendable | src/zentropi/config.py:265-268 | unless the config is locked against extension, loading public names as written and as corrected is the same |
| Config.ImportStopsAsWritten | src/zentropi/config.py:265-268 | loading an existing option into a config that may be modified but not extended stops with PermissionError as written, after writing the value, and passes once corrected |
| Micro.Inflate | src/zentropi.py:34-38 | every field is present; given keys win over the defaults |
| Micro.InflateUndoesDeflate | src/zentropi.py:34-42 | inflating a deflated frame restores any full frame whose falsy fields are the defaults |
| Micro.DeflateUndoesInflate | src/zentropi.py:34-42 | deflating an inflated sparse frame whose entries are all truthy gives it back |
| Micro.ToEvent | src/zentropi.py:50 | an event takes each field from the dict |
| Micro.FromEvent | src/zentropi.py:62-68 | the dict holds exactly the five fields and reads back as the event |
| Micro.Load | src/zentropi.py:44-52 | a falsy kind is error 0x103; a kind other than event is error 0x001; an event frame loads iff it has no extra keys, which are TypeError |
| Micro.Dump | src/zentropi.py:59-70 | an event dumps to its truthy fields; anything else is NotImplementedError |
| Micro.NewEvent | src/zentropi.py:77-79 | `Frame.event` builds an event of the event kind from its arguments |
| Micro.LoadDumpRoundTrip | src/zentropi.py:44-70 | an event whose falsy fields are the defaults survives dump then load |
| Micro.DumpLoadRoundTrip | src/zentropi.py:44-70 | a sparse event frame survives load then dump |
| Micro.FullFrameIsEvent | src/zentropi.py:50 | a dict with exactly the five fields is the dict of its event |
| Micro.Keywords | src/zentropi.py:160-165 | only a dict payload can be spread into keywords |
| Micro.TriggerHandler | src/zentropi.py:159-168 | a non-dict payload or a non-callable handler is error 0x101; otherwise the handler is called with the payload as keywords |
| Micro.ConnOpen | src/zentropi.py:102-114 | a connect succeeds iff the connection is fresh, the endpoint a non-empty string and the handler callable, and then it is connected |
| Micro.Send | src/zentropi.py:126-130 | send succeeds iff the connection is live, and sends the frame as given |
| Micro.Close | src/zentropi.py:132-136 | close succeeds iff the connection is open, and marks it closed |
| Micro.ConnectionLifecycle | src/zentropi.py:102-136 | an opened connection can send, and once closed it can neither send nor close again |
| Micro.HandlersOf | src/zentropi.py:142 | a name without handlers has the empty set; a list or dict name is TypeError |
| Micro.EqualNamesShareHandlers | src/zentropi.py:142 | names Python finds equal (`True` and `1`) read the same handler set |
| Micro.AddEventHandler | src/zentropi.py:170-171 | an unhashable name or handler is TypeError; otherwise the handler joins the set of its name and of every name equal to it (`True` and `1`), and nothing else changes |
| Micro.RemoveEventHandler | src/zentropi.py:173-174 | an unhashable name or handler is TypeError; a missing handler is KeyError; otherwise it leaves its name's set only |
| Micro.AddThenRemove | src/zentropi.py:170-174 | removing a handler just added restores every name's handlers |
| Micro.TriggerEach | src/zentropi.py:178-179 | each handler is triggered with the event, and the first error stops the loop |
| Micro.TriggerEventHandler | src/zentropi.py:176-179 | an unhashable name is TypeError; otherwise it passes iff every handler of the name is callable and accepts the event |
| Micro.Emit | src/zentropi.py:181-184 | the event is built with a tick-stamped uuid and an empty payload for falsy data, triggered locally (an unhashable name is TypeError), then dumped and sent; with no connection it is AttributeError after the handlers ran |
| Micro.EmittedEventLoads | src/zentropi.py:181-184 | the dump of an emitted event loads back as that event |
| Micro.Process | src/zentropi.py:92-100 | a frame that does not load raises its error; an event goes to its name's handlers, and an unhashable name is TypeError |
| Micro.EmitThenProcess | src/zentropi.py:92-184 | a peer processing what an agent sent triggers the same handlers with the same event |
| Micro.Stop | src/zentropi.py:226-228 | stop succeeds once and sets the flag; a second stop is AssertionError |
| Micro.Spawn | src/zentropi.py:204-209 | with a loop the coroutine is scheduled; without one it is deferred |
| Micro.Connect | src/zentropi.py:193-199 | connect succeeds iff there is no connection yet, creates a fresh one and spawns its connect |
| Micro.Attach | src/zentropi.py:211-214 | attach succeeds iff there is no loop yet, and records the loop |
| Micro.Start | src/zentropi.py:216-219 | start succeeds iff there is no loop and no stop, records the loop and runs the deferred coroutines |
| Micro.LoopSetOnce | src/zentropi.py:211-219 | after attach, a second attach or start is AssertionError, and a later connect spawns its coroutine at once |
| Micro.ConnectBeforeStart | src/zentropi.py:193-219 | a connect before any loop is deferred, and start runs it |
| Micro.StopLatches | src/zentropi.py:216-228 | after a stop, neither stop nor start succeeds |

`src/zentropi.py:40-42` (`Frame.deflate`) is the same operation as
`deflate_dict`, and the MicroPython codec uses `Utils.Deflate` for it.

## Left out

- Asynchronous execution is not modelled. This covers the event loop, `_run_forever`, the MicroPython `_start` sleep loop and its `spawn`, and handlers that are coroutine functions: the model records what is scheduled, not when it runs.
- Transports are not modelled, beyond the outcome of their synchronous `connect` and `bind`: the in-memory, Redis and websocket connections, and the MicroPython receive loop and JSON decoding (`connect` after the socket opens, and `load_json` / `dump_json`). Their effects on a peer are the model's `Fanout` and `Send` results.
- Connections.Fan: `connections_by_tags` checks every tag before it yields anything, so a missing tag fails before any call is made. What happens on each connection after that is not modelled. That covers a transport's own `broadcast`, `join` or `leave` raising part way through. It also covers, as written, the AttributeError of the missing `spawn` at the first coroutine transport (see Findings). The model returns the groups and the call.
- Spaces.Broadcast: a member with no registered connection (KeyError) or registered without one (AttributeError at `connection.send`) fails the broadcast part way through. The model reports that error and not the sends already made in that space and in earlier ones.
- Spaces.HandleCommand: a `join` whose payload names a space that is not a string is TypeError in the model. Python would file a space under that value, but spaces here are named by strings.
- `Spaces.agent_close` only prints, and is not modelled.
- I/O is not modelled: Config's `load` from a file or YAML stream, `save`, `load_env` and `export_env`, and the logging helpers in `utils.py`. The loop at the end of `load` is modelled as `Config.Import`.
- `Config.__init__`'s `_check_class_attributes` walks `__dir__()` by introspection, and is not modelled. Config.Finish models only the required-option check and the freeze.
- Config.SetPrivate: assigning `data` replaces the dict wholesale in Python. The model keeps the options and only records the four lock flags.
- Config.ValidateObject: assigning an Option object to an existing option is modelled as always refused. Under coercion a `str` or `bool` validator, or a user callable, could accept the object.
- Config.FreshOption: the caller's Option object is renamed in place in Python, and that aliasing is not modelled.
- Config.GetAttr and States.GetAttr: the object's methods come from `__dir__()` and are a parameter.
- Zentropian.InspectHandlers: the decorated methods' `meta` lists, which `inspect_handlers` finds through `__dir__()`, are a parameter. Agent.NewAgent lists the agent's own `_on_should_stop` first.
- Frames.NewFrame: `validate_meta` hands back the caller's own meta dict, and the constructor writes the routing keys and the timestamp into it, so the caller's dict changes too. The model builds a new map and does not model that aliasing.
- Frames.Attr: names that `UserDict` itself defines (`data`, `get`, `keys`, …) are found before `__getattr__` runs, so they do not read the payload key of that name. The model reads the payload for every name. After `data` has been replaced by something that is not a dict (which Frames.SetAttr allows), reading an attribute from that payload is not modelled either.
- Matching.ParseWith: `match_parse` writes the parsed groups into the frame's payload before the caller may raise. The model returns the updated frame instead of mutating a shared one.
- Matching.MatchFuzzy: `process.extractOne` on a nameless frame is modelled as TypeError. The `parse` library and the fuzzy scorer are uninterpreted parameters (`Matchers`).
- Handlers.Remove and Micro.RemoveEventHandler: `defaultdict` creates an empty set for a name looked up but never filed. The model does not record those empty entries.
- Connections.ConnectionsByEndpoint: the `defaultdict` of endpoints likewise files an empty set for an endpoint looked up but never connected. The model does not record it.
- Connections.Connect and Connections.Bind: they build the connection with the corrected `Build`, so a subclass of `Connection` passed as the class is instantiated. As written the code refuses every class with ValueError; Connections.BuildAsWritten models that, and the Findings table gives the input.
- Micro.AddEventHandler: of two handlers Python finds equal (`True` and `1`, both non-callable), a set keeps the first one added, where the model keeps their common key. It changes no outcome: a non-callable handler fails the same way whichever it is.
- Dict keys and set elements: a bool and the integer it equals are one key (`PyValues.Key`), and lists and dicts are unhashable. Registries keyed by strings (spaces, agents, endpoints, tags, states) compare keys as strings only.
- Micro.TriggerEventHandler: a Python set's iteration order is unspecified, so the order is a parameter that must list the set.
- Micro.Start: `start` records the loop before `_start`'s assertions fail. The model reports the AssertionError without the partial write.
- Micro `Agent.run` is `start` with the default loop. `Agent.close` delegates to the connection's close, which is Micro.Close. `on_event` is Micro.AddEventHandler. A user `connection_class` is not modelled.
- States: `describe` is not modelled because it depends on `Field.describe` of arbitrary field classes, which Fields.Describe covers for a single field. Storing a `Field` object into an existing state is not modelled.
- States.SetAttr requires that the key is not one of the three attributes the constructor sets through `object.__setattr__` (`data`, `_trigger_frame_handler`, `_handlers`).
- JSON sizes are a `Sizer` parameter, and uuids, the clock and `ticks_us` are parameters.
- `PyValues.Lower` lower-cases ASCII letters only.
- Floating-point values and timestamps given as floats are not modelled; values are None, bools, ints, strings, lists and string-keyed dicts.
- The Handler's call (`__call__`) is the `invoke` parameter, and its return value is whatever that gives.

## Findings

| source | as written | input that shows it | evidently intended | confidence | as-written member | corrected member |
|---|---|---|---|---|---|---|
| src/zentropi/handlers.py:180-197 | `frame.data.text` is read before choosing the text, and an empty payload makes `frame.data` a plain `{}` without attribute access | a registry with the parse pattern `hello {name}` and the event `hello world` with no data | fall back to the frame's name when the payload has no string `text` | high (not executed) | Matching.MatchParseAsWritten, Matching.ParseCounterexample | Matching.MatchParse, Matching.Match |
| src/zentropi/connections/registry.py:13-26 | `isinstance(connection_class, Connection)` tests a class as if it were an instance, so every class is refused | `build_connection_instance('inmemory://', WebsocketConnection, agent)` raises ValueError | `issubclass`, instantiating the class | high (not executed) | Connections.BuildAsWritten, Connections.UserClassRejected | Connections.Build, Connections.Connect, Connections.Bind |
| src/zentropi/frames.py:148-163 | `from_dict` calls `build(**d)`, and `build` needs `name`, which `as_dict` drops for a nameless frame | `Frame.from_dict(Frame().as_dict())` is TypeError | nameless frames round-trip like the rest | high (not executed) | Frames.FromDictAsWritten, Frames.NamelessFrameCounterexample | Frames.FromDict, Frames.RoundTrip |
| src/zentropi/zentropian.py:50-59 | `handle_frame` calls `match` on `Events` and `States`, which have none; `States` turns the name into a state read | any `Event` passed to `handle_frame` raises AttributeError | match in the handler registries the two objects hold | high (not executed) | Zentropian.HandleFrameAsWritten, Zentropian.HandleFrameReachesExactHandlers | Zentropian.HandleFrame, Zentropian.HandleFrameReachesExactHandlers |
| src/zentropi/zentropian.py:93-98 | `emit` passes `source` and `reply_to` to `Events.emit`, which takes neither | `Zentropian().emit('x')` is TypeError | the event carries the agent as source and the reply_to it was given | high (not executed) | Zentropian.EmitAsWritten | Zentropian.Emit, Zentropian.InternalEmitStaysLocal |
| src/zentropi/config.py:163-178 | after an existing option is modified, the check against extension still runs and raises, but the new value is already in the shared option | a frozen config with `_can_modify = True`, `_can_extend = False` and an int option `port`; `config.port = 2` raises PermissionError and `port` is 2 | the extension check applies only to new options | high (not executed) | Config.SetOptionAsWritten, Config.ModifyRaisesAfterWriting, Config.ImportAsWritten, Config.ImportStopsAsWritten | Config.SetOption, Config.SetOptionPreservesInv, Config.Import, Config.ImportPreservesInv |
| src/zentropi/connections/registry.py:44-62 | a transport whose `connect` or `bind` is a coroutine function is handed to `self._agent.spawn`, but neither `Zentropian` nor `Agent` defines `spawn` (only the MicroPython agent does) | `Zentropian().connect('redis://localhost')`: `RedisConnection.connect` is a coroutine function, so the call is AttributeError and nothing is filed | the agent spawns the coroutine and the connection is filed | medium (not executed) | Connections.CallAsWritten, Connections.CoroutineRegistrationFails | Connections.CallSpawned, Connections.CoroutineRegistrationFiles, Zentropian.Connect |

=== FILE: agent.dfy ===
/** Agent: a Zentropian with a `should_stop` state whose rising edge closes
    the agent's connections, and an event loop it runs on. */
module Agent {
  import opened Results
  import opened PyValues
  import opened Symbols
  import opened Frames
  import opened Handlers
  import opened Fields
  import opened Connections
  import opened Utils
  import opened Z = Zentropian
  import St = States
  import Ev = Events

  /** The identity of the `_on_should_stop` function. */
  const ShouldStopRef: nat := 1

  /** `_on_should_stop` takes `self`, and is a plain function. */
  const ShouldStopFn: Obj := Fn(ShouldStopRef, false, true)

  const ShouldStop := "should_stop"

  /** The `meta` list the class-level `@on_state('should_stop')` decoration
      leaves on `_on_should_stop`; `uid` stands for the handler's identity. */
  function ShouldStopMeta(uid: nat): Result<seq<Handler>> {
    Decorate(None, State, VStr(ShouldStop), ShouldStopFn, VBool(true), VBool(false), VBool(false), uid)
  }

  /** The decoration succeeds, with one exact state handler for `should_stop`
      that receives the agent. */
  lemma ShouldStopMetaOk(uid: nat)
    ensures ShouldStopMeta(uid).Ok? && |ShouldStopMeta(uid).value| == 1
    ensures var h := ShouldStopMeta(uid).value[0];
            h.kind == State && h.name == ShouldStop && h.matchExact && h.passSelf && !h.runAsync && h.fnRef == ShouldStopRef
  {
    assert ValidName(ShouldStop) by {
      assert !IsSpace(ShouldStop[0]);
    }
  }

  /** An agent and the event loop it has been given, if any. */
  datatype Agent = Agent(z: Zentropian, loop: Option<nat>)

  /** `should_stop` and `running` filed as False. */
  function WithFlags(s: St.States, ids: (string, string)): (r: St.States)
    ensures r.data.Keys == s.data.Keys + {ShouldStop, "running"}
    ensures r.handlers == s.handlers && r.callback == s.callback
    ensures St.GetState(r, ShouldStop) == Ok(VBool(false)) && St.GetState(r, "running") == Ok(VBool(false))
    ensures r.data[ShouldStop].FieldSlot? && r.data[ShouldStop].f.kind == BaseKind
  {
    var s1 := St.AddState(s, ShouldStop, St.AValue(VBool(false)), ids.0);
    St.AddState(s1, "running", St.AValue(VBool(false)), ids.1)
  }

  /** `Agent.__init__`: the Zentropian is built with the agent's own
      decorated method listed first, then `should_stop` and `running` are
      assigned False; neither is a state yet, so each assignment adds one. */
  function NewAgent(name: Value, nameId: string, metas: seq<seq<Handler>>, uid: nat, ids: (string, string)): (r: Result<Agent>)
    ensures InitialName(name, nameId).Err? ==> r.Err?
    ensures r.Ok? ==> r.value.loop == None
    ensures r.Ok? ==> r.value.z.states.data.Keys == {ShouldStop, "running"}
    ensures r.Ok? ==> St.GetState(r.value.z.states, ShouldStop) == Ok(VBool(false))
    ensures r.Ok? ==> St.GetState(r.value.z.states, "running") == Ok(VBool(false))
    ensures r.Ok? ==> r.value.z.states.data[ShouldStop].FieldSlot? && r.value.z.states.data[ShouldStop].f.kind == BaseKind
  {
    ShouldStopMetaOk(uid);
    var z :- NewZentropian(name, nameId, [ShouldStopMeta(uid).value] + metas);
    Ok(Agent(z.(states := WithFlags(z.states, ids)), None))
  }

  /** A new agent is the Zentropian built from its handler lists, with the
      two flags added to its states. */
  lemma NewAgentUnfolds(name: Value, nameId: string, metas: seq<seq<Handler>>, uid: nat, ids: (string, string))
    requires NewAgent(name, nameId, metas, uid, ids).Ok?
    ensures ShouldStopMeta(uid).Ok?
    ensures var z := NewZentropian(name, nameId, [ShouldStopMeta(uid).value] + metas);
            z.Ok? && NewAgent(name, nameId, metas, uid, ids).value.z == z.value.(states := WithFlags(z.value.states, ids))
  {
    ShouldStopMetaOk(uid);
  }

  /** Adding the flags leaves every registration in place. */
  lemma FlagsKeepRegistered(z: Zentropian, ids: (string, string), h: Handler)
    requires Registered(z, h)
    ensures Registered(z.(states := WithFlags(z.states, ids)), h)
  {
  }

  /** A new agent has its own `should_stop` handler registered, along with
      every handler of its decorated methods. */
  lemma NewAgentRegisters(name: Value, nameId: string, metas: seq<seq<Handler>>, uid: nat, ids: (string, string))
    requires NewAgent(name, nameId, metas, uid, ids).Ok?
    ensures ShouldStopMeta(uid).Ok? && Registered(NewAgent(name, nameId, metas, uid, ids).value.z, ShouldStopMeta(uid).value[0])
    ensures forall i, j | 0 <= i < |metas| && 0 <= j < |metas[i]| :: Registered(NewAgent(name, nameId, metas, uid, ids).value.z, metas[i][j])
  {
    NewAgentUnfolds(name, nameId, metas, uid, ids);
    var metas' := [ShouldStopMeta(uid).value] + metas;
    InitRegisters(name, nameId, metas');
    var z := NewZentropian(name, nameId, metas').value;
    var az := NewAgent(name, nameId, metas, uid, ids).value.z;
    assert metas'[0][0] == ShouldStopMeta(uid).value[0];
    FlagsKeepRegistered(z, ids, metas'[0][0]);
    forall i, j | 0 <= i < |metas| && 0 <= j < |metas[i]|
      ensures Registered(az, metas[i][j])
    {
      assert metas[i][j] == metas'[i + 1][j];
      FlagsKeepRegistered(z, ids, metas[i][j]);
    }
  }

  /** Assigning a name that is not a state yet adds it, as `NewAgent` does. */
  lemma AssignmentAddsState(s: St.States, key: string, v: Value, objectId: string, env: Env)
    requires env.newId != []
    requires key !in s.data && !St.ObjectAttribute(key) && key != "_trigger_frame_handler"
    ensures St.SetAttr(s, key, Val(v), objectId, StatesEnv(env)) == Ok(St.AddState(s, key, St.AValue(v), objectId))
  {
  }

  /** The handlers given to a new Zentropian are all registered. */
  lemma InitRegisters(name: Value, nameId: string, metas: seq<seq<Handler>>)
    requires NewZentropian(name, nameId, metas).Ok?
    ensures forall i, j | 0 <= i < |metas| && 0 <= j < |metas[i]| :: Registered(NewZentropian(name, nameId, metas).value, metas[i][j])
  {
    var n := InitialName(name, nameId).value;
    var z0 := Z.Zentropian(Some(n), St.NewStates(Callback).value, Ev.NewEvents(Callback).value, NoConnections);
    ShouldStopMetaOk(0);
    InspectRegistersAll(z0, metas, ShouldStopMeta(0).value[0]);
  }

  /** What `_on_should_stop` did: the connections it closed, if it closed
      any, and its answer. */
  datatype StopAnswer = StopAnswer(closed: Option<seq<set<Conn>>>, answer: Value)

  /** `_on_should_stop`: closes every connection when the state goes from
      exactly False to exactly True, and always allows the change. */
  function OnShouldStop(a: Agent, frame: Frame): (r: Result<StopAnswer>)
    ensures frame.data == map[] ==> r == Err(AttributeError)
    ensures frame.data != map[] ==> r.Ok? && r.value.answer == VBool(true)
    ensures r.Ok? ==> (r.value.closed.Some? <==>
                         Get(frame.data, "last") == VBool(false) && Get(frame.data, "value") == VBool(true))
    ensures r.Ok? && r.value.closed.Some? ==> r.value.closed.value == [a.z.conns.all]
  {
    var last :- DataAttrAsWritten(frame, "last");
    if last == VBool(false) then
      if Attr(frame.data, "value") == VBool(true) then
        match Close(a.z, VNone, NoTags)
        case Ok(closed) => Ok(StopAnswer(Some(closed), VBool(true)))
        case Err(e) => Err(e)
      else Ok(StopAnswer(None, VBool(true)))
    else Ok(StopAnswer(None, VBool(true)))
  }

  /** The agent's functions as the trigger sees them: its own handler runs
      `_on_should_stop`, every other function is the caller's. */
  function AgentInvoke(a: Agent, user: (nat, seq<Arg>) -> Result<Value>): (nat, seq<Arg>) -> Result<Value> {
    (ref: nat, args: seq<Arg>) =>
      if ref == ShouldStopRef && |args| == 2 && args[1].FrameArg? then
        (var s :- OnShouldStop(a, args[1].frame); Ok(s.answer))
      else user(ref, args)
  }

  function AgentEnv(a: Agent, env: Env): Env {
    env.(invoke := AgentInvoke(a, env.invoke))
  }

  /** The agent after a stop, and the connections the stop closed. */
  datatype Stopped = Stopped(agent: Agent, closed: Option<seq<set<Conn>>>)

  /** The connections the agent's own handler closed during an update: none
      unless it was among the handlers consulted. */
  function ClosedBy(a: Agent, u: St.Update): (r: Option<seq<set<Conn>>>)
    ensures r.Some? ==> u.frame.Some? && OnShouldStop(a, u.frame.value).Ok? && OnShouldStop(a, u.frame.value).value.closed == r
  {
    if u.frame.Some? && (exists h | h in u.consulted :: h.fnRef == ShouldStopRef && h.passSelf && !h.runAsync && h.kind != Timer) then
      match OnShouldStop(a, u.frame.value)
      case Ok(s) => s.closed
      case Err(_) => None
    else None
  }

  /** `stop`: assigns True to `should_stop`, which the state handlers see,
      the agent's own handler among them. */
  function Stop(a: Agent, objectId: string, env: Env): (r: Result<Stopped>)
    requires env.newId != []
    ensures r.Ok? ==> St.SetAttr(a.z.states, ShouldStop, Val(VBool(true)), objectId, StatesEnv(AgentEnv(a, env))) == Ok(r.value.agent.z.states)
    ensures r.Ok? ==> r.value.agent == a.(z := a.z.(states := r.value.agent.z.states))
    ensures ShouldStop !in a.z.states.data ==> r.Ok? && r.value.closed.None?
  {
    var senv := StatesEnv(AgentEnv(a, env));
    assert !St.ObjectAttribute(ShouldStop) by {
      assert ShouldStop[0] == 's';
    }
    if ShouldStop in a.z.states.data then
      var u :- St.UpdateState(a.z.states, ShouldStop, VBool(true), senv);
      Ok(Stopped(a.(z := a.z.(states := u.states)), ClosedBy(a, u)))
    else
      Ok(Stopped(a.(z := a.z.(states := St.AddState(a.z.states, ShouldStop, St.AValue(VBool(true)), objectId))), None))
  }

  /** A stop either latches `should_stop` at True or is vetoed and changes
      nothing. */
  lemma StopLatches(a: Agent, objectId: string, env: Env)
    requires env.newId != []
    requires ShouldStop in a.z.states.data && a.z.states.data[ShouldStop].FieldSlot?
    requires a.z.states.data[ShouldStop].f.kind == BaseKind
    requires Stop(a, objectId, env).Ok?
    ensures var s := Stop(a, objectId, env).value.agent.z.states;
            St.GetState(s, ShouldStop) == Ok(VBool(true)) || s == a.z.states
  {
    var senv := StatesEnv(AgentEnv(a, env));
    var f := a.z.states.data[ShouldStop].f;
    BaseAcceptsAll(VBool(true));
    assert SetValue(f, HooksOf(senv.classes, f.kind), VBool(true)) == Ok(f.(stored := VBool(true)));
  }

  /** The frame announcing a stop carries the current value as `last`, so
      the first stop (from False) closes the connections and a repeated
      stop (from True) does not. */
  lemma StopClosesOnce(a: Agent, env: Env)
    requires env.newId != []
    ensures var first := St.ChangeFrame(ShouldStop, VBool(true), VBool(false), StatesEnv(env));
            first.Ok? ==> OnShouldStop(a, first.value) == Ok(StopAnswer(Some([a.z.conns.all]), VBool(true)))
    ensures var again := St.ChangeFrame(ShouldStop, VBool(true), VBool(true), StatesEnv(env));
            again.Ok? ==> OnShouldStop(a, again.value) == Ok(StopAnswer(None, VBool(true)))
  {
  }

  /** `_set_asyncio_loop`: a second loop is an AssertionError; a given loop
      is kept, and without one the default loop is taken. */
  function SetLoop(a: Agent, loop: Option<nat>, defaultLoop: nat): (r: Result<Agent>)
    ensures a.loop.Some? && loop.Some? ==> r == Err(AssertionError)
    ensures a.loop.None? && loop.Some? ==> r == Ok(a.(loop := loop))
    ensures a.loop.Some? && loop.None? ==> r == Ok(a)
    ensures a.loop.None? && loop.None? ==> r == Ok(a.(loop := Some(defaultLoop)))
    ensures r.Ok? ==> r.value.loop.Some? && r.value.z == a.z
  {
    if a.loop.Some? && loop.Some? then Err(AssertionError)
    else
      var a1 := if loop.Some? then a.(loop := loop) else a;
      if a1.loop.None? then Ok(a1.(loop := Some(defaultLoop))) else Ok(a1)
  }

  /** Once a loop is set, asking for the default again keeps it, and
      offering another loop is refused. */
  lemma LoopIsSetOnce(a: Agent, loop: Option<nat>, d1: nat, d2: nat, other: nat)
    requires SetLoop(a, loop, d1).Ok?
    ensures SetLoop(SetLoop(a, loop, d1).value, None, d2) == SetLoop(a, loop, d1)
    ensures SetLoop(SetLoop(a, loop, d1).value, Some(other), d2) == Err(AssertionError)
  {
  }
}

=== FILE: config.dfy ===
/** Config: options with a validator, a default and the source of their
    current value, collected in a dict that can be frozen against changes
    and against new options. */
module Config {
  import opened Results
  import opened PyValues

  /** The value sources, in order: DEFAULT, CONFIG, ENV, RUNTIME. */
  const Default: nat := 0
  const FromConfig: nat := 1
  const FromEnv: nat := 2
  const Runtime: nat := 3

  const Labels := ["DEFAULT", "CONFIG", "ENV", "RUNTIME"]

  /** `sources.validate`: membership in `[0, 1, 2, 3]`, where a bool
      compares equal to 0 or 1; the source is returned as its index. */
  function ValidateSourceValue(v: Value): (r: Result<nat>)
    ensures r.Ok? ==> r.value <= Runtime
    ensures v.VInt? ==> (r.Ok? <==> 0 <= v.i <= 3) && (r.Ok? ==> r.value == v.i)
    ensures v.VBool? ==> r == Ok(if v.b then 1 else 0)
    ensures !v.VInt? && !v.VBool? ==> r == Err(ValueError)
    ensures r.Err? ==> r.error == ValueError
  {
    match v
    case VInt(i) => if 0 <= i <= 3 then Ok(i as nat) else Err(ValueError)
    case VBool(b) => Ok(if b then 1 else 0)
    case _ => Err(ValueError)
  }

  /** `Option.validate_source`: a falsy source means DEFAULT. */
  function ValidateSource(v: Value): (r: Result<nat>)
    ensures !Truthy(v) ==> r == Ok(Default)
    ensures Truthy(v) ==> r == ValidateSourceValue(v)
  {
    if !Truthy(v) then Ok(Default) else ValidateSourceValue(v)
  }

  /** The Python types a value can have here. */
  datatype PyType = NoneType | BoolType | IntType | StrType | ListType | DictType

  function TypeOf(v: Value): PyType {
    match v
    case VNone => NoneType
    case VBool(_) => BoolType
    case VInt(_) => IntType
    case VStr(_) => StrType
    case VList(_) => ListType
    case VMap(_) => DictType
  }

  /** `isinstance(v, t)`: bool is a subclass of int. */
  predicate IsInstance(v: Value, t: PyType) {
    TypeOf(v) == t || (t == IntType && v.VBool?)
  }

  /** `t(v)` for an instance of `t`: the same value, except that `int` turns
      a bool into 0 or 1, and `NoneType` takes no argument. */
  function Cast(t: PyType, v: Value): (r: Result<Value>)
    requires IsInstance(v, t)
    ensures t == NoneType ==> r == Err(TypeError)
    ensures t != NoneType && !(t == IntType && v.VBool?) ==> r == Ok(v)
  {
    if t == NoneType then Err(TypeError)
    else if t == IntType && v.VBool? then Ok(VInt(if v.b then 1 else 0))
    else Ok(v)
  }

  /** An option's validator: a type, some other callable (known by its
      identity), or something that cannot be called. */
  datatype Validator = TypeValidator(t: PyType) | CallableValidator(ref: nat) | NotCallable

  /** What calling a validator does beyond the cases above: a callable
      validator's answer, and a type's conversion of a value that is not
      already an instance. */
  datatype Conversions = Conversions(
    call: (nat, Value) -> Result<Value>,
    coerce: (PyType, Value) -> Result<Value>)

  /** A configuration option. `source` indexes `Labels`. */
  datatype ConfigOption = ConfigOption(
    name: Value,
    coerce: bool,
    validator: Validator,
    default: Value,
    value: Value,
    source: nat,
    optional: bool,
    config: bool,
    env: bool,
    secret: bool)

  /** `Option.validate`: without `coerce` the value must be an instance of
      the validator (which must then be a type); the validator is then
      called on the value. */
  function Validate(coerce: bool, validator: Validator, v: Value, conv: Conversions): (r: Result<Value>)
    ensures !coerce && validator.TypeValidator? && !IsInstance(v, validator.t) ==> r == Err(ValueError)
    ensures !coerce && !validator.TypeValidator? ==> r == Err(TypeError)
    ensures validator.TypeValidator? && IsInstance(v, validator.t) ==> r == Cast(validator.t, v)
    ensures coerce && validator.TypeValidator? && !IsInstance(v, validator.t) ==> r == conv.coerce(validator.t, v)
    ensures coerce && validator.CallableValidator? ==> r == conv.call(validator.ref, v)
  {
    match validator
    case TypeValidator(t) =>
      if IsInstance(v, t) then Cast(t, v)
      else if !coerce then Err(ValueError)
      else conv.coerce(t, v)
    case CallableValidator(ref) =>
      if !coerce then Err(TypeError) else conv.call(ref, v)
    case NotCallable => Err(TypeError)
  }

  /** `Option.__init__`: a validator that cannot be called is a ValueError,
      a non-None default is validated, the value starts at the default and
      a falsy source means DEFAULT. */
  function NewOption(validator: Validator, default: Value, optional: Value, coerce: Value, config: Value,
                     env: Value, secret: Value, source: Value, name: Value, conv: Conversions): (r: Result<ConfigOption>)
    ensures validator == NotCallable ==> r == Err(ValueError)
    ensures r.Ok? ==> r.value.value == r.value.default && r.value.name == name && r.value.validator == validator
    ensures r.Ok? ==> default == VNone ==> r.value.default == VNone
    ensures r.Ok? && default != VNone ==> Validate(Truthy(coerce), validator, default, conv) == Ok(r.value.default)
    ensures r.Ok? ==> ValidateSource(source) == Ok(r.value.source)
    ensures r.Ok? ==> r.value.optional == Truthy(optional) && r.value.config == Truthy(config)
                      && r.value.env == Truthy(env) && r.value.secret == Truthy(secret) && r.value.coerce == Truthy(coerce)
    ensures validator != NotCallable && default == VNone && ValidateSource(source).Ok? ==> r.Ok?
  {
    if validator == NotCallable then Err(ValueError)
    else
      var d :- if default != VNone then Validate(Truthy(coerce), validator, default, conv) else Ok(VNone);
      var s :- ValidateSource(source);
      Ok(ConfigOption(name, Truthy(coerce), validator, d, d, s, Truthy(optional), Truthy(config), Truthy(env), Truthy(secret)))
  }

  /** The `source` property. */
  function SourceLabel(o: ConfigOption): (r: string)
    requires o.source <= Runtime
    ensures r == Labels[o.source]
  {
    Labels[o.source]
  }

  /** The option after `set_value` and the exception it raised, if any: the
      value is written before the source is checked. */
  datatype OptionWrite = OptionWrite(option: ConfigOption, outcome: Outcome)

  /** `Option.set_value`: an invalid value changes nothing; an invalid source
      is rejected after the value has been written. */
  function SetValue(o: ConfigOption, v: Value, source: Value, conv: Conversions): (r: OptionWrite)
    ensures Validate(o.coerce, o.validator, v, conv).Err? ==> r == OptionWrite(o, Fail(Validate(o.coerce, o.validator, v, conv).error))
    ensures Validate(o.coerce, o.validator, v, conv).Ok? ==>
              var v' := Validate(o.coerce, o.validator, v, conv).value;
              && (ValidateSourceValue(source).Err? ==> r == OptionWrite(o.(value := v'), Fail(ValueError)))
              && (ValidateSourceValue(source).Ok? ==> r == OptionWrite(o.(value := v', source := ValidateSourceValue(source).value), Pass))
  {
    match Validate(o.coerce, o.validator, v, conv)
    case Err(e) => OptionWrite(o, Fail(e))
    case Ok(v') =>
      match ValidateSourceValue(source)
      case Err(e) => OptionWrite(o.(value := v'), Fail(e))
      case Ok(s) => OptionWrite(o.(value := v', source := s), Pass)
  }

  /** The `value` setter validates; the source is left alone. */
  function SetOptionValue(o: ConfigOption, v: Value, conv: Conversions): (r: Result<ConfigOption>)
    ensures r.Ok? <==> Validate(o.coerce, o.validator, v, conv).Ok?
    ensures r.Ok? ==> r.value == o.(value := Validate(o.coerce, o.validator, v, conv).value)
  {
    var v' :- Validate(o.coerce, o.validator, v, conv);
    Ok(o.(value := v'))
  }

  /** A config: its options by name in insertion order, the class name the
      option names are prefixed with, and the class flags, read as the
      source reads them (`_frozen` by truthiness or identity with False,
      `_can_modify` and `_can_extend` by identity with False, `_strict` by
      truthiness). */
  datatype Config = Config(
    data: map<string, ConfigOption>,
    order: seq<string>,
    className: string,
    frozen: Value,
    canModify: Value,
    canExtend: Value,
    strict: Value)

  predicate NoDupNames(s: seq<string>) {
    forall i, j :: 0 <= i < j < |s| ==> s[i] != s[j]
  }

  /** The order lists each option once. */
  ghost predicate Inv(c: Config) {
    NoDupNames(c.order) && (forall k :: k in c.order <==> k in c.data)
  }

  /** What may be assigned: an `Option` object or any other value. */
  datatype Assigned = AnOption(o: ConfigOption) | AValue(v: Value)

  /** The config after an assignment and the exception raised, if any. */
  datatype ConfigWrite = ConfigWrite(config: Config, outcome: Outcome)

  predicate Private(key: string) {
    key == "data" || StartsWith(key, "_")
  }

  /** Writes to the four flags; other private names do not touch options. */
  function SetPrivate(c: Config, key: string, v: Value): (r: Config)
    ensures r.data == c.data && r.order == c.order
  {
    if key == "_frozen" then c.(frozen := v)
    else if key == "_can_modify" then c.(canModify := v)
    else if key == "_can_extend" then c.(canExtend := v)
    else if key == "_strict" then c.(strict := v)
    else c
  }

  predicate ModifyLocked(c: Config) {
    Truthy(c.frozen) && c.canModify == VBool(false)
  }

  predicate ExtendLocked(c: Config) {
    Truthy(c.frozen) && c.canExtend == VBool(false)
  }

  /** An existing option given an `Option` object to validate: it is never
      an instance of a value type. */
  function ValidateObject(o: ConfigOption): (r: Result<Value>)
    ensures r.Err?
  {
    if o.validator.TypeValidator? && !o.coerce then Err(ValueError) else Err(TypeError)
  }

  /** The new option an assignment to an unknown name files: an `Option`
      object renamed `<Class>.<key>`, or a value wrapped in an option whose
      validator is the value's type. */
  function FreshOption(c: Config, key: string, a: Assigned, source: nat, conv: Conversions): (r: Result<ConfigOption>)
    ensures a.AnOption? ==> r == Ok(a.o.(name := VStr(c.className + "." + key)))
    ensures a.AValue? ==> r == NewOption(TypeValidator(TypeOf(a.v)), a.v, VBool(false), VBool(false), VBool(true),
                                         VBool(false), VBool(false), VInt(source), VStr(c.className + "." + key), conv)
  {
    match a
    case AnOption(o) => Ok(o.(name := VStr(c.className + "." + key)))
    case AValue(v) =>
      NewOption(TypeValidator(TypeOf(v)), v, VBool(false), VBool(false), VBool(true),
                VBool(false), VBool(false), VInt(source), VStr(c.className + "." + key), conv)
  }

  /** Re-files an option under a name already present. */
  function Refile(c: Config, key: string, o: ConfigOption): (r: Config)
    requires key in c.data
    ensures r == c.(data := c.data[key := o])
  {
    c.(data := c.data[key := o])
  }

  /** `_set_option_value` as written. A frozen config that may not be
      modified refuses a change to an existing option before touching it;
      the check against extension then runs for existing options too, after
      the change has been written into the shared option object. */
  function SetOptionAsWritten(c: Config, key: string, a: Assigned, source: nat, conv: Conversions): (r: ConfigWrite)
    requires source <= Runtime
    ensures Private(key) ==> r.outcome == Pass && r.config.data == c.data
    ensures !Private(key) && key in c.data && ModifyLocked(c) ==> r == ConfigWrite(c, Fail(PermissionError))
    ensures !Private(key) && key in c.data && !ModifyLocked(c) && a.AValue? && ExtendLocked(c) ==>
              var w := SetValue(c.data[key], a.v, VInt(source), conv);
              r == ConfigWrite(Refile(c, key, w.option), Fail(if w.outcome.Fail? then w.outcome.error else PermissionError))
  {
    if Private(key) then ConfigWrite(if a.AValue? then SetPrivate(c, key, a.v) else c, Pass)
    else if key in c.data then
      if ModifyLocked(c) then ConfigWrite(c, Fail(PermissionError))
      else
        match a
        case AnOption(o) => ConfigWrite(c, Fail(ValidateObject(c.data[key]).error))
        case AValue(v) =>
          var w := SetValue(c.data[key], v, VInt(source), conv);
          var c1 := Refile(c, key, w.option);
          if w.outcome.Fail? then ConfigWrite(c1, w.outcome)
          else if ExtendLocked(c) then ConfigWrite(c1, Fail(PermissionError))
          else ConfigWrite(c1, Pass)
    else
      match FreshOption(c, key, a, source, conv)
      case Err(e) => ConfigWrite(c, Fail(e))
      case Ok(o) =>
        if ExtendLocked(c) then ConfigWrite(c, Fail(PermissionError))
        else ConfigWrite(c.(data := c.data[key := o], order := c.order + [key]), Pass)
  }

  /** `_set_option_value` as intended: the extension check applies only to
      names that are not options yet. */
  function SetOption(c: Config, key: string, a: Assigned, source: nat, conv: Conversions): (r: ConfigWrite)
    requires source <= Runtime
    ensures Private(key) ==> r.outcome == Pass && r.config.data == c.data && r.config.order == c.order
    ensures !Private(key) && key in c.data && ModifyLocked(c) ==> r == ConfigWrite(c, Fail(PermissionError))
    ensures !Private(key) && key in c.data && !ModifyLocked(c) && a.AValue? ==>
              var w := SetValue(c.data[key], a.v, VInt(source), conv);
              r == ConfigWrite(Refile(c, key, w.option), w.outcome)
    ensures !Private(key) && key !in c.data && ExtendLocked(c) ==> r.config == c && r.outcome.Fail?
    ensures !Private(key) && key !in c.data && FreshOption(c, key, a, source, conv).Ok? && !ExtendLocked(c) ==>
              r == ConfigWrite(c.(data := c.data[key := FreshOption(c, key, a, source, conv).value], order := c.order + [key]), Pass)
  {
    if Private(key) then ConfigWrite(if a.AValue? then SetPrivate(c, key, a.v) else c, Pass)
    else if key in c.data then
      if ModifyLocked(c) then ConfigWrite(c, Fail(PermissionError))
      else
        match a
        case AnOption(o) => ConfigWrite(c, Fail(ValidateObject(c.data[key]).error))
        case AValue(v) =>
          var w := SetValue(c.data[key], v, VInt(source), conv);
          ConfigWrite(Refile(c, key, w.option), w.outcome)
    else
      match FreshOption(c, key, a, source, conv)
      case Err(e) => ConfigWrite(c, Fail(e))
      case Ok(o) =>
        if ExtendLocked(c) then ConfigWrite(c, Fail(PermissionError))
        else ConfigWrite(c.(data := c.data[key := o], order := c.order + [key]), Pass)
  }

  /** A config that may be modified but not extended: the code as written
      rejects a valid change to an existing option, yet keeps the change;
      the intended version accepts it. */
  lemma ModifyRaisesAfterWriting(conv: Conversions)
    ensures var o := ConfigOption(VStr("C.port"), false, TypeValidator(IntType), VInt(1), VInt(1), Default, false, true, false, false);
            var c := Config(map["port" := o], ["port"], "C", VBool(true), VBool(true), VBool(false), VBool(true));
            && SetOptionAsWritten(c, "port", AValue(VInt(2)), Runtime, conv)
               == ConfigWrite(Refile(c, "port", o.(value := VInt(2), source := Runtime)), Fail(PermissionError))
            && SetOption(c, "port", AValue(VInt(2)), Runtime, conv)
               == ConfigWrite(Refile(c, "port", o.(value := VInt(2), source := Runtime)), Pass)
  {
    var o := ConfigOption(VStr("C.port"), false, TypeValidator(IntType), VInt(1), VInt(1), Default, false, true, false, false);
    assert !Private("port") by {
      assert "port"[0] == 'p';
    }
    assert SetValue(o, VInt(2), VInt(Runtime), conv) == OptionWrite(o.(value := VInt(2), source := Runtime), Pass);
  }

  /** An assignment keeps the option order consistent. */
  lemma SetOptionPreservesInv(c: Config, key: string, a: Assigned, source: nat, conv: Conversions)
    requires source <= Runtime
    requires Inv(c)
    ensures Inv(SetOption(c, key, a, source, conv).config)
  {
    if !Private(key) && key !in c.data {
      assert key !in c.order;
      assert forall i | 0 <= i < |c.order| :: (c.order + [key])[i] == c.order[i];
    }
  }

  /** The two versions differ only on an existing option of a frozen config
      that may not be extended. */
  lemma AsWrittenAgreesElsewhere(c: Config, key: string, a: Assigned, source: nat, conv: Conversions)
    requires source <= Runtime
    requires !(key in c.data && ExtendLocked(c))
    ensures SetOptionAsWritten(c, key, a, source, conv) == SetOption(c, key, a, source, conv)
  {
  }

  /** A frozen config that may not be modified leaves every option as it was. */
  lemma LockedConfigUnchanged(c: Config, key: string, v: Value, source: nat, conv: Conversions)
    requires source <= Runtime
    requires key in c.data && !Private(key) && ModifyLocked(c)
    ensures SetOption(c, key, AValue(v), source, conv) == ConfigWrite(c, Fail(PermissionError))
    ensures SetOptionAsWritten(c, key, AValue(v), source, conv) == ConfigWrite(c, Fail(PermissionError))
  {
  }

  /** A valid assignment to an existing option is read back as an attribute
      once the config is frozen, with the source recorded. */
  lemma AssignmentReadsBack(c: Config, key: string, v: Value, source: nat, methods: set<string>, conv: Conversions)
    requires source <= Runtime
    requires key in c.data && !Private(key) && !ModifyLocked(c)
    requires Validate(c.data[key].coerce, c.data[key].validator, v, conv).Ok?
    ensures var w := SetOption(c, key, AValue(v), source, conv);
            && w.outcome == Pass
            && key in w.config.data
            && w.config.data[key].value == Validate(c.data[key].coerce, c.data[key].validator, v, conv).value
            && SourceLabel(w.config.data[key]) == Labels[source]
            && (c.frozen != VBool(false) && key !in methods ==>
                  GetAttr(w.config, key, methods) == Ok(OptionValue(w.config.data[key].value)))
  {
  }

  /** `_check_required_options_are_set`: a non-optional option without a
      value is a ValueError. */
  function CheckRequired(c: Config, names: seq<string>): (r: Outcome)
    ensures r == Pass <==> forall i | 0 <= i < |names| :: names[i] in c.data ==> c.data[names[i]].optional || c.data[names[i]].value != VNone
    ensures r.Fail? ==> r.error == ValueError
  {
    if names == [] then Pass
    else
      var n := names[0];
      if n in c.data && !c.data[n].optional && c.data[n].value == VNone then Fail(ValueError)
      else
        var rest := CheckRequired(c, names[1..]);
        assert forall i | 1 <= i < |names| :: names[1..][i - 1] == names[i];
        rest
  }

  /** The end of `Config.__init__`: the required check, then the freeze. */
  function Finish(c: Config, required: bool): (r: Result<Config>)
    ensures r.Ok? ==> r.value == c.(frozen := VBool(true))
    ensures !required ==> r.Ok?
    ensures required ==> (r.Ok? <==> CheckRequired(c, c.order) == Pass)
  {
    if required && CheckRequired(c, c.order).Fail? then Err(ValueError)
    else Ok(c.(frozen := VBool(true)))
  }

  /** What an attribute read yields: something on the object itself, or an
      option's value. */
  datatype Lookup = ObjectAttribute | OptionValue(v: Value)

  /** `Config.__getattribute__`. Private names, and every name before the
      freeze, read the object itself; so do the `methods` (names the class
      resolves to a truthy callable). Otherwise an option's value is read;
      an unknown name is an AttributeError when strict and None when not. */
  function GetAttr(c: Config, item: string, methods: set<string>): (r: Result<Lookup>)
    ensures Private(item) || c.frozen == VBool(false) ==> r == Ok(ObjectAttribute)
    ensures !(Private(item) || c.frozen == VBool(false)) && item in methods ==> r == Ok(ObjectAttribute)
    ensures !(Private(item) || c.frozen == VBool(false)) && item !in methods && item in c.data ==>
              r == Ok(OptionValue(c.data[item].value))
    ensures !(Private(item) || c.frozen == VBool(false)) && item !in methods && item !in c.data ==>
              r == (if Truthy(c.frozen) && !Truthy(c.strict) then Ok(OptionValue(VNone)) else Err(AttributeError))
  {
    if Private(item) || c.frozen == VBool(false) || item in methods then Ok(ObjectAttribute)
    else if item !in c.data then
      if Truthy(c.frozen) && Truthy(c.strict) then Err(AttributeError)
      else if Truthy(c.frozen) then Ok(OptionValue(VNone))
      else Err(AttributeError)
    else Ok(OptionValue(c.data[item].value))
  }

  /** The selection shared by export and import. */
  predicate Selected(o: ConfigOption, config: bool, env: bool) {
    (o.config && config) || (o.env && env)
  }

  /** `filter_export`: the selected options' names and values, in order. */
  function FilterExport(c: Config, names: seq<string>, config: bool, env: bool): (r: seq<(string, Value)>)
    ensures forall p :: p in r <==> p.0 in names && p.0 in c.data && Selected(c.data[p.0], config, env) && p.1 == c.data[p.0].value
  {
    if names == [] then []
    else
      var n := names[0];
      var rest := FilterExport(c, names[1..], config, env);
      if n in c.data && Selected(c.data[n], config, env) then [(n, c.data[n].value)] + rest else rest
  }

  /** `filter_import`: the selected options the incoming map gives a
      non-None value for, with that value. */
  function FilterImport(c: Config, names: seq<string>, incoming: map<string, Value>, config: bool, env: bool): (r: seq<(string, Value)>)
    ensures forall p :: p in r <==> p.0 in names && p.0 in c.data && Selected(c.data[p.0], config, env)
                                    && Get(incoming, p.0) != VNone && p.1 == incoming[p.0]
  {
    if names == [] then []
    else
      var n := names[0];
      var rest := FilterImport(c, names[1..], incoming, config, env);
      if n in c.data && Selected(c.data[n], config, env) && Get(incoming, n) != VNone then [(n, incoming[n])] + rest else rest
  }

  /** Import selects exactly the exported names the incoming map supplies. */
  lemma ImportMatchesExport(c: Config, incoming: map<string, Value>, config: bool, env: bool)
    ensures forall n :: (exists v :: (n, v) in FilterImport(c, c.order, incoming, config, env)) <==>
                        (exists v :: (n, v) in FilterExport(c, c.order, config, env)) && Get(incoming, n) != VNone
  {
    forall n
      ensures (exists v :: (n, v) in FilterImport(c, c.order, incoming, config, env)) <==>
              (exists v :: (n, v) in FilterExport(c, c.order, config, env)) && Get(incoming, n) != VNone
    {
      if Get(incoming, n) != VNone && n in c.order && n in c.data && Selected(c.data[n], config, env) {
        assert (n, incoming[n]) in FilterImport(c, c.order, incoming, config, env);
        assert (n, c.data[n].value) in FilterExport(c, c.order, config, env);
      }
    }
  }

  /** The loop at the end of `load` as written: each imported value goes
      through `_set_option_value` as written, with the CONFIG source; the
      first exception stops it, and the writes made before it stay. */
  function ImportAsWritten(c: Config, pairs: seq<(string, Value)>, conv: Conversions): (r: ConfigWrite)
    ensures pairs == [] ==> r == ConfigWrite(c, Pass)
    ensures |pairs| > 0 && SetOptionAsWritten(c, pairs[0].0, AValue(pairs[0].1), FromConfig, conv).outcome.Fail? ==>
              r == SetOptionAsWritten(c, pairs[0].0, AValue(pairs[0].1), FromConfig, conv)
    decreases |pairs|
  {
    if pairs == [] then ConfigWrite(c, Pass)
    else
      var w := SetOptionAsWritten(c, pairs[0].0, AValue(pairs[0].1), FromConfig, conv);
      if w.outcome.Fail? then w else ImportAsWritten(w.config, pairs[1..], conv)
  }

  /** The same loop over the corrected `SetOption`. */
  function Import(c: Config, pairs: seq<(string, Value)>, conv: Conversions): (r: ConfigWrite)
    ensures pairs == [] ==> r == ConfigWrite(c, Pass)
    ensures |pairs| > 0 && SetOption(c, pairs[0].0, AValue(pairs[0].1), FromConfig, conv).outcome.Fail? ==>
              r == SetOption(c, pairs[0].0, AValue(pairs[0].1), FromConfig, conv)
    decreases |pairs|
  {
    if pairs == [] then ConfigWrite(c, Pass)
    else
      var w := SetOption(c, pairs[0].0, AValue(pairs[0].1), FromConfig, conv);
      if w.outcome.Fail? then w else Import(w.config, pairs[1..], conv)
  }

  /** Importing keeps the option order consistent. */
  lemma {:induction false} ImportPreservesInv(c: Config, pairs: seq<(string, Value)>, conv: Conversions)
    requires Inv(c)
    ensures Inv(Import(c, pairs, conv).config)
    decreases |pairs|
  {
    if pairs != [] {
      SetOptionPreservesInv(c, pairs[0].0, AValue(pairs[0].1), FromConfig, conv);
      var w := SetOption(c, pairs[0].0, AValue(pairs[0].1), FromConfig, conv);
      if w.outcome.Pass? {
        ImportPreservesInv(w.config, pairs[1..], conv);
      }
    }
  }

  /** An assignment to a public name leaves the two locks as they were. */
  lemma SetOptionKeepsLocks(c: Config, key: string, a: Assigned, source: nat, conv: Conversions)
    requires source <= Runtime
    requires !Private(key)
    ensures var c' := SetOption(c, key, a, source, conv).config;
            c'.frozen == c.frozen && c'.canModify == c.canModify && c'.canExtend == c.canExtend
  {
  }

  /** Unless the config is locked against extension, importing public names
      as written and as corrected is the same. */
  lemma {:induction false} ImportAgreesWhenExtendable(c: Config, pairs: seq<(string, Value)>, conv: Conversions)
    requires !ExtendLocked(c)
    requires forall i | 0 <= i < |pairs| :: !Private(pairs[i].0)
    ensures ImportAsWritten(c, pairs, conv) == Import(c, pairs, conv)
    decreases |pairs|
  {
    if pairs != [] {
      AsWrittenAgreesElsewhere(c, pairs[0].0, AValue(pairs[0].1), FromConfig, conv);
      var w := SetOption(c, pairs[0].0, AValue(pairs[0].1), FromConfig, conv);
      if w.outcome.Pass? {
        SetOptionKeepsLocks(c, pairs[0].0, AValue(pairs[0].1), FromConfig, conv);
        assert forall i | 0 <= i < |pairs[1..]| :: pairs[1..][i] == pairs[i + 1];
        ImportAgreesWhenExtendable(w.config, pairs[1..], conv);
      }
    }
  }

  /** Loading a value for an existing option into a config that may be
      modified but not extended: as written the loop stops with a
      PermissionError after writing the value; corrected it goes on. */
  lemma ImportStopsAsWritten(conv: Conversions)
    ensures var o := ConfigOption(VStr("C.port"), false, TypeValidator(IntType), VInt(1), VInt(1), Default, false, true, false, false);
            var c := Config(map["port" := o], ["port"], "C", VBool(true), VBool(true), VBool(false), VBool(true));
            && ImportAsWritten(c, [("port", VInt(2))], conv)
               == ConfigWrite(Refile(c, "port", o.(value := VInt(2), source := FromConfig)), Fail(PermissionError))
            && Import(c, [("port", VInt(2))], conv)
               == ConfigWrite(Refile(c, "port", o.(value := VInt(2), source := FromConfig)), Pass)
  {
    var o := ConfigOption(VStr("C.port"), false, TypeValidator(IntType), VInt(1), VInt(1), Default, false, true, false, false);
    var c := Config(map["port" := o], ["port"], "C", VBool(true), VBool(true), VBool(false), VBool(true));
    assert !Private("port") by {
      assert "port"[0] == 'p';
    }
    assert SetValue(o, VInt(2), VInt(FromConfig), conv) == OptionWrite(o.(value := VInt(2), source := FromConfig), Pass);
    var w := SetOption(c, "port", AValue(VInt(2)), FromConfig, conv);
    assert w == ConfigWrite(Refile(c, "port", o.(value := VInt(2), source := FromConfig)), Pass);
    assert [("port", VInt(2))][1..] == [];
  }
}

=== FILE: connections.dfy ===
/** Connections: building a connection for an endpoint and the registry
    that files an agent's connections by tag and by endpoint. */
module Connections {
  import opened Results
  import opened PyValues
  import opened Frames

  /** The connection classes: the two the library picks by endpoint scheme,
      and a user-supplied subclass, known by its name. */
  datatype Transport = InMemory | Redis | UserTransport(cls: string)

  /** A connection object; `id` stands for its identity. */
  datatype Conn = Conn(id: nat, transport: Transport)

  /** What `connection_class` can be: absent (any falsy value), a subclass
      of `Connection`, an instance of one, or some other truthy object. */
  datatype ClassArg = NoClass | Subclass(name: string) | Instance | OtherObject

  const InMemoryScheme := "inmemory://"
  const RedisScheme := "redis://"

  /** The connection an endpoint names by its scheme; any other scheme is
      a ValueError. */
  function ForScheme(endpoint: string, id: nat): (r: Result<Conn>)
    ensures StartsWith(endpoint, InMemoryScheme) ==> r == Ok(Conn(id, InMemory))
    ensures !StartsWith(endpoint, InMemoryScheme) && StartsWith(endpoint, RedisScheme) ==> r == Ok(Conn(id, Redis))
    ensures !StartsWith(endpoint, InMemoryScheme) && !StartsWith(endpoint, RedisScheme) ==> r == Err(ValueError)
  {
    if StartsWith(endpoint, InMemoryScheme) then Ok(Conn(id, InMemory))
    else if StartsWith(endpoint, RedisScheme) then Ok(Conn(id, Redis))
    else Err(ValueError)
  }

  /** `build_connection_instance` as written: the guard asks whether the
      class is an instance of `Connection`, which a class never is, so every
      class is rejected; an instance passes and is then called, which a
      connection object does not support. */
  function BuildAsWritten(endpoint: string, cls: ClassArg, id: nat): (r: Result<Conn>)
    ensures cls.Subclass? || cls.OtherObject? ==> r == Err(ValueError)
    ensures cls.Instance? ==> r == Err(TypeError)
    ensures cls.NoClass? ==> r == ForScheme(endpoint, id)
  {
    match cls
    case Subclass(_) => Err(ValueError)
    case OtherObject => Err(ValueError)
    case Instance => Err(TypeError)
    case NoClass => ForScheme(endpoint, id)
  }

  /** `build_connection_instance` as its message intends: a subclass of
      `Connection` is instantiated, anything else truthy is a ValueError,
      and without a class the endpoint's scheme decides. */
  function Build(endpoint: string, cls: ClassArg, id: nat): (r: Result<Conn>)
    ensures cls.Subclass? ==> r == Ok(Conn(id, UserTransport(cls.name)))
    ensures cls.Instance? || cls.OtherObject? ==> r == Err(ValueError)
    ensures cls.NoClass? ==> r == ForScheme(endpoint, id)
  {
    match cls
    case Subclass(name) => Ok(Conn(id, UserTransport(name)))
    case NoClass => ForScheme(endpoint, id)
    case _ => Err(ValueError)
  }

  /** The two versions agree whenever no class is given, and a user class
      is the only place they differ in success. */
  lemma BuildAgreesWithoutClass(endpoint: string, cls: ClassArg, id: nat)
    ensures cls.NoClass? ==> Build(endpoint, cls, id) == BuildAsWritten(endpoint, cls, id)
    ensures BuildAsWritten(endpoint, cls, id).Ok? ==> Build(endpoint, cls, id) == BuildAsWritten(endpoint, cls, id)
  {
  }

  /** A connection subclass is refused by the code as written and
      instantiated by the corrected one. */
  lemma UserClassRejected()
    ensures BuildAsWritten("inmemory://", Subclass("WebsocketConnection"), 0) == Err(ValueError)
    ensures Build("inmemory://", Subclass("WebsocketConnection"), 0) == Ok(Conn(0, UserTransport("WebsocketConnection")))
  {
  }

  /** The registry: every connection, and the connections filed under each
      tag and each endpoint. */
  datatype ConnectionRegistry = ConnectionRegistry(
    all: set<Conn>,
    tags: map<string, set<Conn>>,
    endpoints: map<string, set<Conn>>)

  const NoConnections := ConnectionRegistry({}, map[], map[])

  /** Every filed connection is registered, every tag files at least one,
      and every registered connection is filed under some tag. */
  ghost predicate Inv(reg: ConnectionRegistry) {
    && (forall t | t in reg.tags :: reg.tags[t] != {} && reg.tags[t] <= reg.all)
    && (forall e | e in reg.endpoints :: reg.endpoints[e] <= reg.all)
    && (forall c | c in reg.all :: exists t | t in reg.tags :: c in reg.tags[t])
  }

  lemma NoConnectionsInv()
    ensures Inv(NoConnections)
  {
  }

  /** The `connected` property. */
  predicate Connected(reg: ConnectionRegistry) {
    |reg.all| > 0
  }

  /** A set-valued entry of a `defaultdict(set)`: missing keys read empty. */
  function SetAt(m: map<string, set<Conn>>, k: string): (r: set<Conn>)
    ensures k in m ==> r == m[k]
    ensures k !in m ==> r == {}
  {
    if k in m then m[k] else {}
  }

  /** Files a connection under the registry, the tag and the endpoint. */
  function File(reg: ConnectionRegistry, endpoint: string, tag: string, c: Conn): (r: ConnectionRegistry)
    ensures r.all == reg.all + {c}
    ensures r.tags.Keys == reg.tags.Keys + {tag} && r.endpoints.Keys == reg.endpoints.Keys + {endpoint}
    ensures r.tags[tag] == SetAt(reg.tags, tag) + {c}
    ensures r.endpoints[endpoint] == SetAt(reg.endpoints, endpoint) + {c}
    ensures forall t | t in reg.tags && t != tag :: r.tags[t] == reg.tags[t]
    ensures forall e | e in reg.endpoints && e != endpoint :: r.endpoints[e] == reg.endpoints[e]
  {
    ConnectionRegistry(
      reg.all + {c},
      reg.tags[tag := SetAt(reg.tags, tag) + {c}],
      reg.endpoints[endpoint := SetAt(reg.endpoints, endpoint) + {c}])
  }

  /** The transport call a registration makes on the new connection. */
  datatype Opening = Connecting(endpoint: string, auth: Value) | Binding(endpoint: string)

  /** The registry after a registration, the new connection and the call
      made on it. */
  datatype Opened = Opened(registry: ConnectionRegistry, connection: Conn, opening: Opening)

  /** `connect`: builds the connection, asks it to connect, and files it.
      `call` is the outcome of that request (see `TransportCall` below);
      when it fails the error propagates and nothing is filed. */
  function Connect(reg: ConnectionRegistry, endpoint: string, auth: Value, tag: string, cls: ClassArg, id: nat, call: Outcome): (r: Result<Opened>)
    ensures r.Ok? <==> Build(endpoint, cls, id).Ok? && call.Pass?
    ensures Build(endpoint, cls, id).Err? ==> r == Err(Build(endpoint, cls, id).error)
    ensures Build(endpoint, cls, id).Ok? && call.Fail? ==> r == Err(call.error)
    ensures r.Ok? ==> r.value == Opened(File(reg, endpoint, tag, Build(endpoint, cls, id).value),
                                        Build(endpoint, cls, id).value, Connecting(endpoint, auth))
  {
    var c :- Build(endpoint, cls, id);
    if call.Fail? then Err(call.error)
    else Ok(Opened(File(reg, endpoint, tag, c), c, Connecting(endpoint, auth)))
  }

  /** `bind`: as `connect`, with the listening call instead. */
  function Bind(reg: ConnectionRegistry, endpoint: string, tag: string, cls: ClassArg, id: nat, call: Outcome): (r: Result<Opened>)
    ensures r.Ok? <==> Build(endpoint, cls, id).Ok? && call.Pass?
    ensures Build(endpoint, cls, id).Err? ==> r == Err(Build(endpoint, cls, id).error)
    ensures Build(endpoint, cls, id).Ok? && call.Fail? ==> r == Err(call.error)
    ensures r.Ok? ==> r.value == Opened(File(reg, endpoint, tag, Build(endpoint, cls, id).value),
                                        Build(endpoint, cls, id).value, Binding(endpoint))
  {
    var c :- Build(endpoint, cls, id);
    if call.Fail? then Err(call.error)
    else Ok(Opened(File(reg, endpoint, tag, c), c, Binding(endpoint)))
  }

  /** Filing a connection keeps the registry consistent. */
  lemma FilePreservesInv(reg: ConnectionRegistry, endpoint: string, tag: string, c: Conn)
    requires Inv(reg)
    ensures Inv(File(reg, endpoint, tag, c))
  {
    FileTagsInv(reg, endpoint, tag, c);
    FileEndpointsInv(reg, endpoint, tag, c);
    FileCovered(reg, endpoint, tag, c);
  }

  lemma FileTagsInv(reg: ConnectionRegistry, endpoint: string, tag: string, c: Conn)
    requires forall t | t in reg.tags :: reg.tags[t] != {} && reg.tags[t] <= reg.all
    ensures var r := File(reg, endpoint, tag, c);
            forall t | t in r.tags :: r.tags[t] != {} && r.tags[t] <= r.all
  {
    var r := File(reg, endpoint, tag, c);
    forall t | t in r.tags
      ensures r.tags[t] != {} && r.tags[t] <= r.all
    {
      if t == tag {
        assert c in r.tags[t];
      }
    }
  }

  lemma FileEndpointsInv(reg: ConnectionRegistry, endpoint: string, tag: string, c: Conn)
    requires forall e | e in reg.endpoints :: reg.endpoints[e] <= reg.all
    ensures var r := File(reg, endpoint, tag, c);
            forall e | e in r.endpoints :: r.endpoints[e] <= r.all
  {
  }

  lemma FileCovered(reg: ConnectionRegistry, endpoint: string, tag: string, c: Conn)
    requires forall d | d in reg.all :: exists t | t in reg.tags :: d in reg.tags[t]
    ensures var r := File(reg, endpoint, tag, c);
            forall d | d in r.all :: exists t | t in r.tags :: d in r.tags[t]
  {
    var r := File(reg, endpoint, tag, c);
    forall d | d in r.all
      ensures exists t | t in r.tags :: d in r.tags[t]
    {
      if d == c {
        assert c in r.tags[tag];
      } else {
        var t :| t in reg.tags && d in reg.tags[t];
        if t == tag {
          assert d in r.tags[tag];
        } else {
          assert d in r.tags[t];
        }
      }
    }
  }

  /** After a successful connect the registry is connected, and the new
      connection is found under its tag and its endpoint. */
  lemma ConnectFiles(reg: ConnectionRegistry, endpoint: string, auth: Value, tag: string, cls: ClassArg, id: nat, call: Outcome)
    requires Connect(reg, endpoint, auth, tag, cls, id, call).Ok?
    ensures var o := Connect(reg, endpoint, auth, tag, cls, id, call).value;
            && Connected(o.registry)
            && o.connection in ConnectionsByEndpoint(o.registry, VStr(endpoint)).value
            && (tag != [] && ',' !in tag ==> ConnectionsByTags(o.registry, TagString(tag)) == Ok([o.registry.tags[tag]]))
            && o.connection in o.registry.tags[tag]
  {
    var o := Connect(reg, endpoint, auth, tag, cls, id, call).value;
    assert o.connection in o.registry.all;
    if tag != [] && ',' !in tag {
      assert ParseTags(TagString(tag)) == [tag];
      var r := ConnectionsByTags(o.registry, TagString(tag));
      assert r.Ok?;
      assert r.value == [o.registry.tags[tag]];
    }
  }

  /** How a transport implements `connect`, `bind`, `broadcast`, `join` or
      `leave`: a plain method whose call ends in `outcome`, or a coroutine
      function, which the registry hands to `self._agent.spawn`. */
  datatype TransportCall = Sync(outcome: Outcome) | Coroutine

  /** As written: the registry's agent is a `Zentropian` or an `Agent`, and
      neither class defines `spawn`, so a coroutine transport raises
      AttributeError before its coroutine is created. */
  function CallAsWritten(t: TransportCall): (r: Outcome)
    ensures t.Coroutine? ==> r == Fail(AttributeError)
    ensures r.Pass? <==> t == Sync(Pass)
  {
    if t.Coroutine? then Fail(AttributeError) else t.outcome
  }

  /** Corrected: the coroutine is spawned and the registration goes on. */
  function CallSpawned(t: TransportCall): (r: Outcome)
    ensures t.Coroutine? ==> r == Pass
    ensures t.Sync? ==> r == CallAsWritten(t)
  {
    if t.Coroutine? then Pass else t.outcome
  }

  /** As written, a coroutine transport is never registered: both `connect`
      and `bind` fail with AttributeError and file nothing. */
  lemma CoroutineRegistrationFails(reg: ConnectionRegistry, endpoint: string, auth: Value, tag: string, cls: ClassArg, id: nat)
    requires Build(endpoint, cls, id).Ok?
    ensures Connect(reg, endpoint, auth, tag, cls, id, CallAsWritten(Coroutine)) == Err(AttributeError)
    ensures Bind(reg, endpoint, tag, cls, id, CallAsWritten(Coroutine)) == Err(AttributeError)
  {
  }

  /** Once the coroutine is spawned, a coroutine transport is registered
      under its tag and its endpoint like any other. */
  lemma CoroutineRegistrationFiles(reg: ConnectionRegistry, endpoint: string, auth: Value, tag: string, cls: ClassArg, id: nat)
    requires Build(endpoint, cls, id).Ok?
    ensures Connect(reg, endpoint, auth, tag, cls, id, CallSpawned(Coroutine)).Ok?
    ensures Bind(reg, endpoint, tag, cls, id, CallSpawned(Coroutine)).Ok?
    ensures var o := Connect(reg, endpoint, auth, tag, cls, id, CallSpawned(Coroutine)).value;
            o.connection in o.registry.tags[tag] && o.connection in ConnectionsByEndpoint(o.registry, VStr(endpoint)).value
  {
    ConnectFiles(reg, endpoint, auth, tag, cls, id, CallSpawned(Coroutine));
  }

  /** What `tags` can be: absent, one string (possibly comma-separated), or
      a list of tag names. */
  datatype TagsArg = NoTags | TagString(s: string) | TagList(names: seq<string>)

  /** Each piece stripped. */
  function StripEach(pieces: seq<string>): (r: seq<string>)
    ensures |r| == |pieces|
    ensures forall i | 0 <= i < |pieces| :: r[i] == Strip(pieces[i])
  {
    seq(|pieces|, i requires 0 <= i < |pieces| => Strip(pieces[i]))
  }

  /** The non-empty names, in order. */
  function NonEmpty(names: seq<string>): (r: seq<string>)
    ensures |r| <= |names|
    ensures forall i | 0 <= i < |r| :: r[i] != [] && r[i] in names
    ensures forall n | n in names && n != [] :: n in r
  {
    if names == [] then []
    else
      var rest := NonEmpty(names[1..]);
      assert forall n | n in names[1..] :: n in names;
      assert forall n | n in names && n != names[0] :: n in names[1..];
      if names[0] != [] then [names[0]] + rest else rest
  }

  /** The tags of a comma-separated string. */
  function CommaTags(s: string): (r: seq<string>)
    ensures forall i | 0 <= i < |r| :: r[i] != [] && r[i] in StripEach(Split(s, ','))
    ensures forall n | n in StripEach(Split(s, ',')) && n != [] :: n in r
  {
    NonEmpty(StripEach(Split(s, ',')))
  }

  /** The tag names a `tags` argument denotes: a comma-separated string is
      split, stripped and emptied of blanks; an empty list of tags means
      `default`. A lone string is taken whole, even when empty. */
  function ParseTags(t: TagsArg): (r: seq<string>)
    ensures |r| > 0
    ensures t.NoTags? ==> r == ["default"]
    ensures t.TagString? && ',' !in t.s ==> r == [t.s]
    ensures t.TagList? && t.names != [] ==> r == t.names
    ensures t.TagList? && t.names == [] ==> r == ["default"]
    ensures t.TagString? && ',' in t.s ==>
              r == if CommaTags(t.s) == [] then ["default"] else CommaTags(t.s)
  {
    var names := match t
      case NoTags => []
      case TagString(s) => if ',' in s then CommaTags(s) else [s]
      case TagList(ns) => ns;
    if names == [] then ["default"] else names
  }

  /** A stripped string is a slice of the original, so it holds no character
      the original lacks. */
  lemma StripKeepsOut(s: string, c: char)
    requires c !in s
    ensures c !in Strip(s)
  {
    var l := TrimLeft(s);
    assert l == s[|s| - |l|..];
    var r := TrimRight(l);
    assert r == l[..|r|];
  }

  /** A tag name with nothing to strip and no comma in it. */
  predicate CleanTag(n: string) {
    n != [] && ',' !in n && !IsSpace(n[0]) && !IsSpace(n[|n| - 1])
  }

  /** The pieces of a comma-separated string, once stripped and emptied of
      blanks, are clean tag names. */
  lemma CommaTagsClean(s: string)
    ensures forall i | 0 <= i < |CommaTags(s)| :: CleanTag(CommaTags(s)[i])
  {
    var stripped := StripEach(Split(s, ','));
    var tags := CommaTags(s);
    forall i | 0 <= i < |tags|
      ensures CleanTag(tags[i])
    {
      var j :| 0 <= j < |stripped| && tags[i] == stripped[j];
      StrippedPieceClean(s, j);
    }
  }

  /** One piece of a comma-separated string, stripped, is clean unless empty. */
  lemma StrippedPieceClean(s: string, j: nat)
    requires j < |Split(s, ',')|
    ensures Strip(Split(s, ',')[j]) != [] ==> CleanTag(Strip(Split(s, ',')[j]))
  {
    SplitPiecesLackSeparator(s, ',');
    StripKeepsOut(Split(s, ',')[j], ',');
    StripTrimmed(Split(s, ',')[j]);
  }

  /** Tags parsed from a comma-separated string are non-empty, stripped at
      both ends, and free of commas. */
  lemma CommaTagsAreClean(s: string)
    requires ',' in s
    ensures forall i | 0 <= i < |ParseTags(TagString(s))| :: CleanTag(ParseTags(TagString(s))[i])
  {
    CommaTagsClean(s);
    var r := ParseTags(TagString(s));
    if CommaTags(s) == [] {
      assert r == ["default"];
      assert CleanTag(r[0]);
    }
  }

  /** A non-empty stripped string starts and ends with a non-space. */
  lemma StripTrimmed(s: string)
    ensures Strip(s) != [] ==> !IsSpace(Strip(s)[0]) && !IsSpace(Strip(s)[|Strip(s)| - 1])
  {
    var l := TrimLeft(s);
    var r := TrimRight(l);
    if r != [] {
      assert r == l[..|r|];
      assert r[0] == l[0];
    }
  }

  /** `connections_by_tags`: every tag named must exist, checked before any
      connection is produced; then the connections of each tag, in order. */
  function ConnectionsByTags(reg: ConnectionRegistry, t: TagsArg): (r: Result<seq<set<Conn>>>)
    ensures r.Err? <==> exists i | 0 <= i < |ParseTags(t)| :: ParseTags(t)[i] !in reg.tags
    ensures r.Err? ==> r.error == KeyError
    ensures r.Ok? ==> |r.value| == |ParseTags(t)|
    ensures r.Ok? ==> forall i | 0 <= i < |ParseTags(t)| :: ParseTags(t)[i] in reg.tags && r.value[i] == reg.tags[ParseTags(t)[i]]
  {
    GroupsFor(reg.tags, ParseTags(t))
  }

  /** The connections filed under each of `names`, or KeyError when one of
      them is not a tag. */
  function GroupsFor(tags: map<string, set<Conn>>, names: seq<string>): (r: Result<seq<set<Conn>>>)
    ensures r.Err? <==> exists i | 0 <= i < |names| :: names[i] !in tags
    ensures r.Err? ==> r.error == KeyError
    ensures r.Ok? ==> |r.value| == |names|
    ensures r.Ok? ==> forall i | 0 <= i < |names| :: names[i] in tags && r.value[i] == tags[names[i]]
  {
    if exists i | 0 <= i < |names| :: names[i] !in tags then Err(KeyError)
    else Ok(seq(|names|, i requires 0 <= i < |names| => tags[names[i]]))
  }

  /** `connections_by_endpoint`: every connection for a falsy endpoint,
      else those filed under it; a list or dict cannot index the
      endpoint dict (TypeError). */
  function ConnectionsByEndpoint(reg: ConnectionRegistry, endpoint: Value): (r: Result<set<Conn>>)
    ensures !Truthy(endpoint) ==> r == Ok(reg.all)
    ensures Truthy(endpoint) && endpoint.VStr? ==> r == Ok(SetAt(reg.endpoints, endpoint.s))
    ensures Truthy(endpoint) && !Hashable(endpoint) ==> r == Err(TypeError)
    ensures Truthy(endpoint) && Hashable(endpoint) && !endpoint.VStr? ==> r == Ok({})
  {
    if !Truthy(endpoint) then Ok(reg.all)
    else if !Hashable(endpoint) then Err(TypeError)
    else if endpoint.VStr? then Ok(SetAt(reg.endpoints, endpoint.s))
    else Ok({})
  }

  /** The call fanned out to the selected connections. */
  datatype Call = BroadcastCall(frame: Frame) | JoinCall(space: string) | LeaveCall(space: string)

  /** A call handed to each group of connections in turn. */
  datatype Fanout = Fanout(groups: seq<set<Conn>>, call: Call)

  /** `broadcast`, `join` and `leave`: the call goes to the connections of
      each selected tag. */
  function Fan(reg: ConnectionRegistry, t: TagsArg, call: Call): (r: Result<Fanout>)
    ensures r.Ok? <==> ConnectionsByTags(reg, t).Ok?
    ensures r.Ok? ==> r.value == Fanout(ConnectionsByTags(reg, t).value, call)
  {
    var groups :- ConnectionsByTags(reg, t);
    Ok(Fanout(groups, call))
  }

  function Broadcast(reg: ConnectionRegistry, f: Frame, t: TagsArg): (r: Result<Fanout>)
    ensures r == Fan(reg, t, BroadcastCall(f))
  {
    Fan(reg, t, BroadcastCall(f))
  }

  /** Under the invariant a fan-out only reaches registered connections. */
  lemma FanReachesRegistered(reg: ConnectionRegistry, t: TagsArg, call: Call)
    requires Inv(reg)
    requires Fan(reg, t, call).Ok?
    ensures forall i | 0 <= i < |Fan(reg, t, call).value.groups| :: Fan(reg, t, call).value.groups[i] <= reg.all
  {
    var names := ParseTags(t);
    var groups := Fan(reg, t, call).value.groups;
    forall i | 0 <= i < |groups|
      ensures groups[i] <= reg.all
    {
      assert names[i] in reg.tags;
    }
  }

  /** Without tags a fan-out reaches the `default` tag's connections. */
  lemma FanDefault(reg: ConnectionRegistry, call: Call)
    requires Fan(reg, NoTags, call).Ok?
    ensures "default" in reg.tags && Fan(reg, NoTags, call).value.groups == [reg.tags["default"]]
  {
    assert ParseTags(NoTags) == ["default"];
    assert ParseTags(NoTags)[0] in reg.tags;
  }

  /** A fan-out without a `default` tag fails rather than reaching nobody. */
  lemma FanNeedsDefault(reg: ConnectionRegistry, call: Call)
    requires "default" !in reg.tags
    ensures Fan(reg, NoTags, call) == Err(KeyError)
  {
    assert ParseTags(NoTags)[0] !in reg.tags;
  }
}

=== FILE: events.dfy ===
/** Events: a registry of event handlers and the emit operation that runs
    every matching handler on a new event frame. */
module Events {
  import opened Results
  import opened PyValues
  import opened Utils
  import opened Frames
  import opened Handlers
  import opened Matching

  datatype Events = Events(handlers: HandlerRegistry, callback: Obj)

  /** The constructor: a truthy non-callable callback is a ValueError. */
  function NewEvents(callback: Obj): (r: Result<Events>)
    ensures r.Ok? <==> !ObjTruthy(callback) || Callable(callback)
    ensures r.Ok? ==> r.value == Events(EmptyRegistry, callback)
  {
    if ObjTruthy(callback) && !Callable(callback) then Err(ValueError)
    else Ok(Events(EmptyRegistry, callback))
  }

  /** The `callback` setter, with the constructor's rule. */
  function SetCallback(e: Events, callback: Obj): (r: Result<Events>)
    ensures r.Ok? <==> !ObjTruthy(callback) || Callable(callback)
    ensures r.Ok? ==> r.value == e.(callback := callback)
  {
    if ObjTruthy(callback) && !Callable(callback) then Err(ValueError)
    else Ok(e.(callback := callback))
  }

  function AddHandler(e: Events, name: string, h: Handler): (r: Result<Events>)
    ensures r.Ok? <==> Add(e.handlers, name, HHandler(h)).Ok?
    ensures r.Ok? ==> r.value == e.(handlers := Add(e.handlers, name, HHandler(h)).value)
  {
    var reg :- Add(e.handlers, name, HHandler(h));
    Ok(e.(handlers := reg))
  }

  function RemoveHandler(e: Events, name: string, h: Handler): (r: Result<Events>)
    ensures r.Ok? <==> Remove(e.handlers, name, h).Ok?
    ensures r.Ok? ==> r.value == e.(handlers := Remove(e.handlers, name, h).value)
  {
    var reg :- Remove(e.handlers, name, h);
    Ok(e.(handlers := reg))
  }

  /** Runs each handler in turn through the callback, passing the emit's
      `internal` flag on every call. An event handler must return None: the
      first other answer is a ValueError, and a failing call stops the run
      with its own exception. */
  function RunAll(frame: Frame, hs: seq<Handler>, internal: bool, call: (Frame, Handler, bool) -> Result<Value>): (r: Outcome)
    ensures r == Pass <==> forall i | 0 <= i < |hs| :: call(frame, hs[i], internal) == Ok(VNone)
    ensures r.Fail? ==> exists i | 0 <= i < |hs| :: call(frame, hs[i], internal) != Ok(VNone)
  {
    if hs == [] then Pass
    else
      match call(frame, hs[0], internal)
      case Err(e) => Fail(e)
      case Ok(v) =>
        if v != VNone then Fail(ValueError)
        else
          var rest := RunAll(frame, hs[1..], internal, call);
          assert forall i | 1 <= i < |hs| :: hs[1..][i - 1] == hs[i];
          rest
  }

  /** What an emit produced: the frame after matching and the handlers it
      was handed to. */
  datatype Emission = Emission(frame: Frame, handlers: seq<Handler>)

  /** The external behaviour an emit needs: the callback's answer for a
      frame, a handler and the `internal` flag, the
      order the matched set is iterated in, the matching libraries, the
      serializer size, and a new frame's id and time. */
  datatype Env = Env(
    call: (Frame, Handler, bool) -> Result<Value>,
    order: seq<Handler> -> seq<Handler>,
    mx: Matchers,
    size: Sizer,
    newId: string,
    now: int)

  /** The event frame for an emit: the name, payload and routing given. */
  function EventArgs(name: Value, data: Value, space: Value, source: Value, replyTo: Value): FrameArgs {
    FrameArgs(name, data, VNone, KNone, VNone, source, VNone, space, replyTo, None)
  }

  /** `emit` with source and reply-to routing: builds an event frame, matches
      it, and runs every matched handler, handing the callback the
      `internal` flag it was given. With handlers to run and no callable
      callback the call itself is a TypeError. */
  function EmitFrame(e: Events, name: Value, data: Value, space: Value, internal: bool, source: Value, replyTo: Value, env: Env): (r: Result<Emission>)
    requires env.newId != []
    ensures r.Ok? ==> NewFrame(EventFrame, EventArgs(name, data, space, source, replyTo), env.size, env.newId, env.now).Ok?
    ensures r.Ok? ==>
              var f := NewFrame(EventFrame, EventArgs(name, data, space, source, replyTo), env.size, env.newId, env.now).value;
              Match(e.handlers, f, env.mx, env.size) == Ok((r.value.frame, r.value.handlers))
    ensures r.Ok? && r.value.handlers != [] ==> Callable(e.callback)
    ensures r.Ok? ==> forall h | h in r.value.handlers :: env.call(r.value.frame, h, internal) == Ok(VNone)
    ensures NewFrame(EventFrame, EventArgs(name, data, space, source, replyTo), env.size, env.newId, env.now).Err? ==> r.Err?
  {
    var f0 :- NewFrame(EventFrame, EventArgs(name, data, space, source, replyTo), env.size, env.newId, env.now);
    var matched :- Match(e.handlers, f0, env.mx, env.size);
    var (f, hs) := matched;
    if hs != [] && !Callable(e.callback) then Err(TypeError)
    else
      var o := RunAll(f, Iterated(env.order, hs), internal, env.call);
      if o.Fail? then Err(o.error) else Ok(Emission(f, hs))
  }

  /** `Events.emit(name, data, space, internal)`, which has no routing
      parameters. The method returns None; the emission is what it did. */
  function Emit(e: Events, name: Value, data: Value, space: Value, internal: bool, env: Env): (r: Result<Emission>)
    requires env.newId != []
    ensures r == EmitFrame(e, name, data, space, internal, VNone, VNone, env)
    ensures r.Ok? ==> Source(r.value.frame) == VNone
    ensures r.Ok? ==> forall h | h in r.value.handlers :: env.call(r.value.frame, h, internal) == Ok(VNone)
  {
    EmitFrame(e, name, data, space, internal, VNone, VNone, env)
  }

  /** An emit whose handlers all return None reaches every one of them; one
      returning anything else makes the emit fail. */
  lemma EmitReachesAll(e: Events, name: Value, data: Value, space: Value, internal: bool, source: Value, replyTo: Value,
                       env: Env, f: Frame, hs: seq<Handler>)
    requires env.newId != []
    requires NewFrame(EventFrame, EventArgs(name, data, space, source, replyTo), env.size, env.newId, env.now).Ok?
    requires Match(e.handlers, NewFrame(EventFrame, EventArgs(name, data, space, source, replyTo), env.size, env.newId, env.now).value,
                   env.mx, env.size) == Ok((f, hs))
    requires hs == [] || Callable(e.callback)
    ensures EmitFrame(e, name, data, space, internal, source, replyTo, env).Ok? <==>
            forall h | h in hs :: env.call(f, h, internal) == Ok(VNone)
  {
    var run := Iterated(env.order, hs);
    assert EmitFrame(e, name, data, space, internal, source, replyTo, env).Ok? <==> RunAll(f, run, internal, env.call) == Pass;
    RunsEveryHandler(f, hs, run, internal, env.call);
  }

  /** A run passes iff every handler it lists returns None. */
  lemma RunsEveryHandler(f: Frame, hs: seq<Handler>, run: seq<Handler>, internal: bool, call: (Frame, Handler, bool) -> Result<Value>)
    requires forall h :: h in run <==> h in hs
    ensures RunAll(f, run, internal, call) == Pass <==> forall h | h in hs :: call(f, h, internal) == Ok(VNone)
  {
    assert forall h | h in hs :: exists i | 0 <= i < |run| :: run[i] == h;
  }

  /** The emitted frame carries the source and reply-to routing it was given. */
  lemma EmitCarriesRouting(e: Events, name: Value, data: Value, space: Value, internal: bool, source: Value, replyTo: Value, env: Env)
    requires env.newId != []
    requires EmitFrame(e, name, data, space, internal, source, replyTo, env).Ok?
    requires Truthy(source) && Truthy(replyTo)
    ensures var f := EmitFrame(e, name, data, space, internal, source, replyTo, env).value.frame;
            Source(f) == source && ReplyTo(f) == replyTo && f.cls == EventFrame
  {
    var f0 := NewFrame(EventFrame, EventArgs(name, data, space, source, replyTo), env.size, env.newId, env.now).value;
    var f := EmitFrame(e, name, data, space, internal, source, replyTo, env).value.frame;
    assert f.(data := f0.data) == f0;
    assert f.meta == f0.meta;
  }
}

=== FILE: fields.dfy ===
/** Fields: a value with a default, a name and overridable cleaning and
    validation. */
module Fields {
  import opened Results
  import opened PyValues

  /** The two methods a `Field` subclass overrides. Either may raise, and
      `validate` answers by truthiness. */
  datatype FieldHooks = FieldHooks(
    clean: Value -> Result<Value>,
    validate: Value -> Result<Value>)

  /** The base class: cleaning is the identity and every value is valid. */
  const BaseHooks := FieldHooks(v => Ok(v), v => Ok(VBool(true)))

  const BaseKind := "Field"

  /** A field. `kind` is the name of its class, `stored` the slot that
      `value` falls back from, `name` whatever the constructor was given
      (a non-string is accepted there). */
  datatype Field = Field(kind: string, default: Value, stored: Value, name: Value)

  /** The hooks of a field class: the base class's own, or the subclass's. */
  function HooksOf(classes: string -> FieldHooks, kind: string): FieldHooks {
    if kind == BaseKind then BaseHooks else classes(kind)
  }

  /** `clean_and_validate`: the cleaned value when it validates; an invalid
      value is a ValueError and a hook's own exception propagates. */
  function CleanAndValidate(hooks: FieldHooks, v: Value): (r: Result<Value>)
    ensures hooks.clean(v).Err? ==> r == Err(hooks.clean(v).error)
    ensures hooks.clean(v).Ok? ==>
              var c := hooks.clean(v).value;
              && (hooks.validate(c).Err? ==> r == Err(hooks.validate(c).error))
              && (hooks.validate(c).Ok? && !Truthy(hooks.validate(c).value) ==> r == Err(ValueError))
              && (hooks.validate(c).Ok? && Truthy(hooks.validate(c).value) ==> r == Ok(c))
  {
    var c :- hooks.clean(v);
    var ok :- hooks.validate(c);
    if Truthy(ok) then Ok(c) else Err(ValueError)
  }

  /** The base class accepts every value unchanged. */
  lemma BaseAcceptsAll(v: Value)
    ensures CleanAndValidate(BaseHooks, v) == Ok(v)
  {
  }

  /** `Field.__init__`. The default is cleaned and validated before the name
      slot is assigned. When `validate` answers falsy, building the
      ValueError's message reads that empty slot, so the caller sees an
      AttributeError instead; an exception raised by `clean` or `validate`
      itself propagates unchanged. A falsy name is replaced by
      `str(id(self))`, given here as `objectId`. */
  function NewField(kind: string, hooks: FieldHooks, default: Value, name: Value, objectId: string): (r: Result<Field>)
    ensures CleanAndValidate(hooks, default).Ok? <==> r.Ok?
    ensures hooks.clean(default).Err? ==> r == Err(hooks.clean(default).error)
    ensures hooks.clean(default).Ok? ==>
              var c := hooks.clean(default).value;
              && (hooks.validate(c).Err? ==> r == Err(hooks.validate(c).error))
              && (hooks.validate(c).Ok? && !Truthy(hooks.validate(c).value) ==> r == Err(AttributeError))
    ensures r.Ok? ==> r.value.kind == kind
    ensures r.Ok? ==> r.value.default == r.value.stored == CleanAndValidate(hooks, default).value
    ensures r.Ok? ==> r.value.name == (if Truthy(name) then name else VStr(objectId))
  {
    var c :- hooks.clean(default);
    var ok :- hooks.validate(c);
    if !Truthy(ok) then Err(AttributeError)
    else Ok(Field(kind, c, c, if Truthy(name) then name else VStr(objectId)))
  }

  /** The constructor and the `value` setter report the same errors, except
      that a falsy `validate` answer is AttributeError in the constructor and
      ValueError in the setter. */
  lemma NewFieldErrorsAgree(kind: string, hooks: FieldHooks, default: Value, name: Value, objectId: string, f: Field)
    ensures var r := NewField(kind, hooks, default, name, objectId);
            var s := SetValue(f, hooks, default);
            && (r.Err? <==> s.Err?)
            && (r.Err? && r.error != AttributeError ==> s.error == r.error)
            && (r.Err? && s.error != ValueError ==> r.error == s.error)
  {
  }

  /** A hook that raises ValueError itself is reported as ValueError, not
      as the AttributeError of a falsy answer. */
  lemma RaisingValidateKeepsValueError()
    ensures NewField("Mine", FieldHooks(v => Ok(v), v => Err(ValueError)), VInt(1), VNone, "42") == Err(ValueError)
    ensures NewField("Mine", FieldHooks(v => Ok(v), v => Ok(VBool(false))), VInt(1), VNone, "42") == Err(AttributeError)
  {
  }

  /** A new field reads back its cleaned default, and assigning the default
      again leaves it as it was. */
  lemma NewFieldThenRead(kind: string, hooks: FieldHooks, default: Value, name: Value, objectId: string)
    requires NewField(kind, hooks, default, name, objectId).Ok?
    ensures var f := NewField(kind, hooks, default, name, objectId).value;
            && ValueOf(f) == CleanAndValidate(hooks, default).value
            && SetValue(f, hooks, default) == Ok(f)
  {
  }

  /** The `value` property: the stored value, or the default while the
      stored value is None. */
  function ValueOf(f: Field): (r: Value)
    ensures f.stored != VNone ==> r == f.stored
    ensures f.stored == VNone ==> r == f.default
  {
    if f.stored == VNone then f.default else f.stored
  }

  /** The `value` setter stores the cleaned value. */
  function SetValue(f: Field, hooks: FieldHooks, v: Value): (r: Result<Field>)
    ensures r.Ok? <==> CleanAndValidate(hooks, v).Ok?
    ensures r.Ok? ==> r.value == f.(stored := CleanAndValidate(hooks, v).value)
    ensures CleanAndValidate(hooks, v).Err? ==> r == Err(CleanAndValidate(hooks, v).error)
  {
    var c :- CleanAndValidate(hooks, v);
    Ok(f.(stored := c))
  }

  /** The `name` setter accepts only a non-empty string. */
  function SetName(f: Field, name: Value): (r: Result<Field>)
    ensures r.Ok? <==> name.VStr? && name.s != []
    ensures r.Ok? ==> r.value == f.(name := name)
    ensures r.Err? ==> r.error == ValueError
  {
    if name.VStr? && name.s != [] then Ok(f.(name := name)) else Err(ValueError)
  }

  /** `describe`: the kind, name and value, under those three keys. */
  function Describe(f: Field): (r: map<string, Value>)
    ensures r.Keys == {"kind", "name", "value"}
    ensures r["kind"] == VStr(f.kind) && r["name"] == f.name && r["value"] == ValueOf(f)
  {
    map["kind" := VStr(f.kind), "name" := f.name, "value" := ValueOf(f)]
  }

  /** A new field reads back its default; setting a non-None value reads
      back that value once cleaned, and setting None falls back to the
      default again. */
  lemma SetThenRead(f: Field, hooks: FieldHooks, v: Value)
    requires SetValue(f, hooks, v).Ok?
    ensures var c := CleanAndValidate(hooks, v).value;
            ValueOf(SetValue(f, hooks, v).value) == (if c == VNone then f.default else c)
  {
  }

  /** Setting a value leaves the default, the name and the kind alone. */
  lemma SetValueKeepsRest(f: Field, hooks: FieldHooks, v: Value)
    requires SetValue(f, hooks, v).Ok?
    ensures var g := SetValue(f, hooks, v).value;
            g.default == f.default && g.name == f.name && g.kind == f.kind
  {
  }
}

=== FILE: frames.dfy ===
/** Frames: the typed message envelope, its construction rules, the sparse
    dict encoding and the factory that rebuilds the right subtype. */
module Frames {
  import opened Results
  import opened PyValues
  import opened Symbols
  import opened Utils

  /** The Python class of a frame. The subclasses force their own kind; a
      base `Frame` may carry any kind. */
  datatype FrameClass =
    | BaseFrame
    | CommandFrame
    | EventFrame
    | MessageFrame
    | RequestFrame
    | ResponseFrame
    | StateFrame

  /** The kind a subclass writes over whatever `kind` it was given. */
  function Forces(c: FrameClass): Option<Kind> {
    match c
    case BaseFrame => None
    case CommandFrame => Some(Command)
    case EventFrame => Some(Event)
    case MessageFrame => Some(Message)
    case RequestFrame => Some(Request)
    case ResponseFrame => Some(Response)
    case StateFrame => Some(State)
  }

  /** The class `build` picks for a kind; TIMER and UNSET have no subclass. */
  function ClassFor(k: Kind): (c: FrameClass)
    ensures c == BaseFrame <==> k == Timer || k == Unset
    ensures c != BaseFrame ==> Forces(c) == Some(k)
  {
    match k
    case Timer => BaseFrame
    case Unset => BaseFrame
    case Command => CommandFrame
    case Event => EventFrame
    case Message => MessageFrame
    case Request => RequestFrame
    case Response => ResponseFrame
    case State => StateFrame
  }

  datatype Frame = Frame(
    id: string,
    name: Option<string>,
    data: map<string, Value>,
    meta: map<string, Value>,
    kind: Kind,
    cls: FrameClass)

  /** The keyword arguments of `Frame.__init__`. */
  datatype FrameArgs = FrameArgs(
    name: Value,
    data: Value,
    meta: Value,
    kind: KindArg,
    id: Value,
    source: Value,
    target: Value,
    space: Value,
    replyTo: Value,
    timestamp: Option<int>)

  /** The arguments of a call that passes only a name and a payload. */
  function NamedArgs(name: Value, data: Value): FrameArgs {
    FrameArgs(name, data, VNone, KNone, VNone, VNone, VNone, VNone, VNone, None)
  }

  /** What every constructed frame satisfies. */
  predicate Valid(f: Frame, size: Sizer) {
    && (f.name.Some? ==> ValidName(f.name.value))
    && f.id != []
    && "timestamp" in f.meta
    && (f.cls != BaseFrame ==> Forces(f.cls) == Some(f.kind))
    && (f.data != map[] ==> size(f.data) < MaxDataSize)
  }

  /** The routing attribute `key` is written into meta only when the argument
      is truthy, and then only after it passes name validation. */
  function PutRouting(meta: map<string, Value>, key: string, v: Value): (r: Result<map<string, Value>>)
    ensures !Truthy(v) ==> r == Ok(meta)
    ensures Truthy(v) && v.VStr? && ValidName(v.s) ==> r == Ok(meta[key := v])
    ensures Truthy(v) && !(v.VStr? && ValidName(v.s)) ==> r == Err(ValueError)
    ensures r.Ok? ==> Get(r.value, key) == Routed(meta, key, v)
    ensures r.Ok? ==> forall k | k != key :: (k in r.value <==> k in meta) && (k in meta ==> r.value[k] == meta[k])
  {
    if !Truthy(v) then Ok(meta)
    else
      match ValidateName(v)
      case Ok(Some(s)) => Ok(meta[key := VStr(s)])
      case Ok(None) => Ok(meta)
      case Err(e) => Err(e)
  }

  /** The timestamp rule: an explicit non-zero argument wins, else an existing
      meta timestamp is kept, else the current time is stored. */
  function Stamp(meta: map<string, Value>, timestamp: Option<int>, now: int): (r: map<string, Value>)
    ensures "timestamp" in r
    ensures timestamp.Some? && timestamp.value != 0 ==> r["timestamp"] == VInt(timestamp.value)
    ensures !(timestamp.Some? && timestamp.value != 0) && "timestamp" in meta ==> r == meta
    ensures !(timestamp.Some? && timestamp.value != 0) && "timestamp" !in meta ==> r["timestamp"] == VInt(now)
    ensures forall k | k != "timestamp" :: (k in r <==> k in meta) && (k in r ==> r[k] == meta[k])
  {
    if timestamp.Some? && timestamp.value != 0 then meta["timestamp" := VInt(timestamp.value)]
    else if "timestamp" !in meta then meta["timestamp" := VInt(now)]
    else meta
  }

  function MetaOf(v: Value): map<string, Value> {
    if v.VMap? then v.m else map[]
  }

  const RoutingKeys: set<string> := {"source", "target", "space", "reply_to"}

  /** The routing attribute after the constructor: the argument when truthy,
      else whatever the given meta held. */
  function Routed(meta: map<string, Value>, key: string, v: Value): Value {
    if Truthy(v) then v else Get(meta, key)
  }

  /** No routing argument is given (all four are falsy). */
  predicate NoRouting(a: FrameArgs) {
    !Truthy(a.source) && !Truthy(a.target) && !Truthy(a.space) && !Truthy(a.replyTo)
  }

  /** The four routing arguments, applied in the constructor's order. */
  function PutAllRouting(meta: map<string, Value>, a: FrameArgs): (r: Result<map<string, Value>>)
    ensures r.Ok? ==> Get(r.value, "source") == Routed(meta, "source", a.source)
    ensures r.Ok? ==> Get(r.value, "target") == Routed(meta, "target", a.target)
    ensures r.Ok? ==> Get(r.value, "space") == Routed(meta, "space", a.space)
    ensures r.Ok? ==> Get(r.value, "reply_to") == Routed(meta, "reply_to", a.replyTo)
    ensures r.Ok? ==> forall k | k !in RoutingKeys :: (k in r.value <==> k in meta) && (k in meta ==> r.value[k] == meta[k])
    ensures NoRouting(a) ==> r == Ok(meta)
    ensures r.Err? ==> r.error == ValueError
  {
    assert "source" != "target" && "source" != "space" && "source" != "reply_to";
    assert "target" != "space" && "target" != "reply_to" && "space" != "reply_to";
    var m1 :- PutRouting(meta, "source", a.source);
    var m2 :- PutRouting(m1, "target", a.target);
    var m3 :- PutRouting(m2, "space", a.space);
    PutRouting(m3, "reply_to", a.replyTo)
  }

  /** The constructor's meta: the routing arguments written over the given
      meta, then the timestamp rule applied. */
  function RoutedMeta(meta0: map<string, Value>, a: FrameArgs, now: int): (r: Result<map<string, Value>>)
    ensures r.Ok? ==> "timestamp" in r.value
    ensures r.Ok? && a.timestamp.Some? && a.timestamp.value != 0 ==>
              r.value["timestamp"] == VInt(a.timestamp.value)
    ensures r.Ok? && !(a.timestamp.Some? && a.timestamp.value != 0) && "timestamp" in meta0 ==>
              r.value["timestamp"] == meta0["timestamp"]
    ensures r.Ok? && !(a.timestamp.Some? && a.timestamp.value != 0) && "timestamp" !in meta0 ==>
              r.value["timestamp"] == VInt(now)
    ensures NoRouting(a) && a.timestamp.None? && "timestamp" in meta0 ==> r == Ok(meta0)
    ensures r.Ok? ==> Get(r.value, "source") == Routed(meta0, "source", a.source)
    ensures r.Ok? ==> Get(r.value, "target") == Routed(meta0, "target", a.target)
    ensures r.Ok? ==> Get(r.value, "space") == Routed(meta0, "space", a.space)
    ensures r.Ok? ==> Get(r.value, "reply_to") == Routed(meta0, "reply_to", a.replyTo)
  {
    var meta :- PutAllRouting(meta0, a);
    assert "timestamp" !in RoutingKeys;
    assert "timestamp" in meta <==> "timestamp" in meta0;
    assert "timestamp" in meta0 ==> meta["timestamp"] == meta0["timestamp"];
    var stamped := Stamp(meta, a.timestamp, now);
    assert forall k | k in RoutingKeys :: Get(stamped, k) == Get(meta, k);
    Ok(stamped)
  }

  /** `Frame.__init__` and its subclasses. `newId` stands for `uuid4().hex`
      and `now` for `int(time.time())`. */
  function NewFrame(cls: FrameClass, a: FrameArgs, size: Sizer, newId: string, now: int): (r: Result<Frame>)
    requires newId != []
    ensures r.Ok? ==> Valid(r.value, size)
    ensures r.Ok? ==> r.value.cls == cls
    ensures r.Ok? ==> ValidateName(a.name) == Ok(r.value.name)
    ensures r.Ok? ==> ValidateData(a.data, size) == Ok(r.value.data)
    ensures r.Ok? ==> r.value.id == (if a.id.VStr? && a.id.s != [] then a.id.s else newId)
    ensures r.Ok? && cls != BaseFrame ==> Forces(cls) == Some(r.value.kind)
    ensures r.Ok? && cls == BaseFrame ==> ValidateKind(a.kind) == Ok(r.value.kind)
    ensures r.Ok? && a.timestamp.Some? && a.timestamp.value != 0 ==>
              r.value.meta["timestamp"] == VInt(a.timestamp.value)
    ensures r.Ok? && !(a.timestamp.Some? && a.timestamp.value != 0) && "timestamp" in MetaOf(a.meta) ==>
              r.value.meta["timestamp"] == MetaOf(a.meta)["timestamp"]
    ensures r.Ok? && !(a.timestamp.Some? && a.timestamp.value != 0) && "timestamp" !in MetaOf(a.meta) ==>
              r.value.meta["timestamp"] == VInt(now)
    ensures r.Ok? && NoRouting(a) && a.timestamp.None? && "timestamp" in MetaOf(a.meta) ==>
              r.value.meta == MetaOf(a.meta)
    ensures r.Ok? ==> Get(r.value.meta, "source") == Routed(MetaOf(a.meta), "source", a.source)
    ensures r.Ok? ==> Get(r.value.meta, "target") == Routed(MetaOf(a.meta), "target", a.target)
    ensures r.Ok? ==> Get(r.value.meta, "space") == Routed(MetaOf(a.meta), "space", a.space)
    ensures r.Ok? ==> Get(r.value.meta, "reply_to") == Routed(MetaOf(a.meta), "reply_to", a.replyTo)
    ensures ValidateName(a.name).Err? ==> r == Err(ValueError)
    ensures ValidateName(a.name).Ok? && ValidateData(a.data, size).Err? ==> r == Err(AssertionError)
    ensures cls == BaseFrame && ValidateKind(a.kind).Err? ==> r.Err?
    ensures r.Ok? <==> ValidateName(a.name).Ok? && ValidateData(a.data, size).Ok? && ValidateMeta(a.meta, size).Ok?
                       && ValidateId(a.id).Ok? && (cls == BaseFrame ==> ValidateKind(a.kind).Ok?)
                       && PutAllRouting(MetaOf(a.meta), a).Ok?
    ensures ValidateName(a.name).Ok? && ValidateData(a.data, size).Ok? && ValidateMeta(a.meta, size).Err? ==>
              r == Err(AssertionError)
    ensures ValidateName(a.name).Ok? && ValidateData(a.data, size).Ok? && ValidateMeta(a.meta, size).Ok?
            && ValidateId(a.id).Err?
            ==> r == Err(AssertionError)
    ensures ValidateName(a.name).Ok? && ValidateData(a.data, size).Ok? && ValidateMeta(a.meta, size).Ok?
            && ValidateId(a.id).Ok? && cls == BaseFrame && ValidateKind(a.kind).Err?
            ==> r == Err(ValueError)
    ensures ValidateName(a.name).Ok? && ValidateData(a.data, size).Ok? && ValidateMeta(a.meta, size).Ok?
            && ValidateId(a.id).Ok? && (cls == BaseFrame ==> ValidateKind(a.kind).Ok?)
            && PutAllRouting(MetaOf(a.meta), a).Err?
            ==> r == Err(ValueError)
  {
    var name :- ValidateName(a.name);
    var data :- ValidateData(a.data, size);
    var meta0 :- ValidateMeta(a.meta, size);
    assert meta0 == MetaOf(a.meta);
    var id :- ValidateId(a.id);
    var fid := if id.Some? && id.value != [] then id.value else newId;
    var kind :- if cls == BaseFrame then ValidateKind(a.kind) else Ok(Forces(cls).value);
    var meta :- RoutedMeta(meta0, a, now);
    Ok(Frame(fid, name, data, meta, kind, cls))
  }

  // ---- FrameData: attribute access on the payload ----

  /** `FrameData.__getattr__`: a missing key reads as None. Names that
      `UserDict` itself defines are found before this hook runs and are not
      modelled. */
  function Attr(d: map<string, Value>, key: string): (r: Value)
    ensures key in d ==> r == d[key]
    ensures key !in d ==> r == VNone
  {
    Get(d, key)
  }

  /** `FrameData.__setattr__`: any key other than `data` stores into the
      payload; `data` replaces the payload itself with whatever value is
      given, a dict or not. The result is the new `data` attribute. */
  function SetAttr(d: map<string, Value>, key: string, v: Value): (r: Value)
    ensures key != "data" ==> r.VMap? && Attr(r.m, key) == v
    ensures key != "data" ==> forall k | k != key :: Attr(r.m, k) == Attr(d, k)
    ensures key == "data" ==> r == v
  {
    if key == "data" then v else VMap(d[key := v])
  }

  /** An attribute read through the `frame.data` property, as written: the
      property returns `self._data or {}`, so an empty payload comes back as
      a plain dict that has no attribute hook. */
  function DataAttrAsWritten(f: Frame, key: string): (r: Result<Value>)
    ensures |f.data| == 0 <==> r == Err(AttributeError)
    ensures |f.data| > 0 ==> r == Ok(Attr(f.data, key))
  {
    if |f.data| == 0 then Err(AttributeError) else Ok(Attr(f.data, key))
  }

  // ---- properties and setters ----

  function Source(f: Frame): Value { Get(f.meta, "source") }
  function Space(f: Frame): Value { Get(f.meta, "space") }
  function Target(f: Frame): Value { Get(f.meta, "target") }
  function ReplyTo(f: Frame): Value { Get(f.meta, "reply_to") }
  function Timestamp(f: Frame): Value { Get(f.meta, "timestamp") }

  /** The `name` setter validates like the constructor. */
  function SetName(f: Frame, name: Value): (r: Result<Frame>)
    ensures r.Ok? <==> ValidateName(name).Ok?
    ensures r.Ok? ==> r.value == f.(name := ValidateName(name).value)
  {
    var n :- ValidateName(name);
    Ok(f.(name := n))
  }

  /** The `data` setter validates like the constructor. */
  function SetData(f: Frame, data: Value, size: Sizer): (r: Result<Frame>)
    ensures r.Ok? <==> ValidateData(data, size).Ok?
    ensures r.Ok? ==> r.value == f.(data := ValidateData(data, size).value)
  {
    var d :- ValidateData(data, size);
    Ok(f.(data := d))
  }

  /** The `space`, `target` and `reply_to` setters write meta unvalidated. */
  function SetMeta(f: Frame, key: string, v: Value): (r: Frame)
    ensures Get(r.meta, key) == v
    ensures forall k | k != key :: Get(r.meta, k) == Get(f.meta, k)
    ensures r.(meta := f.meta) == f
  {
    f.(meta := f.meta[key := v])
  }

  // ---- build / as_dict / from_dict ----

  /** The class `build` dispatches to: a kind member or its integer value
      selects the subclass; anything else gives the base class. */
  function ClassForArg(a: KindArg): (c: FrameClass)
    ensures a.KKind? ==> c == ClassFor(a.k)
    ensures a.KInt? && -1 <= a.i <= 6 ==> c == ClassFor(KindOf(a.i).value)
    ensures a.KInt? && !(-1 <= a.i <= 6) ==> c == BaseFrame
    ensures a == KNone || a == KOther ==> c == BaseFrame
  {
    match a
    case KKind(k) => ClassFor(k)
    case KInt(i) => (match KindOf(i) case Some(k) => ClassFor(k) case None => BaseFrame)
    case _ => BaseFrame
  }

  /** `Frame.build`: the subtype matching the kind, else a base frame. */
  function Build(name: Value, data: Value, meta: Value, kind: KindArg, id: Value,
                 size: Sizer, newId: string, now: int): (r: Result<Frame>)
    requires newId != []
    ensures r.Ok? ==> r.value.cls == ClassForArg(kind)
    ensures r.Ok? ==> Valid(r.value, size)
    ensures r.Ok? && kind.KKind? ==> r.value.kind == kind.k
    ensures r.Ok? && kind.KInt? ==> KindValue(r.value.kind) == kind.i
    ensures r.Ok? && kind == KNone ==> r.value.kind == Unset
    ensures kind.KInt? && !(-1 <= kind.i <= 6) ==> r.Err?
  {
    var cls := ClassForArg(kind);
    NewFrame(cls, FrameArgs(name, data, meta, kind, id, VNone, VNone, VNone, VNone, None), size, newId, now)
  }

  function NameValue(n: Option<string>): Value {
    if n.Some? then VStr(n.value) else VNone
  }

  /** `as_dict`: the five fields, with the falsy ones dropped. */
  function AsDict(f: Frame): (r: map<string, Value>)
    ensures r.Keys <= {"id", "name", "data", "meta", "kind"}
    ensures "id" in r <==> f.id != []
    ensures "name" in r <==> f.name.Some? && f.name.value != []
    ensures "data" in r <==> |f.data| > 0
    ensures "meta" in r <==> |f.meta| > 0
    ensures "kind" in r <==> f.kind != Unset
    ensures forall k | k in r :: Truthy(r[k])
  {
    Deflate(map["id" := VStr(f.id), "name" := NameValue(f.name), "data" := VMap(f.data),
                "meta" := VMap(f.meta), "kind" := VInt(KindValue(f.kind))])
  }

  const BuildKeywords: set<string> := {"name", "data", "meta", "kind", "id"}

  /** `from_dict` as written: `build(**d)`, whose `name` parameter has no
      default, so a dict without a name is a TypeError; so is any key that is
      not a parameter. */
  function FromDictAsWritten(d: map<string, Value>, size: Sizer, newId: string, now: int): (r: Result<Frame>)
    requires newId != []
    ensures "name" !in d ==> r == Err(TypeError)
    ensures !(d.Keys <= BuildKeywords) ==> r == Err(TypeError)
  {
    if !(d.Keys <= BuildKeywords) || "name" !in d then Err(TypeError)
    else Build(d["name"], Get(d, "data"), Get(d, "meta"), KindArgOf(Get(d, "kind")), Get(d, "id"), size, newId, now)
  }

  /** `from_dict` with `name` defaulting to None like every other field,
      which is what the sparse encoding needs to round-trip a nameless frame. */
  function FromDict(d: map<string, Value>, size: Sizer, newId: string, now: int): (r: Result<Frame>)
    requires newId != []
    ensures !(d.Keys <= BuildKeywords) ==> r == Err(TypeError)
    ensures "name" in d ==> r == FromDictAsWritten(d, size, newId, now)
  {
    if !(d.Keys <= BuildKeywords) then Err(TypeError)
    else Build(Get(d, "name"), Get(d, "data"), Get(d, "meta"), KindArgOf(Get(d, "kind")), Get(d, "id"), size, newId, now)
  }

  /** The sparse encoding round-trips: id, name, payload, meta and kind come
      back unchanged, and the class is the one the kind selects. The meta
      size is checked again on the way back in, so it must be in bounds. */
  lemma RoundTrip(f: Frame, size: Sizer, newId: string, now: int)
    requires newId != []
    requires Valid(f, size)
    requires size(f.meta) < MaxMetaSize
    ensures FromDict(AsDict(f), size, newId, now) == Ok(f.(cls := ClassFor(f.kind)))
  {
    var d := AsDict(f);
    AsDictFields(f, size);
    assert d.Keys <= BuildKeywords;
    var ka := KindArgOf(Get(d, "kind"));
    KindValueInjective(f.kind, f.kind);
    assert ValidateKind(ka) == Ok(f.kind);
    var cls := ClassForArg(ka);
    assert cls == ClassFor(f.kind);
    var a := FrameArgs(Get(d, "name"), Get(d, "data"), Get(d, "meta"), ka, Get(d, "id"), VNone, VNone, VNone, VNone, None);
    assert FromDict(d, size, newId, now) == NewFrame(cls, a, size, newId, now);
    Rebuild(f, cls, a, size, newId, now);
  }

  /** A frame's own fields, passed back to the constructor with no routing
      arguments and no timestamp, give the frame back. */
  lemma Rebuild(f: Frame, cls: FrameClass, a: FrameArgs, size: Sizer, newId: string, now: int)
    requires newId != []
    requires Valid(f, size)
    requires size(f.meta) < MaxMetaSize
    requires ValidateName(a.name) == Ok(f.name)
    requires ValidateData(a.data, size) == Ok(f.data)
    requires a.meta == VMap(f.meta) && a.id == VStr(f.id)
    requires NoRouting(a) && a.timestamp.None?
    requires cls == BaseFrame ==> ValidateKind(a.kind) == Ok(f.kind)
    requires cls != BaseFrame ==> Forces(cls) == Some(f.kind)
    ensures NewFrame(cls, a, size, newId, now) == Ok(f.(cls := cls))
  {
  }

  /** What the encoding of a valid frame holds under each keyword. */
  lemma AsDictFields(f: Frame, size: Sizer)
    requires Valid(f, size)
    ensures Get(AsDict(f), "id") == VStr(f.id)
    ensures Get(AsDict(f), "name") == NameValue(f.name)
    ensures Get(AsDict(f), "meta") == VMap(f.meta)
    ensures Get(AsDict(f), "data") == (if f.data == map[] then VNone else VMap(f.data))
    ensures Get(AsDict(f), "kind") == (if f.kind == Unset then VNone else VInt(KindValue(f.kind)))
  {
    var d := AsDict(f);
    if |f.data| == 0 {
      assert f.data == map[];
    }
    assert "meta" in d;
  }

  /** As written, a frame without a name does not survive the trip: the
      encoding drops the None name and `build` then lacks its argument.
      Named frames round-trip as in `RoundTrip`. */
  lemma AsWrittenLosesNamelessFrames(f: Frame, size: Sizer, newId: string, now: int)
    requires newId != []
    requires Valid(f, size)
    requires size(f.meta) < MaxMetaSize
    ensures f.name.None? ==> FromDictAsWritten(AsDict(f), size, newId, now) == Err(TypeError)
    ensures f.name.Some? ==> FromDictAsWritten(AsDict(f), size, newId, now) == Ok(f.(cls := ClassFor(f.kind)))
  {
    if f.name.Some? {
      RoundTrip(f, size, newId, now);
    }
  }

  /** A concrete instance: `Frame()` encodes without a name and cannot be
      rebuilt as written, while the corrected `FromDict` rebuilds it. */
  lemma NamelessFrameCounterexample(size: Sizer)
    requires size(map["timestamp" := VInt(7)]) < MaxMetaSize
    ensures NewFrame(BaseFrame, NamedArgs(VNone, VNone), size, "f00d", 7).Ok?
    ensures FromDictAsWritten(AsDict(NewFrame(BaseFrame, NamedArgs(VNone, VNone), size, "f00d", 7).value), size, "beef", 8)
            == Err(TypeError)
    ensures FromDict(AsDict(NewFrame(BaseFrame, NamedArgs(VNone, VNone), size, "f00d", 7).value), size, "beef", 8).Ok?
  {
    var f := NewFrame(BaseFrame, NamedArgs(VNone, VNone), size, "f00d", 7).value;
    assert f.meta == map["timestamp" := VInt(7)];
    AsWrittenLosesNamelessFrames(f, size, "beef", 8);
    RoundTrip(f, size, "beef", 8);
  }
}

=== FILE: handlers.dfy ===
/** Handlers and the registry that indexes them by name and matching mode. */
module Handlers {
  import opened Results
  import opened PyValues
  import opened Symbols
  import opened Utils

  /** A registered handler. `uid` stands for the object's identity, which is
      what Python's sets compare; `fnRef` is the wrapped function. */
  datatype Handler = Handler(
    uid: nat,
    kind: Kind,
    name: string,
    fnRef: nat,
    meta: Value,
    runAsync: bool,
    passSelf: bool,
    matchExact: bool,
    matchParse: bool,
    matchFuzzy: bool,
    ignoreCase: bool,
    length: nat,
    filters: map<string, Value>)

  /** The keyword arguments of `Handler.__init__`; the flags are arbitrary
      objects the source reads for truthiness. */
  datatype HandlerArgs = HandlerArgs(
    kind: KindArg,
    name: Value,
    fn: Obj,
    meta: Value,
    exact: Value,
    parse: Value,
    fuzzy: Value,
    ignoreCase: Value,
    kwargs: map<string, Value>)

  /** The filter names derived from the underscore-prefixed keyword arguments. */
  function FilterNames(kwargs: map<string, Value>): (r: set<string>)
    ensures forall k :: k in r <==> "_" + k in kwargs
  {
    var names := set j | j in kwargs && StartsWith(j, "_") :: j[1..];
    assert forall k :: "_" + k in kwargs ==> k in names by {
      forall k | "_" + k in kwargs
        ensures k in names
      {
        var j := "_" + k;
        assert StartsWith(j, "_") && j[1..] == k;
      }
    }
    assert forall k | k in names :: "_" + k in kwargs by {
      forall k | k in names
        ensures "_" + k in kwargs
      {
        var j :| j in kwargs && StartsWith(j, "_") && j[1..] == k;
        assert j == "_" + k;
      }
    }
    names
  }

  /** The filters of a handler: every `_name=value` keyword becomes `name: value`. */
  function Filters(kwargs: map<string, Value>): (r: map<string, Value>)
    ensures forall k :: k in r <==> "_" + k in kwargs
    ensures forall k | k in r :: r[k] == kwargs["_" + k]
  {
    var names := FilterNames(kwargs);
    map k | k in names :: kwargs["_" + k]
  }

  /** `Handler.__init__`, checked in the source's order. `uid` stands for
      the identity of the new object. */
  function NewHandler(a: HandlerArgs, uid: nat): (r: Result<Handler>)
    ensures !Callable(a.fn) ==> r == Err(ValueError)
    ensures r.Ok? ==> r.value.uid == uid && a.fn == Fn(r.value.fnRef, r.value.runAsync, r.value.passSelf)
    ensures r.Ok? ==> a.meta == VNone || a.meta.VMap?
    ensures r.Ok? ==> !(Truthy(a.parse) && Truthy(a.fuzzy))
    ensures r.Ok? ==> r.value.matchParse == Truthy(a.parse) && r.value.matchFuzzy == Truthy(a.fuzzy)
    ensures r.Ok? ==> r.value.matchExact == (Truthy(a.exact) && !Truthy(a.parse) && !Truthy(a.fuzzy))
    ensures r.Ok? ==> ValidateKind(a.kind) == Ok(r.value.kind)
    ensures r.Ok? ==> a.name == VStr(r.value.name) && ValidName(r.value.name)
    ensures r.Ok? ==> r.value.length == |r.value.name| && r.value.ignoreCase == Truthy(a.ignoreCase)
    ensures r.Ok? ==> r.value.meta == a.meta
    ensures r.Ok? ==> forall k | k in a.kwargs :: StartsWith(k, "_")
    ensures r.Ok? ==> r.value.filters == Filters(a.kwargs)
    ensures Callable(a.fn) && a.meta != VNone && !a.meta.VMap? ==> r == Err(ValueError)
    ensures Callable(a.fn) && (a.meta == VNone || a.meta.VMap?) && Truthy(a.parse) && Truthy(a.fuzzy) ==>
              r == Err(ValueError)
    ensures Callable(a.fn) && (a.meta == VNone || a.meta.VMap?) && !(Truthy(a.parse) && Truthy(a.fuzzy))
            && ValidateKind(a.kind).Err?
            ==> r == Err(ValueError)
    ensures Callable(a.fn) && (a.meta == VNone || a.meta.VMap?) && !(Truthy(a.parse) && Truthy(a.fuzzy))
            && ValidateKind(a.kind).Ok? && ValidateName(a.name).Err?
            ==> r == Err(ValueError)
    ensures Callable(a.fn) && (a.meta == VNone || a.meta.VMap?) && !(Truthy(a.parse) && Truthy(a.fuzzy))
            && ValidateKind(a.kind).Ok? && a.name == VNone
            ==> r == Err(TypeError)
    ensures Callable(a.fn) && (a.meta == VNone || a.meta.VMap?) && !(Truthy(a.parse) && Truthy(a.fuzzy))
            && ValidateKind(a.kind).Ok? && a.name.VStr? && ValidName(a.name.s)
            && (exists k | k in a.kwargs :: !StartsWith(k, "_"))
            ==> r == Err(AssertionError)
    ensures r.Ok? <==> Callable(a.fn) && (a.meta == VNone || a.meta.VMap?) && !(Truthy(a.parse) && Truthy(a.fuzzy))
                       && ValidateKind(a.kind).Ok? && a.name.VStr? && ValidName(a.name.s)
                       && forall k | k in a.kwargs :: StartsWith(k, "_")
  {
    if !Callable(a.fn) then Err(ValueError)
    else if a.meta != VNone && !a.meta.VMap? then Err(ValueError)
    else if Truthy(a.parse) && Truthy(a.fuzzy) then Err(ValueError)
    else
      var exact := if Truthy(a.parse) || Truthy(a.fuzzy) then false else Truthy(a.exact);
      var kind :- ValidateKind(a.kind);
      var name :- ValidateName(a.name);
      if name.None? then Err(TypeError)
      else if exists k | k in a.kwargs :: !StartsWith(k, "_") then Err(AssertionError)
      else
        Ok(Handler(uid, kind, name.value, a.fn.ref, a.meta, a.fn.coroutine, a.fn.selfParam,
                   exact, Truthy(a.parse), Truthy(a.fuzzy), Truthy(a.ignoreCase), |name.value|,
                   Filters(a.kwargs)))
  }

  /** What a caller may hand `add_handler`. */
  datatype HandlerArg = HNone | HHandler(h: Handler) | HOther

  /** `validate_handler`: None and handlers pass, anything else is a ValueError. */
  function ValidateHandler(a: HandlerArg): (r: Result<Option<Handler>>)
    ensures a == HNone <==> r == Ok(None)
    ensures a.HHandler? <==> r.Ok? && r.value.Some?
    ensures a.HHandler? ==> r.value.value == a.h
    ensures a == HOther <==> r == Err(ValueError)
  {
    match a
    case HNone => Ok(None)
    case HHandler(h) => Ok(Some(h))
    case HOther => Err(ValueError)
  }

  // ---- the registry ----

  /** The three sorted name indices. */
  datatype Mode = Exact | Parse | Fuzzy

  /** The index a handler's name goes into: exact wins over parse, and
      anything else lands in the fuzzy index. */
  function ModeOf(h: Handler): Mode {
    if h.matchExact then Exact else if h.matchParse then Parse else Fuzzy
  }

  predicate HasMode(h: Handler) {
    h.matchExact || h.matchParse || h.matchFuzzy
  }

  /** The handler sets by name (a `defaultdict(set)`, so a missing name reads
      as empty) and one length-sorted list of names per mode. The catch-all
      set is the set stored under `*`: the source aliases the two as soon as
      `*` is a key, and both are empty before that. */
  datatype HandlerRegistry = HandlerRegistry(
    table: map<string, seq<Handler>>,
    exact: seq<string>,
    parse: seq<string>,
    fuzzy: seq<string>)

  const EmptyRegistry := HandlerRegistry(map[], [], [], [])

  /** `self._handlers[name]` on the defaultdict. */
  function At(t: map<string, seq<Handler>>, name: string): (r: seq<Handler>)
    ensures name in t ==> r == t[name]
    ensures name !in t ==> r == []
  {
    if name in t then t[name] else []
  }

  /** The order in which a set of handlers is iterated. Python leaves it
      unspecified, so `order` stands for the runtime's choice: it is taken
      when it lists the same handlers, and the set's own order otherwise. */
  function Iterated(order: seq<Handler> -> seq<Handler>, hs: seq<Handler>): (r: seq<Handler>)
    ensures multiset(r) == multiset(hs)
    ensures forall h :: h in r <==> h in hs
  {
    var r := if multiset(order(hs)) == multiset(hs) then order(hs) else hs;
    assert forall h :: h in r <==> multiset(r)[h] > 0;
    assert forall h :: h in hs <==> multiset(hs)[h] > 0;
    r
  }

  function CatchAll(reg: HandlerRegistry): seq<Handler> {
    At(reg.table, "*")
  }

  function Index(reg: HandlerRegistry, m: Mode): seq<string> {
    match m
    case Exact => reg.exact
    case Parse => reg.parse
    case Fuzzy => reg.fuzzy
  }

  function WithIndex(reg: HandlerRegistry, m: Mode, idx: seq<string>): (r: HandlerRegistry)
    ensures Index(r, m) == idx
    ensures forall m' | m' != m :: Index(r, m') == Index(reg, m')
    ensures r.table == reg.table
  {
    match m
    case Exact => reg.(exact := idx)
    case Parse => reg.(parse := idx)
    case Fuzzy => reg.(fuzzy := idx)
  }

  predicate NoDup<T(==)>(s: seq<T>) {
    forall i, j :: 0 <= i < j < |s| ==> s[i] != s[j]
  }

  /** A `SortedListWithKey(key=len)`: names in non-decreasing length. */
  predicate Sorted(idx: seq<string>) {
    forall i, j :: 0 <= i < j < |idx| ==> |idx[i]| <= |idx[j]|
  }

  /** Where `SortedListWithKey.add` puts a name: after every name that is no
      longer (bisect right). */
  function InsertPos(idx: seq<string>, s: string): (p: nat)
    ensures p <= |idx|
    ensures forall i :: 0 <= i < p ==> |idx[i]| <= |s|
    ensures p < |idx| ==> |idx[p]| > |s|
  {
    if idx == [] || |idx[0]| > |s| then 0 else 1 + InsertPos(idx[1..], s)
  }

  function Insert(idx: seq<string>, s: string): (r: seq<string>)
    ensures multiset(r) == multiset(idx) + multiset{s}
  {
    var p := InsertPos(idx, s);
    assert idx == idx[..p] + idx[p..];
    idx[..p] + [s] + idx[p..]
  }

  /** Inserting keeps the index sorted. */
  lemma InsertSorted(idx: seq<string>, s: string)
    requires Sorted(idx)
    ensures Sorted(Insert(idx, s))
  {
    var p := InsertPos(idx, s);
    var r := Insert(idx, s);
    forall i, j | 0 <= i < j < |r|
      ensures |r[i]| <= |r[j]|
    {
      InsertElt(idx, s, p, i);
      InsertElt(idx, s, p, j);
      if i == p && j > p {
        assert |idx[p]| <= |idx[j - 1]|;
      }
    }
  }

  /** What sits at position `i` once `s` is inserted at `p`. */
  lemma InsertElt(idx: seq<string>, s: string, p: nat, i: nat)
    requires p <= |idx| && i <= |idx|
    ensures (idx[..p] + [s] + idx[p..])[i] == if i < p then idx[i] else if i == p then s else idx[i - 1]
  {
  }

  function FirstIndex(idx: seq<string>, s: string): (i: nat)
    requires s in idx
    ensures i < |idx| && idx[i] == s && s !in idx[..i]
  {
    if idx[0] == s then 0 else 1 + FirstIndex(idx[1..], s)
  }

  /** `SortedListWithKey.remove`: drops the first occurrence of the name, a
      ValueError when there is none. */
  function RemoveFirst(idx: seq<string>, s: string): (r: Result<seq<string>>)
    ensures s !in idx <==> r == Err(ValueError)
    ensures r.Ok? ==> multiset(r.value) == multiset(idx) - multiset{s}
    ensures r.Ok? && Sorted(idx) ==> Sorted(r.value)
  {
    if s !in idx then Err(ValueError)
    else
      var i := FirstIndex(idx, s);
      DeleteAt(idx, i);
      Ok(idx[..i] + idx[i + 1..])
  }

  /** Deleting one position takes exactly that name out and keeps the order. */
  lemma DeleteAt(idx: seq<string>, i: nat)
    requires i < |idx|
    ensures multiset(idx[..i] + idx[i + 1..]) == multiset(idx) - multiset{idx[i]}
    ensures Sorted(idx) ==> Sorted(idx[..i] + idx[i + 1..])
  {
    assert idx == idx[..i] + [idx[i]] + idx[i + 1..];
    var r := idx[..i] + idx[i + 1..];
    if Sorted(idx) {
      forall p, q | 0 <= p < q < |r|
        ensures |r[p]| <= |r[q]|
      {
        var p' := if p < i then p else p + 1;
        var q' := if q < i then q else q + 1;
        assert r[p] == idx[p'] && r[q] == idx[q'];
      }
    }
  }

  /** How many handlers of a set index their name under mode `m`. */
  function Count(hs: seq<Handler>, m: Mode): nat {
    if hs == [] then 0 else (if ModeOf(hs[0]) == m then 1 else 0) + Count(hs[1..], m)
  }

  /** `set.remove`: the set without `h` (absent elements are the caller's KeyError). */
  function Without(hs: seq<Handler>, h: Handler): (r: seq<Handler>)
  {
    if hs == [] then []
    else if hs[0] == h then hs[1..]
    else [hs[0]] + Without(hs[1..], h)
  }

  /** Removal takes exactly one `h` out. */
  lemma {:induction false} WithoutMultiset(hs: seq<Handler>, h: Handler)
    ensures multiset(Without(hs, h)) == multiset(hs) - multiset{h}
  {
    if hs != [] {
      assert hs == [hs[0]] + hs[1..];
      if hs[0] != h {
        WithoutMultiset(hs[1..], h);
      }
    }
  }

  /** A set without duplicates keeps none in its tail, and its head is not there. */
  lemma NoDupTail(hs: seq<Handler>)
    requires NoDup(hs) && hs != []
    ensures NoDup(hs[1..]) && hs[0] !in hs[1..]
  {
    forall i, j | 0 <= i < j < |hs[1..]|
      ensures hs[1..][i] != hs[1..][j]
    {
      assert hs[1..][i] == hs[i + 1] && hs[1..][j] == hs[j + 1];
    }
  }

  /** Putting a new element in front keeps a sequence free of duplicates. */
  lemma NoDupCons(x: Handler, rest: seq<Handler>)
    requires NoDup(rest) && x !in rest
    ensures NoDup([x] + rest)
  {
    var r := [x] + rest;
    forall i, j | 0 <= i < j < |r|
      ensures r[i] != r[j]
    {
      assert r[j] == rest[j - 1];
      if i > 0 {
        assert r[i] == rest[i - 1];
      }
    }
  }

  /** From a set without duplicates, removal leaves no `h` behind. */
  lemma {:induction false} WithoutNoDup(hs: seq<Handler>, h: Handler)
    requires NoDup(hs)
    ensures NoDup(Without(hs, h)) && h !in Without(hs, h)
  {
    if hs != [] {
      NoDupTail(hs);
      if hs[0] != h {
        WithoutNoDup(hs[1..], h);
        WithoutMultiset(hs[1..], h);
        var rest := Without(hs[1..], h);
        assert hs[0] !in rest by {
          assert multiset(rest)[hs[0]] <= multiset(hs[1..])[hs[0]];
        }
        NoDupCons(hs[0], rest);
      }
    }
  }

  /** Each name occurs in an index once for every handler filed under it
      in that index's mode. */
  ghost predicate CountsAgree(idx: seq<string>, t: map<string, seq<Handler>>, m: Mode) {
    forall k :: multiset(idx)[k] == Count(At(t, k), m)
  }

  /** Handler sets hold no duplicates and only handlers with some mode. */
  ghost predicate SetsWellFormed(t: map<string, seq<Handler>>) {
    && (forall k | k in t :: NoDup(t[k]))
    && (forall k, h | k in t && h in t[k] :: HasMode(h))
  }

  /** The registry's invariant: the indices are sorted by length and agree
      with the handler sets, which are well formed. */
  ghost predicate Inv(reg: HandlerRegistry) {
    && Sorted(reg.exact) && Sorted(reg.parse) && Sorted(reg.fuzzy)
    && CountsAgree(reg.exact, reg.table, Exact)
    && CountsAgree(reg.parse, reg.table, Parse)
    && CountsAgree(reg.fuzzy, reg.table, Fuzzy)
    && SetsWellFormed(reg.table)
  }

  lemma EmptyRegistryInv()
    ensures Inv(EmptyRegistry)
  {
  }

  /** The key `add_handler` files a handler under. */
  function KeyFor(name: string, h: Handler): string {
    if h.ignoreCase then Lower(name) else name
  }

  /** `add_handler`: rejects a non-handler, a handler with no mode and a
      handler already filed under the key; otherwise files it and indexes
      the key in the handler's mode. */
  function Add(reg: HandlerRegistry, name: string, a: HandlerArg): (r: Result<HandlerRegistry>)
    ensures a == HOther ==> r == Err(ValueError)
    ensures a == HNone ==> r == Err(AttributeError)
    ensures a.HHandler? && !HasMode(a.h) ==> r == Err(ValueError)
    ensures a.HHandler? && HasMode(a.h) && a.h in At(reg.table, KeyFor(name, a.h)) ==> r == Err(ValueError)
    ensures r.Ok? <==> a.HHandler? && HasMode(a.h) && a.h !in At(reg.table, KeyFor(name, a.h))
    ensures r.Ok? ==> r.value.table == reg.table[KeyFor(name, a.h) := At(reg.table, KeyFor(name, a.h)) + [a.h]]
    ensures r.Ok? ==> Index(r.value, ModeOf(a.h)) == Insert(Index(reg, ModeOf(a.h)), KeyFor(name, a.h))
    ensures r.Ok? ==> forall m | m != ModeOf(a.h) :: Index(r.value, m) == Index(reg, m)
  {
    var oh :- ValidateHandler(a);
    if oh.None? then Err(AttributeError)
    else
      var h := oh.value;
      if !HasMode(h) then Err(ValueError)
      else
        var key := KeyFor(name, h);
        if h in At(reg.table, key) then Err(ValueError)
        else
          var m := ModeOf(h);
          var reg1 := reg.(table := reg.table[key := At(reg.table, key) + [h]]);
          Ok(WithIndex(reg1, m, Insert(Index(reg, m), key)))
  }

  /** `remove_handler`: the name is used as given (not lower-cased); a
      handler not filed under it is a KeyError. */
  function Remove(reg: HandlerRegistry, name: string, h: Handler): (r: Result<HandlerRegistry>)
    ensures h !in At(reg.table, name) ==> r == Err(KeyError)
    ensures r.Ok? ==> r.value.table == reg.table[name := Without(At(reg.table, name), h)]
    ensures r.Ok? ==> multiset(Index(r.value, ModeOf(h))) == multiset(Index(reg, ModeOf(h))) - multiset{name}
    ensures r.Ok? ==> forall m | m != ModeOf(h) :: Index(r.value, m) == Index(reg, m)
  {
    if h !in At(reg.table, name) then Err(KeyError)
    else
      var m := ModeOf(h);
      var idx :- RemoveFirst(Index(reg, m), name);
      Ok(WithIndex(reg.(table := reg.table[name := Without(At(reg.table, name), h)]), m, idx))
  }

  lemma {:induction false} CountAppend(hs: seq<Handler>, h: Handler, m: Mode)
    ensures Count(hs + [h], m) == Count(hs, m) + (if ModeOf(h) == m then 1 else 0)
  {
    if hs != [] {
      assert (hs + [h])[1..] == hs[1..] + [h];
      CountAppend(hs[1..], h, m);
    }
  }

  lemma {:induction false} CountWithout(hs: seq<Handler>, h: Handler, m: Mode)
    requires h in hs
    ensures Count(Without(hs, h), m) + (if ModeOf(h) == m then 1 else 0) == Count(hs, m)
  {
    if hs[0] != h {
      CountWithout(hs[1..], h, m);
      assert Without(hs, h) == [hs[0]] + Without(hs[1..], h);
      assert ([hs[0]] + Without(hs[1..], h))[1..] == Without(hs[1..], h);
    }
  }

  lemma NoDupAppend(hs: seq<Handler>, h: Handler)
    requires NoDup(hs) && h !in hs
    ensures NoDup(hs + [h])
  {
  }

  /** Filing `h` under `key` and indexing the key in `h`'s mode keeps
      the counts of index `m` in agreement. */
  lemma FileCounts(idx: seq<string>, t: map<string, seq<Handler>>, key: string, h: Handler, m: Mode)
    requires CountsAgree(idx, t, m)
    ensures CountsAgree(if ModeOf(h) == m then Insert(idx, key) else idx, t[key := At(t, key) + [h]], m)
  {
    var idx' := if ModeOf(h) == m then Insert(idx, key) else idx;
    var t' := t[key := At(t, key) + [h]];
    forall k
      ensures multiset(idx')[k] == Count(At(t', k), m)
    {
      if k == key {
        CountAppend(At(t, key), h, m);
      } else {
        assert At(t', k) == At(t, k);
      }
    }
  }

  /** Taking `h` out of the set under `name` and one `name` out of its
      mode's index keeps the counts of index `m` in agreement. */
  lemma UnfileCounts(idx: seq<string>, idx': seq<string>, t: map<string, seq<Handler>>, name: string, h: Handler, m: Mode)
    requires CountsAgree(idx, t, m)
    requires h in At(t, name)
    requires ModeOf(h) == m ==> multiset(idx') == multiset(idx) - multiset{name}
    requires ModeOf(h) != m ==> idx' == idx
    ensures CountsAgree(idx', t[name := Without(At(t, name), h)], m)
  {
    var t' := t[name := Without(At(t, name), h)];
    forall k
      ensures multiset(idx')[k] == Count(At(t', k), m)
    {
      if k == name {
        CountWithout(At(t, name), h, m);
      } else {
        assert At(t', k) == At(t, k);
      }
    }
  }

  lemma AddSorted(reg: HandlerRegistry, name: string, a: HandlerArg)
    requires Inv(reg)
    requires Add(reg, name, a).Ok?
    ensures var r := Add(reg, name, a).value; Sorted(r.exact) && Sorted(r.parse) && Sorted(r.fuzzy)
  {
    InsertSorted(Index(reg, ModeOf(a.h)), KeyFor(name, a.h));
  }

  lemma AddCounts(reg: HandlerRegistry, name: string, a: HandlerArg)
    requires Inv(reg)
    requires Add(reg, name, a).Ok?
    ensures var r := Add(reg, name, a).value;
            && CountsAgree(r.exact, r.table, Exact)
            && CountsAgree(r.parse, r.table, Parse)
            && CountsAgree(r.fuzzy, r.table, Fuzzy)
  {
    var r := Add(reg, name, a).value;
    var h := a.h;
    var key := KeyFor(name, h);
    assert r.table == reg.table[key := At(reg.table, key) + [h]];
    assert r.exact == (if ModeOf(h) == Exact then Insert(reg.exact, key) else reg.exact);
    assert r.parse == (if ModeOf(h) == Parse then Insert(reg.parse, key) else reg.parse);
    assert r.fuzzy == (if ModeOf(h) == Fuzzy then Insert(reg.fuzzy, key) else reg.fuzzy);
    FileCounts(reg.exact, reg.table, key, h, Exact);
    FileCounts(reg.parse, reg.table, key, h, Parse);
    FileCounts(reg.fuzzy, reg.table, key, h, Fuzzy);
  }

  /** Appending a new handler with a mode keeps the handler sets well formed. */
  lemma AppendWellFormed(t: map<string, seq<Handler>>, key: string, h: Handler)
    requires SetsWellFormed(t)
    requires HasMode(h) && h !in At(t, key)
    ensures SetsWellFormed(t[key := At(t, key) + [h]])
  {
    var t' := t[key := At(t, key) + [h]];
    NoDupAppend(At(t, key), h);
    forall k | k in t'
      ensures NoDup(t'[k]) && forall h' | h' in t'[k] :: HasMode(h')
    {
      if k != key {
        assert t'[k] == t[k];
      }
    }
  }

  lemma AddWellFormed(reg: HandlerRegistry, name: string, a: HandlerArg)
    requires Inv(reg)
    requires Add(reg, name, a).Ok?
    ensures SetsWellFormed(Add(reg, name, a).value.table)
  {
    AppendWellFormed(reg.table, KeyFor(name, a.h), a.h);
  }

  /** Adding a handler keeps the registry consistent. */
  lemma AddPreservesInv(reg: HandlerRegistry, name: string, a: HandlerArg)
    requires Inv(reg)
    requires Add(reg, name, a).Ok?
    ensures Inv(Add(reg, name, a).value)
  {
    AddSorted(reg, name, a);
    AddCounts(reg, name, a);
    AddWellFormed(reg, name, a);
  }

  lemma RemoveSorted(reg: HandlerRegistry, name: string, h: Handler)
    requires Inv(reg)
    requires Remove(reg, name, h).Ok?
    ensures var r := Remove(reg, name, h).value; Sorted(r.exact) && Sorted(r.parse) && Sorted(r.fuzzy)
  {
  }

  lemma RemoveCounts(reg: HandlerRegistry, name: string, h: Handler)
    requires Inv(reg)
    requires Remove(reg, name, h).Ok?
    ensures var r := Remove(reg, name, h).value;
            && CountsAgree(r.exact, r.table, Exact)
            && CountsAgree(r.parse, r.table, Parse)
            && CountsAgree(r.fuzzy, r.table, Fuzzy)
  {
    var r := Remove(reg, name, h).value;
    assert r.table == reg.table[name := Without(At(reg.table, name), h)];
    assert ModeOf(h) != Exact ==> r.exact == reg.exact;
    assert ModeOf(h) != Parse ==> r.parse == reg.parse;
    assert ModeOf(h) != Fuzzy ==> r.fuzzy == reg.fuzzy;
    UnfileCounts(reg.exact, r.exact, reg.table, name, h, Exact);
    UnfileCounts(reg.parse, r.parse, reg.table, name, h, Parse);
    UnfileCounts(reg.fuzzy, r.fuzzy, reg.table, name, h, Fuzzy);
  }

  /** Taking a handler out of one set keeps the handler sets well formed. */
  lemma UnfileWellFormed(t: map<string, seq<Handler>>, name: string, h: Handler)
    requires SetsWellFormed(t)
    ensures SetsWellFormed(t[name := Without(At(t, name), h)])
  {
    var hs := At(t, name);
    var hs' := Without(hs, h);
    var t' := t[name := hs'];
    WithoutMultiset(hs, h);
    WithoutNoDup(hs, h);
    forall k | k in t'
      ensures NoDup(t'[k]) && forall h' | h' in t'[k] :: HasMode(h')
    {
      if k == name {
        forall h' | h' in hs'
          ensures HasMode(h')
        {
          assert multiset(hs')[h'] > 0;
          assert h' in hs;
        }
      } else {
        assert t'[k] == t[k];
      }
    }
  }

  lemma RemoveWellFormed(reg: HandlerRegistry, name: string, h: Handler)
    requires Inv(reg)
    requires Remove(reg, name, h).Ok?
    ensures SetsWellFormed(Remove(reg, name, h).value.table)
  {
    UnfileWellFormed(reg.table, name, h);
  }

  /** Removing a filed handler keeps the registry consistent. */
  lemma RemovePreservesInv(reg: HandlerRegistry, name: string, h: Handler)
    requires Inv(reg)
    requires Remove(reg, name, h).Ok?
    ensures Inv(Remove(reg, name, h).value)
  {
    RemoveSorted(reg, name, h);
    RemoveCounts(reg, name, h);
    RemoveWellFormed(reg, name, h);
  }

  /** Under the invariant, a filed handler's name is always in its index,
      so removal fails only for a handler that is not filed. */
  lemma RemoveFailsOnlyWhenAbsent(reg: HandlerRegistry, name: string, h: Handler)
    requires Inv(reg)
    ensures Remove(reg, name, h).Err? <==> h !in At(reg.table, name)
  {
    if h in At(reg.table, name) {
      var hs := At(reg.table, name);
      var i :| 0 <= i < |hs| && hs[i] == h;
      CountPositive(hs, i, ModeOf(h));
      assert multiset(Index(reg, ModeOf(h)))[name] > 0;
    }
  }

  lemma {:induction false} CountPositive(hs: seq<Handler>, i: nat, m: Mode)
    requires i < |hs| && ModeOf(hs[i]) == m
    ensures Count(hs, m) > 0
  {
    if i > 0 {
      CountPositive(hs[1..], i - 1, m);
    }
  }

  lemma AddedIsRemovable(reg: HandlerRegistry, name: string, h: Handler)
    requires Add(reg, name, HHandler(h)).Ok?
    ensures Remove(Add(reg, name, HHandler(h)).value, KeyFor(name, h), h).Ok?
  {
    var key := KeyFor(name, h);
    var added := Add(reg, name, HHandler(h)).value;
    assert h in At(added.table, key);
    assert key in multiset(Index(added, ModeOf(h)));
  }

  lemma AddThenRemoveTable(reg: HandlerRegistry, name: string, h: Handler)
    requires Add(reg, name, HHandler(h)).Ok?
    requires Remove(Add(reg, name, HHandler(h)).value, KeyFor(name, h), h).Ok?
    ensures var r := Remove(Add(reg, name, HHandler(h)).value, KeyFor(name, h), h).value;
            forall k :: At(r.table, k) == At(reg.table, k)
  {
    var key := KeyFor(name, h);
    var hs := At(reg.table, key);
    WithoutAppended(hs, h);
  }

  lemma AddThenRemoveIndices(reg: HandlerRegistry, name: string, h: Handler)
    requires Add(reg, name, HHandler(h)).Ok?
    requires Remove(Add(reg, name, HHandler(h)).value, KeyFor(name, h), h).Ok?
    ensures var r := Remove(Add(reg, name, HHandler(h)).value, KeyFor(name, h), h).value;
            forall m: Mode :: multiset(Index(r, m)) == multiset(Index(reg, m))
  {
    var key := KeyFor(name, h);
    var added := Add(reg, name, HHandler(h)).value;
    var r := Remove(added, key, h).value;
    forall m: Mode
      ensures multiset(Index(r, m)) == multiset(Index(reg, m))
    {
      if m == ModeOf(h) {
        assert multiset(Index(added, m)) == multiset(Index(reg, m)) + multiset{key};
      } else {
        assert Index(added, m) == Index(reg, m);
      }
    }
  }

  /** Removing what was just added, under the key it was filed under,
      restores every handler set and the contents of every index. */
  lemma AddThenRemove(reg: HandlerRegistry, name: string, h: Handler)
    requires Add(reg, name, HHandler(h)).Ok?
    ensures Remove(Add(reg, name, HHandler(h)).value, KeyFor(name, h), h).Ok?
    ensures var r := Remove(Add(reg, name, HHandler(h)).value, KeyFor(name, h), h).value;
            && (forall k :: At(r.table, k) == At(reg.table, k))
            && (forall m: Mode :: multiset(Index(r, m)) == multiset(Index(reg, m)))
  {
    AddedIsRemovable(reg, name, h);
    AddThenRemoveTable(reg, name, h);
    AddThenRemoveIndices(reg, name, h);
  }

  lemma {:induction false} WithoutAppended(hs: seq<Handler>, h: Handler)
    requires h !in hs
    ensures Without(hs + [h], h) == hs
  {
    if hs != [] {
      assert (hs + [h])[1..] == hs[1..] + [h];
      WithoutAppended(hs[1..], h);
    }
  }

  // ---- the Registry wrapper ----

  /** A handler registry and the frame-handler callback its owner installs. */
  datatype Registry = Registry(reg: HandlerRegistry, callback: Obj)

  /** The callback rule of `Registry`: a truthy non-callable is a ValueError. */
  function NewRegistry(callback: Obj): (r: Result<Registry>)
    ensures r.Ok? <==> !ObjTruthy(callback) || Callable(callback)
    ensures r.Ok? ==> r.value == Registry(EmptyRegistry, callback)
  {
    if ObjTruthy(callback) && !Callable(callback) then Err(ValueError)
    else Ok(Registry(EmptyRegistry, callback))
  }

  /** The `callback` setter, with the same rule; the handlers are untouched. */
  function SetRegistryCallback(r: Registry, callback: Obj): (r': Result<Registry>)
    ensures r'.Ok? <==> !ObjTruthy(callback) || Callable(callback)
    ensures r'.Ok? ==> r'.value == r.(callback := callback)
  {
    if ObjTruthy(callback) && !Callable(callback) then Err(ValueError)
    else Ok(r.(callback := callback))
  }
}

=== FILE: matching.dfy ===
/** Matching a frame against a handler registry: exact names first, then
    parse patterns (longest first), then the best fuzzy name, and the
    catch-all handlers when nothing else answers. */
module Matching {
  import opened Results
  import opened PyValues
  import opened Utils
  import opened Frames
  import opened Handlers

  /** What `parse.parse` returns on a hit: the named and positional fields. */
  datatype ParseResult = ParseResult(named: map<string, Value>, fixed: seq<Value>)

  /** The matching libraries the source calls: the `parse` package, the
      fuzzy scorer (`token_sort_ratio` with its preprocessing) and the
      fuzzy threshold constant. */
  datatype Matchers = Matchers(
    parse: (string, string) -> Option<ParseResult>,
    score: (string, string) -> nat,
    threshold: int)

  /** The handlers of a set whose `ignore_case` flag is set. */
  function IgnoringCase(hs: seq<Handler>): (r: seq<Handler>)
    ensures forall h :: h in r <==> h in hs && h.ignoreCase
    ensures |r| <= |hs|
  {
    if hs == [] then [] else (if hs[0].ignoreCase then [hs[0]] else []) + IgnoringCase(hs[1..])
  }

  /** `match_exact`. A missing name fails inside the sorted index (its key
      is `len`), or, on an empty index, on `.lower()`. */
  function MatchExact(reg: HandlerRegistry, f: Frame): (r: Result<seq<Handler>>)
    ensures f.name.None? ==> r == Err(if reg.exact == [] then AttributeError else TypeError)
    ensures f.name.Some? ==> r.Ok?
    ensures f.name.Some? && f.name.value in reg.exact ==> r == Ok(At(reg.table, f.name.value))
    ensures f.name.Some? && f.name.value !in reg.exact && Lower(f.name.value) in reg.exact ==>
              r == Ok(IgnoringCase(At(reg.table, Lower(f.name.value))))
    ensures f.name.Some? && f.name.value !in reg.exact && Lower(f.name.value) !in reg.exact ==> r == Ok([])
  {
    match f.name
    case None => Err(if reg.exact == [] then AttributeError else TypeError)
    case Some(n) =>
      if n in reg.exact then Ok(At(reg.table, n))
      else if Lower(n) in reg.exact then Ok(IgnoringCase(At(reg.table, Lower(n))))
      else Ok([])
  }

  /** `reversed(index)`. */
  function Reverse(s: seq<string>): (r: seq<string>)
    ensures |r| == |s|
    ensures forall i | 0 <= i < |s| :: r[i] == s[|s| - 1 - i]
  {
    seq(|s|, i requires 0 <= i < |s| => s[|s| - 1 - i])
  }

  /** The position of the first pattern that parses the text. */
  function FirstParse(patterns: seq<string>, text: string, parse: (string, string) -> Option<ParseResult>): (r: Option<nat>)
    ensures r.Some? ==> r.value < |patterns| && parse(patterns[r.value], text).Some?
    ensures r.Some? ==> forall j | 0 <= j < r.value :: parse(patterns[j], text).None?
    ensures r.None? ==> forall j | 0 <= j < |patterns| :: parse(patterns[j], text).None?
  {
    if patterns == [] then None
    else if parse(patterns[0], text).Some? then Some(0)
    else
      match FirstParse(patterns[1..], text, parse)
      case None => None
      case Some(i) => Some(i + 1)
  }

  /** The string `match_parse` parses: the payload's `text` when it is a
      string, else the frame's name. */
  function ParseText(f: Frame): (r: Result<string>)
    ensures Attr(f.data, "text").VStr? ==> r == Ok(Attr(f.data, "text").s)
    ensures !Attr(f.data, "text").VStr? && f.name.Some? ==> r == Ok(f.name.value)
    ensures !Attr(f.data, "text").VStr? && f.name.None? ==> r == Err(TypeError)
  {
    var t := Attr(f.data, "text");
    if t.VStr? then Ok(t.s)
    else if f.name.Some? then Ok(f.name.value)
    else Err(TypeError)
  }

  /** The same read as written: it goes through the `data` property, which
      turns an empty payload into a plain dict without attribute access. */
  function ParseTextAsWritten(f: Frame): (r: Result<string>)
    ensures |f.data| == 0 ==> r == Err(AttributeError)
    ensures |f.data| > 0 ==> r == ParseText(f)
  {
    var _ :- DataAttrAsWritten(f, "text");
    ParseText(f)
  }

  /** The payload after a parse hit: the named fields, then `args` holding
      the positional ones. */
  function Merged(data: map<string, Value>, res: ParseResult): (r: map<string, Value>)
    ensures r.Keys == data.Keys + res.named.Keys + {"args"}
    ensures r["args"] == VList(res.fixed)
    ensures forall k | k in res.named && k != "args" :: r[k] == res.named[k]
    ensures forall k | k in data && k !in res.named && k != "args" :: r[k] == data[k]
  {
    (data + res.named)["args" := VList(res.fixed)]
  }

  /** The body of `match_parse` once the text is known. */
  function ParseWith(reg: HandlerRegistry, f: Frame, text: string, mx: Matchers, size: Sizer): (r: Result<(Frame, seq<Handler>)>)
    ensures FirstParse(Reverse(reg.parse), text, mx.parse).None? ==> r == Ok((f, []))
    ensures r.Ok? && r.value.1 != [] ==>
              var i := FirstParse(Reverse(reg.parse), text, mx.parse).value;
              var p := Reverse(reg.parse)[i];
              && r.value.1 == At(reg.table, p)
              && r.value.0 == f.(data := Merged(f.data, mx.parse(p, text).value))
    ensures r.Ok? ==> r.value.0.(data := f.data) == f
  {
    match FirstParse(Reverse(reg.parse), text, mx.parse)
    case None => Ok((f, []))
    case Some(i) =>
      var p := Reverse(reg.parse)[i];
      var data := Merged(f.data, mx.parse(p, text).value);
      var f' :- SetData(f, VMap(data), size);
      Ok((f', At(reg.table, p)))
  }

  /** `match_parse`: patterns are tried longest first; the first hit merges
      its fields into the payload, which must still pass validation. */
  function MatchParse(reg: HandlerRegistry, f: Frame, mx: Matchers, size: Sizer): (r: Result<(Frame, seq<Handler>)>)
    ensures reg.parse == [] ==> r == Ok((f, []))
    ensures reg.parse != [] && ParseText(f).Err? ==> r == Err(TypeError)
    ensures reg.parse != [] && ParseText(f).Ok? ==> r == ParseWith(reg, f, ParseText(f).value, mx, size)
  {
    if reg.parse == [] then Ok((f, []))
    else
      var text :- ParseText(f);
      ParseWith(reg, f, text, mx, size)
  }

  /** `match_parse` as written, failing on a frame whose payload is empty. */
  function MatchParseAsWritten(reg: HandlerRegistry, f: Frame, mx: Matchers, size: Sizer): (r: Result<(Frame, seq<Handler>)>)
    ensures reg.parse != [] && |f.data| == 0 ==> r == Err(AttributeError)
    ensures reg.parse == [] || |f.data| > 0 ==> r == MatchParse(reg, f, mx, size)
  {
    if reg.parse == [] then Ok((f, []))
    else
      var text :- ParseTextAsWritten(f);
      ParseWith(reg, f, text, mx, size)
  }

  /** `process.extractOne`: the position of the first best-scoring name. */
  function Best(idx: seq<string>, q: string, score: (string, string) -> nat): (b: nat)
    requires |idx| > 0
    ensures b < |idx|
    ensures forall j | 0 <= j < |idx| :: score(q, idx[j]) <= score(q, idx[b])
    ensures forall j | 0 <= j < b :: score(q, idx[j]) < score(q, idx[b])
  {
    if |idx| == 1 then 0
    else
      var b := Best(idx[..|idx| - 1], q, score);
      assert forall j | 0 <= j < |idx| - 1 :: idx[..|idx| - 1][j] == idx[j];
      if score(q, idx[|idx| - 1]) > score(q, idx[b]) then |idx| - 1 else b
  }

  /** `match_fuzzy`: the best-scoring name's handlers, if it scores at
      least the threshold. A missing name cannot be scored. */
  function MatchFuzzy(reg: HandlerRegistry, f: Frame, mx: Matchers): (r: Result<seq<Handler>>)
    ensures reg.fuzzy == [] ==> r == Ok([])
    ensures reg.fuzzy != [] && f.name.None? ==> r == Err(TypeError)
    ensures reg.fuzzy != [] && f.name.Some? ==>
              var b := Best(reg.fuzzy, f.name.value, mx.score);
              r == Ok(if mx.score(f.name.value, reg.fuzzy[b]) < mx.threshold then [] else At(reg.table, reg.fuzzy[b]))
  {
    if reg.fuzzy == [] then Ok([])
    else if f.name.None? then Err(TypeError)
    else
      var q := f.name.value;
      var b := Best(reg.fuzzy, q, mx.score);
      if mx.score(q, reg.fuzzy[b]) < mx.threshold then Ok([]) else Ok(At(reg.table, reg.fuzzy[b]))
  }

  /** `match`: each strategy with a non-empty index is tried in turn and
      the first non-empty answer wins; the parse step may rewrite the
      payload. Otherwise the catch-all handlers answer, possibly none. */
  function Match(reg: HandlerRegistry, f: Frame, mx: Matchers, size: Sizer): (r: Result<(Frame, seq<Handler>)>)
    ensures r.Ok? ==> forall h | h in r.value.1 :: exists k :: h in At(reg.table, k)
    ensures r.Ok? && r.value.1 == [] ==> CatchAll(reg) == []
    ensures r.Ok? ==> r.value.0.(data := f.data) == f
  {
    var exactHs :- if reg.exact == [] then Ok([]) else MatchExact(reg, f);
    if exactHs != [] then
      assert forall h | h in exactHs :: h in At(reg.table, f.name.value) || h in At(reg.table, Lower(f.name.value));
      Ok((f, exactHs))
    else
      var parsed :- MatchParse(reg, f, mx, size);
      if parsed.1 != [] then
        var p := Reverse(reg.parse)[FirstParse(Reverse(reg.parse), ParseText(f).value, mx.parse).value];
        assert forall h | h in parsed.1 :: h in At(reg.table, p);
        Ok(parsed)
      else
        var f1 := parsed.0;
        var fuzzyHs :- MatchFuzzy(reg, f1, mx);
        if fuzzyHs != [] then
          var b := Best(reg.fuzzy, f1.name.value, mx.score);
          assert forall h | h in fuzzyHs :: h in At(reg.table, reg.fuzzy[b]);
          Ok((f1, fuzzyHs))
        else
          assert forall h | h in CatchAll(reg) :: h in At(reg.table, "*");
          Ok((f1, CatchAll(reg)))
  }

  /** The same dispatch over the as-written parse step. */
  function MatchAsWritten(reg: HandlerRegistry, f: Frame, mx: Matchers, size: Sizer): (r: Result<(Frame, seq<Handler>)>)
    ensures reg.parse == [] || |f.data| > 0 ==> r == Match(reg, f, mx, size)
  {
    var exactHs :- if reg.exact == [] then Ok([]) else MatchExact(reg, f);
    if exactHs != [] then Ok((f, exactHs))
    else
      var parsed :- MatchParseAsWritten(reg, f, mx, size);
      if parsed.1 != [] then Ok(parsed)
      else
        var fuzzyHs :- MatchFuzzy(reg, parsed.0, mx);
        if fuzzyHs != [] then Ok((parsed.0, fuzzyHs)) else Ok((parsed.0, CatchAll(reg)))
  }

  // ---- properties ----

  /** A name filed for exact matching answers with every handler under it,
      ahead of the parse, fuzzy and catch-all handlers. */
  lemma ExactNameWins(reg: HandlerRegistry, f: Frame, mx: Matchers, size: Sizer)
    requires f.name.Some? && f.name.value in reg.exact
    requires At(reg.table, f.name.value) != []
    ensures Match(reg, f, mx, size) == Ok((f, At(reg.table, f.name.value)))
  {
  }

  /** Construction and matching together: a handler built for an exact,
      case-sensitive name and filed in an empty registry is exactly what a
      frame of that name matches. */
  lemma BuiltHandlerIsMatched(a: HandlerArgs, uid: nat, f: Frame, mx: Matchers, size: Sizer)
    requires NewHandler(a, uid).Ok?
    requires Truthy(a.exact) && !Truthy(a.parse) && !Truthy(a.fuzzy) && !Truthy(a.ignoreCase)
    requires f.name == Some(NewHandler(a, uid).value.name)
    ensures var h := NewHandler(a, uid).value;
            var added := Add(EmptyRegistry, h.name, HHandler(h));
            added.Ok? && Match(added.value, f, mx, size) == Ok((f, [h]))
  {
    var h := NewHandler(a, uid).value;
    assert ModeOf(h) == Exact && KeyFor(h.name, h) == h.name;
    var reg := Add(EmptyRegistry, h.name, HHandler(h)).value;
    assert reg.exact == [h.name];
    assert At(reg.table, h.name) == [h];
    ExactNameWins(reg, f, mx, size);
  }

  /** When the exact step gives nothing (its index is empty, or the name is
      not filed), a parse hit answers, before any fuzzy or catch-all
      handler is looked at. */
  lemma ParseAnswersBeforeFuzzy(reg: HandlerRegistry, f: Frame, mx: Matchers, size: Sizer, f1: Frame, hs: seq<Handler>)
    requires reg.exact == [] || MatchExact(reg, f) == Ok([])
    requires MatchParse(reg, f, mx, size) == Ok((f1, hs)) && hs != []
    ensures Match(reg, f, mx, size) == Ok((f1, hs))
  {
  }

  /** Fuzzy handlers answer only once both the exact and the parse step
      have given nothing, and then they answer for the parsed frame. */
  lemma FuzzyAnswersAfterExactAndParse(reg: HandlerRegistry, f: Frame, mx: Matchers, size: Sizer, f1: Frame, hs: seq<Handler>)
    requires reg.exact == [] || MatchExact(reg, f) == Ok([])
    requires MatchParse(reg, f, mx, size) == Ok((f1, []))
    requires MatchFuzzy(reg, f, mx) == Ok(hs) && hs != []
    ensures Match(reg, f, mx, size) == Ok((f1, hs))
  {
    assert f1.name == f.name;
  }

  /** Conversely, a non-empty answer from `Match` is the first non-empty
      answer of the three steps in the order exact, parse, fuzzy, or else
      the catch-all set. */
  lemma MatchIsFirstAnswer(reg: HandlerRegistry, f: Frame, mx: Matchers, size: Sizer)
    requires Match(reg, f, mx, size).Ok?
    ensures var r := Match(reg, f, mx, size).value;
            || (reg.exact != [] && MatchExact(reg, f) == Ok(r.1) && r.1 != [] && r.0 == f)
            || ((reg.exact == [] || MatchExact(reg, f) == Ok([])) && MatchParse(reg, f, mx, size) == Ok(r) && r.1 != [])
            || ((reg.exact == [] || MatchExact(reg, f) == Ok([])) && MatchParse(reg, f, mx, size) == Ok((r.0, []))
                && ((MatchFuzzy(reg, f, mx) == Ok(r.1) && r.1 != []) || (MatchFuzzy(reg, f, mx) == Ok([]) && r.1 == CatchAll(reg))))
  {
    var exactHs := if reg.exact == [] then Ok([]) else MatchExact(reg, f);
    if exactHs.value == [] {
      var parsed := MatchParse(reg, f, mx, size).value;
      if parsed.1 == [] {
        assert parsed.0.name == f.name;
        assert MatchFuzzy(reg, parsed.0, mx) == MatchFuzzy(reg, f, mx);
      }
    }
  }

  /** An empty exact index is skipped, so a nameless frame fails there only
      when some exact pattern is filed; with no pattern at all it gets the
      catch-all handlers. */
  lemma NamelessFrameSkipsEmptyIndex(reg: HandlerRegistry, f: Frame, mx: Matchers, size: Sizer)
    requires f.name.None?
    ensures reg.exact != [] ==> Match(reg, f, mx, size) == Err(TypeError)
    ensures reg.exact == [] && reg.parse == [] && reg.fuzzy == [] ==> Match(reg, f, mx, size) == Ok((f, CatchAll(reg)))
  {
  }

  /** A frame no strategy answers gets the catch-all handlers, unchanged. */
  lemma CatchAllWhenNothingMatches(reg: HandlerRegistry, f: Frame, mx: Matchers, size: Sizer)
    requires f.name.Some?
    requires f.name.value !in reg.exact && Lower(f.name.value) !in reg.exact
    requires forall p | p in reg.parse :: mx.parse(p, ParseText(f).value).None?
    requires forall p | p in reg.fuzzy :: mx.score(f.name.value, p) < mx.threshold
    ensures Match(reg, f, mx, size) == Ok((f, CatchAll(reg)))
  {
    assert reg.exact == [] || MatchExact(reg, f) == Ok([]);
    if reg.parse != [] {
      var rev := Reverse(reg.parse);
      assert forall j | 0 <= j < |rev| :: rev[j] in reg.parse;
      assert FirstParse(rev, ParseText(f).value, mx.parse).None?;
    }
    assert MatchParse(reg, f, mx, size) == Ok((f, []));
    if reg.fuzzy != [] {
      var b := Best(reg.fuzzy, f.name.value, mx.score);
      assert reg.fuzzy[b] in reg.fuzzy;
    }
    assert MatchFuzzy(reg, f, mx) == Ok([]);
  }

  /** In a length-sorted index, an entry strictly longer than the one at
      `m` sits after it. */
  lemma LongerSortsLater(idx: seq<string>, m: nat, k: nat)
    requires Sorted(idx) && m < |idx| && k < |idx|
    requires |idx[k]| > |idx[m]|
    ensures m < k
  {
  }

  /** Longest pattern first: when a parse pattern answers, no strictly
      longer parse pattern in the sorted index parses the same text. */
  lemma {:induction false} ParseHitIsLongest(reg: HandlerRegistry, text: string, mx: Matchers)
    requires Sorted(reg.parse)
    requires FirstParse(Reverse(reg.parse), text, mx.parse).Some?
    ensures var p := Reverse(reg.parse)[FirstParse(Reverse(reg.parse), text, mx.parse).value];
            forall q | q in reg.parse && |q| > |p| :: mx.parse(q, text).None?
  {
    var rev := Reverse(reg.parse);
    var i := FirstParse(rev, text, mx.parse).value;
    var p := rev[i];
    var m := |reg.parse| - 1 - i;
    assert p == reg.parse[m];
    forall q | q in reg.parse && |q| > |p|
      ensures mx.parse(q, text).None?
    {
      var k :| 0 <= k < |reg.parse| && reg.parse[k] == q;
      LongerSortsLater(reg.parse, m, k);
      var j := |reg.parse| - 1 - k;
      assert j < i && rev[j] == q;
    }
  }

  /** The corrected parse step answers a frame with an empty payload by
      its name; as written the same call fails. */
  lemma EmptyPayloadParse(reg: HandlerRegistry, f: Frame, mx: Matchers, size: Sizer)
    requires reg.parse != [] && f.data == map[] && f.name.Some?
    ensures MatchParseAsWritten(reg, f, mx, size) == Err(AttributeError)
    ensures MatchParse(reg, f, mx, size) == ParseWith(reg, f, f.name.value, mx, size)
  {
  }

  /** A concrete instance: one parse handler for `hello {name}` and the
      nameless-payload frame `hello world`. The parse library answers,
      and the corrected step returns the handler with the field merged in,
      while as written the frame is rejected. */
  lemma ParseCounterexample(h: Handler, size: Sizer)
    requires h.matchParse && !h.matchExact
    requires size(map["name" := VStr("world"), "args" := VList([])]) < MaxDataSize
    ensures var reg := HandlerRegistry(map["hello {name}" := [h]], [], ["hello {name}"], []);
            var f := Frame("f00d", Some("hello world"), map[], map["timestamp" := VInt(0)], Symbols.Event, EventFrame);
            var mx := Matchers((p: string, t: string) => if p == "hello {name}" && t == "hello world"
                                                         then Some(ParseResult(map["name" := VStr("world")], []))
                                                         else None,
                               (q: string, c: string) => 0, 70);
            && MatchAsWritten(reg, f, mx, size) == Err(AttributeError)
            && Match(reg, f, mx, size) == Ok((f.(data := map["name" := VStr("world"), "args" := VList([])]), [h]))
  {
    var reg := HandlerRegistry(map["hello {name}" := [h]], [], ["hello {name}"], []);
    var f := Frame("f00d", Some("hello world"), map[], map["timestamp" := VInt(0)], Symbols.Event, EventFrame);
    var mx := Matchers((p: string, t: string) => if p == "hello {name}" && t == "hello world"
                                                 then Some(ParseResult(map["name" := VStr("world")], []))
                                                 else None,
                       (q: string, c: string) => 0, 70);
    assert Reverse(reg.parse) == ["hello {name}"];
    assert ParseText(f) == Ok("hello world");
    assert FirstParse(Reverse(reg.parse), "hello world", mx.parse) == Some(0);
    var data := map["name" := VStr("world"), "args" := VList([])];
    assert Merged(map[], ParseResult(map["name" := VStr("world")], [])) == data;
    assert SetData(f, VMap(data), size) == Ok(f.(data := data));
    assert ParseWith(reg, f, "hello world", mx, size) == Ok((f.(data := data), [h]));
    assert MatchParse(reg, f, mx, size) == Ok((f.(data := data), [h]));
    assert MatchParseAsWritten(reg, f, mx, size) == Err(AttributeError);
  }
}

=== FILE: micro.dfy ===
/** The MicroPython runtime: a self-contained frame codec for events, a
    websocket connection reduced to its guard assertions, and an agent that
    keeps a set of handlers per event name. */
module Micro {
  import opened Results
  import opened PyValues
  import Utils

  /** The codes of the runtime's `ZentropiError`. */
  const MessageCode := 0x001
  const UnexpectedTypeCode := 0x101
  const UnsetValueCode := 0x103

  /** The kinds the runtime knows; only events are decoded. */
  const FrameKind := 0
  const CommandKind := 1
  const EventKind := 2

  /** The five fields of an event, which are the keys of a full frame dict. */
  const Fields: set<string> := {"kind", "uuid", "name", "data", "meta"}

  /** The values `inflate` fills in for missing keys. */
  const Defaults: map<string, Value> :=
    map["kind" := VInt(0), "uuid" := VNone, "name" := VNone, "data" := VMap(map[]), "meta" := VMap(map[])]

  /** The `Event` named tuple. */
  datatype Event = Event(uuid: Value, name: Value, data: Value, meta: Value, kind: Value)

  /** `Frame.inflate`: every field present, the given keys taking precedence
      over the defaults. */
  function Inflate(frame: map<string, Value>): (r: map<string, Value>)
    ensures r.Keys == frame.Keys + Fields
    ensures forall k | k in frame :: r[k] == frame[k]
    ensures forall k | k in Defaults && k !in frame :: r[k] == Defaults[k]
  {
    Defaults + frame
  }

  /** A full frame dict whose falsy entries are the defaults. */
  predicate Canonical(frame: map<string, Value>) {
    frame.Keys == Fields && forall k | k in frame :: !Truthy(frame[k]) ==> frame[k] == Defaults[k]
  }

  /** Inflating a deflated canonical frame restores it. */
  lemma InflateUndoesDeflate(frame: map<string, Value>)
    requires Canonical(frame)
    ensures Inflate(Utils.Deflate(frame)) == frame
  {
    assert Defaults.Keys == Fields;
    RefillUndoesDeflate(Defaults, frame);
  }

  /** The defaults are all falsy. */
  lemma DefaultsFalsy()
    ensures forall k | k in Defaults :: !Truthy(Defaults[k])
  {
  }

  /** Over any defaults: filling a deflated map back in restores it when
      its falsy entries are the defaults. */
  lemma RefillUndoesDeflate(defaults: map<string, Value>, frame: map<string, Value>)
    requires frame.Keys == defaults.Keys
    requires forall k | k in frame :: !Truthy(frame[k]) ==> frame[k] == defaults[k]
    ensures defaults + Utils.Deflate(frame) == frame
  {
    var r := defaults + Utils.Deflate(frame);
    forall k | k in frame
      ensures r[k] == frame[k]
    {
      if !Truthy(frame[k]) {
        assert k !in Utils.Deflate(frame);
      }
    }
  }

  /** Over any falsy defaults: deflating a filled-in map of truthy values
      drops exactly the defaults. */
  lemma DeflateUndoesRefill(defaults: map<string, Value>, frame: map<string, Value>)
    requires forall k | k in defaults :: !Truthy(defaults[k])
    requires forall k | k in frame :: Truthy(frame[k])
    ensures Utils.Deflate(defaults + frame) == frame
  {
    var d := Utils.Deflate(defaults + frame);
    assert d.Keys == frame.Keys;
  }

  /** The event a full frame dict spells out. */
  function ToEvent(frame: map<string, Value>): (r: Event)
    requires Fields <= frame.Keys
    ensures r.uuid == frame["uuid"] && r.name == frame["name"] && r.data == frame["data"]
    ensures r.meta == frame["meta"] && r.kind == frame["kind"]
  {
    Event(frame["uuid"], frame["name"], frame["data"], frame["meta"], frame["kind"])
  }

  /** The full frame dict of an event. */
  function FromEvent(e: Event): (r: map<string, Value>)
    ensures r.Keys == Fields
    ensures ToEvent(r) == e
  {
    map["kind" := e.kind, "uuid" := e.uuid, "name" := e.name, "data" := e.data, "meta" := e.meta]
  }

  /** `Frame.load`: a missing or falsy kind is an unset value, a kind equal
      to 2 builds an event from the inflated frame (a key that is not a field
      is an unexpected keyword for the tuple), and any other kind is a
      malformed frame. */
  function Load(frame: map<string, Value>): (r: Result<Event>)
    ensures !Truthy(Get(frame, "kind")) ==> r == Err(ZentropiError(UnsetValueCode))
    ensures Truthy(Get(frame, "kind")) && Get(frame, "kind") != VInt(EventKind) ==> r == Err(ZentropiError(MessageCode))
    ensures Get(frame, "kind") == VInt(EventKind) ==> (r.Ok? <==> frame.Keys <= Fields)
    ensures r.Ok? ==> r.value.kind == VInt(EventKind) && r.value == ToEvent(Inflate(frame))
    ensures r.Err? && Get(frame, "kind") == VInt(EventKind) ==> r.error == TypeError
  {
    var kind := Get(frame, "kind");
    if !Truthy(kind) then Err(ZentropiError(UnsetValueCode))
    else if kind == VInt(EventKind) then
      if frame.Keys <= Fields then Ok(ToEvent(Inflate(frame))) else Err(TypeError)
    else Err(ZentropiError(MessageCode))
  }

  /** What `Frame.dump` may be given. */
  datatype Dumpable = AnEvent(e: Event) | OtherObject

  /** `Frame.dump`: the deflated dict of an event's five fields. */
  function Dump(obj: Dumpable): (r: Result<map<string, Value>>)
    ensures obj.OtherObject? ==> r == Err(NotImplementedError)
    ensures obj.AnEvent? ==> r.Ok? && r.value == Utils.Deflate(FromEvent(obj.e))
    ensures r.Ok? ==> r.value.Keys <= Fields && forall k | k in r.value :: Truthy(r.value[k])
  {
    match obj
    case AnEvent(e) => Ok(Utils.Deflate(FromEvent(e)))
    case OtherObject => Err(NotImplementedError)
  }

  /** An event whose falsy fields are the ones `inflate` fills in. */
  predicate CanonicalEvent(e: Event) {
    Canonical(FromEvent(e))
  }

  /** `Frame.event`: an event of kind 2. */
  function NewEvent(name: Value, data: Value, meta: Value, uuid: Value): (r: Event)
    ensures r.kind == VInt(EventKind) && r.name == name && r.data == data && r.meta == meta && r.uuid == uuid
  {
    Event(uuid, name, data, meta, VInt(EventKind))
  }

  /** Dumping and loading an event of kind 2 gives it back when its falsy
      fields are the defaults. */
  lemma LoadDumpRoundTrip(e: Event)
    requires e.kind == VInt(EventKind) && CanonicalEvent(e)
    ensures Dump(AnEvent(e)).Ok? && Load(Dump(AnEvent(e)).value) == Ok(e)
  {
    var d := Utils.Deflate(FromEvent(e));
    assert Truthy(VInt(EventKind));
    assert Get(d, "kind") == VInt(EventKind);
    InflateUndoesDeflate(FromEvent(e));
  }

  /** Loading a sparse event frame and dumping the event gives the frame back. */
  lemma DumpLoadRoundTrip(frame: map<string, Value>)
    requires Get(frame, "kind") == VInt(EventKind) && frame.Keys <= Fields
    requires forall k | k in frame :: Truthy(frame[k])
    ensures Load(frame).Ok? && Dump(AnEvent(Load(frame).value)) == Ok(frame)
  {
    var inflated := Inflate(frame);
    assert inflated.Keys == Fields;
    FullFrameIsEvent(inflated);
    DeflateUndoesInflate(frame);
  }

  /** The defaults are all falsy, so deflating drops every one of them. */
  lemma DeflateUndoesInflate(frame: map<string, Value>)
    requires forall k | k in frame :: Truthy(frame[k])
    ensures Utils.Deflate(Inflate(frame)) == frame
  {
    DefaultsFalsy();
    DeflateUndoesRefill(Defaults, frame);
  }

  /** A full frame dict is the dict of the event it spells out. */
  lemma FullFrameIsEvent(frame: map<string, Value>)
    requires frame.Keys == Fields
    ensures FromEvent(ToEvent(frame)) == frame
  {
  }

  /** The keyword arguments a handler may be called with. */
  datatype Arg = ValueArg(v: Value) | EventArg(e: Event) | DictArg(m: map<string, Arg>)

  /** The keyword arguments `**payload` spreads, for a dict payload. */
  function Keywords(payload: Arg): (r: Option<map<string, Arg>>)
    ensures r.Some? <==> payload.DictArg? || (payload.ValueArg? && payload.v.VMap?)
    ensures payload.DictArg? ==> r == Some(payload.m)
    ensures payload.ValueArg? && payload.v.VMap? ==> r.Some? && r.value.Keys == payload.v.m.Keys
  {
    match payload
    case DictArg(m) => Some(m)
    case ValueArg(v) => if v.VMap? then Some(map k | k in v.m :: ValueArg(v.m[k])) else None
    case EventArg(_) => None
  }

  /** How a handler call turns out: `call(ref, kwargs)`. */
  type Caller = (nat, map<string, Arg>) -> Result<Value>

  /** `Agent._trigger_handler`: a payload that is not a dict, or a handler
      that cannot be called, is an unexpected type. */
  function TriggerHandler(handler: Obj, payload: Arg, call: Caller): (r: Result<Value>)
    ensures Keywords(payload).None? ==> r == Err(ZentropiError(UnexpectedTypeCode))
    ensures Keywords(payload).Some? && !Callable(handler) ==> r == Err(ZentropiError(UnexpectedTypeCode))
    ensures Keywords(payload).Some? && Callable(handler) ==> r == call(handler.ref, Keywords(payload).value)
  {
    match Keywords(payload)
    case None => Err(ZentropiError(UnexpectedTypeCode))
    case Some(kwargs) =>
      if Callable(handler) then call(handler.ref, kwargs) else Err(ZentropiError(UnexpectedTypeCode))
  }

  /** The websocket connection's state: the endpoint, whether a socket is
      held, and the `_connected` flag (None before the first connect). */
  datatype WsConn = WsConn(endpoint: Option<string>, socket: bool, connected: Option<bool>)

  const FreshConn := WsConn(None, false, None)

  /** `connect` up to the socket being open: it asserts the connection is
      unused, the endpoint a non-empty string and the handler callable. */
  function ConnOpen(c: WsConn, endpoint: Value, handler: Obj): (r: Result<WsConn>)
    ensures r.Ok? <==> c == FreshConn && endpoint.VStr? && endpoint.s != [] && Callable(handler)
    ensures r.Err? ==> r.error == AssertionError
    ensures r.Ok? ==> r.value == WsConn(Some(endpoint.s), true, Some(true))
  {
    if c.connected.Some? || c.socket || c.endpoint.Some? then Err(AssertionError)
    else if !(endpoint.VStr? && endpoint.s != []) then Err(AssertionError)
    else if !Callable(handler) then Err(AssertionError)
    else Ok(WsConn(Some(endpoint.s), true, Some(true)))
  }

  predicate Live(c: WsConn) {
    c.endpoint.Some? && c.endpoint.value != [] && c.socket && c.connected == Some(true)
  }

  /** `send`: the frame goes out only on a live connection. */
  function Send(c: WsConn, frame: map<string, Value>): (r: Result<map<string, Value>>)
    ensures r.Ok? <==> Live(c)
    ensures r.Ok? ==> r.value == frame
    ensures r.Err? ==> r.error == AssertionError
  {
    if Live(c) then Ok(frame) else Err(AssertionError)
  }

  /** `close`: asserts an open socket, then clears `_connected`. */
  function Close(c: WsConn): (r: Result<WsConn>)
    ensures r.Ok? <==> c.socket && c.connected == Some(true)
    ensures r.Ok? ==> r.value == c.(connected := Some(false))
    ensures r.Err? ==> r.error == AssertionError
  {
    if c.socket && c.connected == Some(true) then Ok(c.(connected := Some(false))) else Err(AssertionError)
  }

  /** A connection opens once, sends while open and not after closing. */
  lemma ConnectionLifecycle(endpoint: string, handler: Obj, frame: map<string, Value>)
    requires endpoint != [] && Callable(handler)
    ensures var c := ConnOpen(FreshConn, VStr(endpoint), handler);
            && c.Ok?
            && Send(c.value, frame) == Ok(frame)
            && ConnOpen(c.value, VStr(endpoint), handler) == Err(AssertionError)
            && Close(c.value).Ok?
            && Send(Close(c.value).value, frame) == Err(AssertionError)
            && Close(Close(c.value).value) == Err(AssertionError)
  {
  }

  /** The agent: its loop's identity, the handler set per event name, the
      stop flag, its connection, and how many coroutines wait for a loop. */
  datatype MicroAgent = MicroAgent(
    loop: Option<nat>,
    handlers: map<Value, set<Obj>>,
    shouldStop: bool,
    connection: Option<WsConn>,
    deferred: nat)

  const NewMicroAgent := MicroAgent(None, map[], false, None, 0)

  /** The set filed under a hashable name's key; empty for a name never filed. */
  function Filed(a: MicroAgent, name: Value): set<Obj> {
    if Key(name) in a.handlers then a.handlers[Key(name)] else {}
  }

  /** The handlers of a name, as `_event_handlers[name]` reads them: the
      defaultdict gives an empty set for a name never filed, a list or dict
      cannot be a key (TypeError), and `True` and `1` are one name. */
  function HandlersOf(a: MicroAgent, name: Value): (r: Result<set<Obj>>)
    ensures r.Err? <==> !Hashable(name)
    ensures r.Err? ==> r.error == TypeError
    ensures r.Ok? && Key(name) !in a.handlers ==> r.value == {}
  {
    if Hashable(name) then Ok(Filed(a, name)) else Err(TypeError)
  }

  /** Names Python finds equal read the same handler set. */
  lemma EqualNamesShareHandlers(a: MicroAgent, name: Value, other: Value)
    requires Hashable(name) && Hashable(other) && PyEq(name, other)
    ensures HandlersOf(a, name) == HandlersOf(a, other)
  {
    KeyIffPyEq(name, other);
  }

  /** `add_event_handler`: the name and the handler must both be hashable;
      the handler joins the set of every name equal to `name`, and nothing
      else changes. */
  function AddEventHandler(a: MicroAgent, name: Value, handler: Obj): (r: Result<MicroAgent>)
    ensures r.Err? <==> !Hashable(name) || !ObjHashable(handler)
    ensures r.Err? ==> r.error == TypeError
    ensures r.Ok? ==> HandlersOf(r.value, name) == Ok(HandlersOf(a, name).value + {ObjKey(handler)})
    ensures r.Ok? ==> forall n | !PyEq(n, name) :: HandlersOf(r.value, n) == HandlersOf(a, n)
    ensures r.Ok? ==> r.value.loop == a.loop && r.value.shouldStop == a.shouldStop
                      && r.value.connection == a.connection && r.value.deferred == a.deferred
  {
    if !Hashable(name) || !ObjHashable(handler) then Err(TypeError)
    else Ok(a.(handlers := a.handlers[Key(name) := Filed(a, name) + {ObjKey(handler)}]))
  }

  /** `remove_event_handler`: an unhashable name or handler is a TypeError;
      removing a handler that is not registered is a KeyError. */
  function RemoveEventHandler(a: MicroAgent, name: Value, handler: Obj): (r: Result<MicroAgent>)
    ensures !Hashable(name) || !ObjHashable(handler) ==> r == Err(TypeError)
    ensures Hashable(name) && ObjHashable(handler) ==> (r.Ok? <==> ObjKey(handler) in HandlersOf(a, name).value)
    ensures Hashable(name) && ObjHashable(handler) && r.Err? ==> r.error == KeyError
    ensures r.Ok? ==> HandlersOf(r.value, name) == Ok(HandlersOf(a, name).value - {ObjKey(handler)})
    ensures r.Ok? ==> forall n | !PyEq(n, name) :: HandlersOf(r.value, n) == HandlersOf(a, n)
  {
    if !Hashable(name) || !ObjHashable(handler) then Err(TypeError)
    else if ObjKey(handler) in Filed(a, name) then
      Ok(a.(handlers := a.handlers[Key(name) := Filed(a, name) - {ObjKey(handler)}]))
    else Err(KeyError)
  }

  /** Adding then removing a handler that was not registered leaves the
      handler sets as they were. */
  lemma AddThenRemove(a: MicroAgent, name: Value, handler: Obj)
    requires Hashable(name) && ObjHashable(handler)
    requires ObjKey(handler) !in HandlersOf(a, name).value
    ensures AddEventHandler(a, name, handler).Ok?
    ensures RemoveEventHandler(AddEventHandler(a, name, handler).value, name, handler).Ok?
    ensures forall n :: HandlersOf(RemoveEventHandler(AddEventHandler(a, name, handler).value, name, handler).value, n) == HandlersOf(a, n)
  {
  }

  /** Calls each handler in turn with the event; the first exception stops it. */
  function TriggerEach(order: seq<Obj>, event: Event, call: Caller): (r: Outcome)
    ensures r == Pass <==> forall i | 0 <= i < |order| :: TriggerHandler(order[i], DictArg(map["event" := EventArg(event)]), call).Ok?
    ensures r.Fail? ==> exists i | 0 <= i < |order| :: TriggerHandler(order[i], DictArg(map["event" := EventArg(event)]), call) == Err(r.error)
  {
    if order == [] then Pass
    else
      match TriggerHandler(order[0], DictArg(map["event" := EventArg(event)]), call)
      case Err(e) => Fail(e)
      case Ok(_) =>
        var rest := TriggerEach(order[1..], event, call);
        assert forall i | 1 <= i < |order| :: order[1..][i - 1] == order[i];
        rest
  }

  /** `_trigger_event_handler`: every handler of the name is called with the
      event; `order` is the set's iteration order. An unhashable name is a
      TypeError; otherwise it passes exactly when every handler can be
      called and returns. */
  function TriggerEventHandler(a: MicroAgent, name: Value, event: Event, order: seq<Obj>, call: Caller): (r: Outcome)
    requires HandlersOf(a, name).Ok? ==> forall h :: h in order <==> h in HandlersOf(a, name).value
    ensures HandlersOf(a, name).Err? ==> r == Fail(HandlersOf(a, name).error)
    ensures HandlersOf(a, name).Ok? ==>
              (r == Pass <==> forall h | h in HandlersOf(a, name).value :: Callable(h) && call(h.ref, map["event" := EventArg(event)]).Ok?)
  {
    if !Hashable(name) then Fail(TypeError)
    else
      var r := TriggerEach(order, event, call);
      assert r == Pass <==> forall h | h in order :: TriggerHandler(h, DictArg(map["event" := EventArg(event)]), call).Ok? by {
        if r == Pass {
          forall h | h in order
            ensures TriggerHandler(h, DictArg(map["event" := EventArg(event)]), call).Ok?
          {
            var i :| 0 <= i < |order| && order[i] == h;
          }
        }
      }
      r
  }

  /** `emit`: an event of kind 2 with the tick count as its id, an empty
      dict for falsy data and empty meta, given to the local handlers and
      then sent, dumped, on the connection. The sent frame loads back as
      the event when the name is not some falsy value other than None. */
  function Emit(a: MicroAgent, name: Value, data: Value, ticks: string, order: seq<Obj>, call: Caller): (r: Result<map<string, Value>>)
    requires ticks != []
    requires HandlersOf(a, name).Ok? ==> forall h :: h in order <==> h in HandlersOf(a, name).value
    ensures var e := NewEvent(name, if Truthy(data) then data else VMap(map[]), VMap(map[]), VStr(ticks));
            && (TriggerEventHandler(a, name, e, order, call).Fail? ==> r == Err(TriggerEventHandler(a, name, e, order, call).error))
            && (TriggerEventHandler(a, name, e, order, call) == Pass ==>
                  (r.Ok? <==> a.connection.Some? && Live(a.connection.value)))
            && (r.Ok? ==> (Truthy(name) || name == VNone) ==> Load(r.value) == Ok(e))
    ensures !Hashable(name) ==> r == Err(TypeError)
    ensures a.connection.None? && r.Err? && TriggerEventHandler(a, name, NewEvent(name, if Truthy(data) then data else VMap(map[]), VMap(map[]), VStr(ticks)), order, call) == Pass
            ==> r.error == AttributeError
  {
    var e := NewEvent(name, if Truthy(data) then data else VMap(map[]), VMap(map[]), VStr(ticks));
    match TriggerEventHandler(a, name, e, order, call)
    case Fail(err) => Err(err)
    case Pass =>
      match a.connection
      case None => Err(AttributeError)
      case Some(c) =>
        EmittedEventLoads(name, data, ticks);
        Send(c, Dump(AnEvent(e)).value)
  }

  /** The frame `emit` sends loads back as its event. */
  lemma EmittedEventLoads(name: Value, data: Value, ticks: string)
    requires ticks != []
    ensures var e := NewEvent(name, if Truthy(data) then data else VMap(map[]), VMap(map[]), VStr(ticks));
            (Truthy(name) || name == VNone) ==> Load(Dump(AnEvent(e)).value) == Ok(e)
  {
    var e := NewEvent(name, if Truthy(data) then data else VMap(map[]), VMap(map[]), VStr(ticks));
    if Truthy(name) || name == VNone {
      LoadDumpRoundTrip(e);
    }
  }

  /** `_process`: a received frame is loaded and, when it is an event,
      handed to the handlers of its name. */
  function Process(a: MicroAgent, frame: map<string, Value>, order: seq<Obj>, call: Caller): (r: Outcome)
    requires Load(frame).Ok? && HandlersOf(a, Load(frame).value.name).Ok? ==>
               forall h :: h in order <==> h in HandlersOf(a, Load(frame).value.name).value
    ensures Load(frame).Err? ==> r == Fail(Load(frame).error)
    ensures Load(frame).Ok? ==> r == TriggerEventHandler(a, Load(frame).value.name, Load(frame).value, order, call)
    ensures Load(frame).Ok? && !Hashable(Load(frame).value.name) ==> r == Fail(TypeError)
  {
    match Load(frame)
    case Err(e) => Fail(e)
    case Ok(event) => TriggerEventHandler(a, event.name, event, order, call)
  }

  /** An emitted event reaches the local handlers of its name, and the frame
      sent for it, once received, reaches the same handlers with the same
      event. */
  lemma EmitThenProcess(a: MicroAgent, name: Value, data: Value, ticks: string, order: seq<Obj>, call: Caller)
    requires ticks != [] && (Truthy(name) || name == VNone)
    requires HandlersOf(a, name).Ok? ==> forall h :: h in order <==> h in HandlersOf(a, name).value
    requires Emit(a, name, data, ticks, order, call).Ok?
    ensures var e := NewEvent(name, if Truthy(data) then data else VMap(map[]), VMap(map[]), VStr(ticks));
            && TriggerEventHandler(a, name, e, order, call) == Pass
            && Process(a, Emit(a, name, data, ticks, order, call).value, order, call) == Pass
  {
  }

  /** `stop`: stopping twice is an assertion failure. */
  function Stop(a: MicroAgent): (r: Result<MicroAgent>)
    ensures r.Ok? <==> !a.shouldStop
    ensures r.Ok? ==> r.value == a.(shouldStop := true)
    ensures r.Err? ==> r.error == AssertionError
  {
    if a.shouldStop then Err(AssertionError) else Ok(a.(shouldStop := true))
  }

  /** `spawn`: with a loop the coroutine becomes a task; without one it
      waits for the loop. */
  function Spawn(a: MicroAgent): (r: MicroAgent)
    ensures a.loop.Some? ==> r == a
    ensures a.loop.None? ==> r == a.(deferred := a.deferred + 1)
  {
    if a.loop.Some? then a else a.(deferred := a.deferred + 1)
  }

  /** `connect`: a second connection is an assertion failure; the
      connection's own `connect` is spawned. */
  function Connect(a: MicroAgent): (r: Result<MicroAgent>)
    ensures r.Ok? <==> a.connection.None?
    ensures r.Err? ==> r.error == AssertionError
    ensures r.Ok? ==> r.value.connection == Some(FreshConn) && r.value.handlers == a.handlers
    ensures r.Ok? ==> r.value.deferred == (if a.loop.Some? then a.deferred else a.deferred + 1)
  {
    if a.connection.Some? then Err(AssertionError) else Ok(Spawn(a.(connection := Some(FreshConn))))
  }

  /** `attach`: the loop is set once; `_start` is scheduled on it. */
  function Attach(a: MicroAgent, loop: nat): (r: Result<MicroAgent>)
    ensures r.Ok? <==> a.loop.None?
    ensures r.Ok? ==> r.value == a.(loop := Some(loop))
    ensures r.Err? ==> r.error == AssertionError
  {
    if a.loop.Some? then Err(AssertionError) else Ok(a.(loop := Some(loop)))
  }

  /** `start` (and `run`, with the default loop) up to the wait for `stop`:
      the loop is set once, `_start` asserts the agent is not stopping, and
      the waiting coroutines are spawned. */
  function Start(a: MicroAgent, loop: nat): (r: Result<MicroAgent>)
    ensures r.Ok? <==> a.loop.None? && !a.shouldStop
    ensures r.Ok? ==> r.value == a.(loop := Some(loop), deferred := 0)
    ensures r.Err? ==> r.error == AssertionError
  {
    if a.loop.Some? then Err(AssertionError)
    else if a.shouldStop then Err(AssertionError)
    else Ok(a.(loop := Some(loop), deferred := 0))
  }

  /** Once a loop is set, attaching, starting or running again fails, and a
      later connection spawns its coroutine at once. */
  lemma LoopSetOnce(a: MicroAgent, loop: nat, other: nat)
    requires Attach(a, loop).Ok?
    ensures var b := Attach(a, loop).value;
            && Attach(b, other) == Err(AssertionError)
            && Start(b, other) == Err(AssertionError)
            && (b.connection.None? ==> Connect(b).value.deferred == b.deferred)
  {
  }

  /** A connection made before the loop waits, and starting spawns it. */
  lemma ConnectBeforeStart(loop: nat)
    ensures var c := Connect(NewMicroAgent);
            && c.Ok? && c.value.deferred == 1
            && Start(c.value, loop).Ok? && Start(c.value, loop).value.deferred == 0
            && Connect(c.value) == Err(AssertionError)
  {
  }

  /** A stopping agent cannot be started and cannot stop again. */
  lemma StopLatches(a: MicroAgent, loop: nat)
    requires Stop(a).Ok?
    ensures Stop(Stop(a).value) == Err(AssertionError)
    ensures Start(Stop(a).value, loop) == Err(AssertionError)
  {
  }
}

=== FILE: results.dfy ===
/** The failure vocabulary of the model.

    Python signals errors by raising exceptions; every operation of the model
    instead returns a `Result` whose failure side names the exception class
    the source raises. Exception messages are not modelled. */
module Results {

  /** The exception classes raised by the modelled code.
      `ZentropiError` carries the numeric code of the MicroPython runtime's
      own error class (0x001 message, 0x101 unexpected type, 0x103 unset value). */
  datatype Error =
    | ValueError
    | TypeError
    | KeyError
    | AttributeError
    | AssertionError
    | PermissionError
    | NotImplementedError
    | ZentropiError(code: int)

  datatype Option<+T> = None | Some(value: T)

  /** Either a value or the exception that was raised instead. */
  datatype Result<+T> = Ok(value: T) | Err(error: Error) {

    predicate IsFailure() {
      Err?
    }

    function PropagateFailure<U>(): Result<U>
      requires Err?
    {
      Err(error)
    }

    function Extract(): T
      requires Ok?
    {
      value
    }
  }

  /** The outcome of an operation that returns nothing on success. */
  datatype Outcome = Pass | Fail(error: Error) {

    predicate IsFailure() {
      Fail?
    }

    function PropagateFailure(): Outcome
      requires Fail?
    {
      this
    }
  }
}

=== FILE: spaces.dfy ===
/** Spaces: the server-side broker that tracks which agents are in which
    named space and relays frames to the agents sharing a space. */
module Spaces {
  import opened Results
  import opened PyValues
  import opened Utils
  import opened Frames

  /** A named space and the names of the agents in it. */
  datatype Space = Space(name: string, agents: set<string>)

  /** `Space.join`: an agent already present is a ValueError. */
  function SpaceJoin(sp: Space, agent: string): (r: Result<Space>)
    ensures agent in sp.agents <==> r == Err(ValueError)
    ensures r.Ok? ==> r.value == sp.(agents := sp.agents + {agent})
  {
    if agent in sp.agents then Err(ValueError) else Ok(sp.(agents := sp.agents + {agent}))
  }

  /** `Space.leave`: an agent not present is a ValueError. */
  function SpaceLeave(sp: Space, agent: string): (r: Result<Space>)
    ensures agent !in sp.agents <==> r == Err(ValueError)
    ensures r.Ok? ==> r.value == sp.(agents := sp.agents - {agent})
  {
    if agent !in sp.agents then Err(ValueError) else Ok(sp.(agents := sp.agents - {agent}))
  }

  /** Joining and then leaving gives back the space. */
  lemma JoinThenLeave(sp: Space, agent: string)
    requires agent !in sp.agents
    ensures SpaceLeave(SpaceJoin(sp, agent).value, agent) == Ok(sp)
  {
    assert sp.agents + {agent} - {agent} == sp.agents;
  }

  /** What an agent name is registered with: a connection (by identity) or
      some other object, which only a falsy value can be. */
  datatype Handle = Connection(id: nat) | NotConnection(v: Value)

  /** The broker: space names in creation order, the spaces, and the
      registered agents. */
  datatype Spaces = Spaces(order: seq<string>, spaces: map<string, Space>, agents: map<string, Handle>)

  const NoSpaces := Spaces([], map[], map[])

  predicate NoDupNames(s: seq<string>) {
    forall i, j :: 0 <= i < j < |s| ==> s[i] != s[j]
  }

  /** The order lists each space once, and each space is filed under its name. */
  ghost predicate Inv(s: Spaces) {
    && NoDupNames(s.order)
    && (forall n :: n in s.order <==> n in s.spaces)
    && (forall n | n in s.spaces :: s.spaces[n].name == n)
  }

  /** `agents(space)`: every registered agent when no space is named, else
      the members of the named space; an unknown space is a ValueError, and
      a list or dict cannot be looked up at all (TypeError). */
  function Agents(s: Spaces, space: Value): (r: Result<set<string>>)
    ensures !Truthy(space) ==> r == Ok(s.agents.Keys)
    ensures Truthy(space) && space.VStr? && space.s in s.spaces ==> r == Ok(s.spaces[space.s].agents)
    ensures Truthy(space) && !Hashable(space) ==> r == Err(TypeError)
    ensures Truthy(space) && Hashable(space) && !(space.VStr? && space.s in s.spaces) ==> r == Err(ValueError)
  {
    if !Truthy(space) then Ok(s.agents.Keys)
    else if !Hashable(space) then Err(TypeError)
    else if space.VStr? && space.s in s.spaces then Ok(s.spaces[space.s].agents)
    else Err(ValueError)
  }

  /** The spaces of `order` whose members include `agent`, in order. */
  function MemberSpaces(order: seq<string>, spaces: map<string, Space>, agent: string): (r: seq<string>)
    ensures forall n :: n in r <==> n in order && n in spaces && agent in spaces[n].agents
    ensures NoDupNames(order) ==> NoDupNames(r)
    ensures |r| <= |order|
  {
    if order == [] then []
    else
      var tail := MemberSpaces(order[1..], spaces, agent);
      assert NoDupNames(order) ==> order[0] !in order[1..] && NoDupNames(order[1..]) by {
        if NoDupNames(order) {
          assert forall j | 0 <= j < |order[1..]| :: order[1..][j] == order[j + 1];
        }
      }
      if order[0] in spaces && agent in spaces[order[0]].agents then [order[0]] + tail else tail
  }

  /** `spaces(agent)`: every space when no agent is named, else the spaces
      the agent has joined, in creation order. Testing a list or dict for
      membership of a space's agent set is a TypeError, raised as soon as
      there is a space to test. */
  function SpacesOf(s: Spaces, agent: Value): (r: Result<seq<string>>)
    ensures !Truthy(agent) ==> r == Ok(s.order)
    ensures Truthy(agent) && agent.VStr? ==> r.Ok?
    ensures Truthy(agent) && agent.VStr? && r.Ok? ==>
              forall n :: n in r.value <==> n in s.order && n in s.spaces && agent.s in s.spaces[n].agents
    ensures Truthy(agent) && !Hashable(agent) ==> (r.Err? <==> s.order != []) && (r.Err? ==> r.error == TypeError)
    ensures Truthy(agent) && !agent.VStr? ==> r.Ok? ==> r.value == []
    ensures r.Ok? && NoDupNames(s.order) ==> NoDupNames(r.value)
  {
    if !Truthy(agent) then Ok(s.order)
    else if agent.VStr? then Ok(MemberSpaces(s.order, s.spaces, agent.s))
    else if !Hashable(agent) && s.order != [] then Err(TypeError)
    else Ok([])
  }

  /** The reply of a join: a `join` or `join-failed` command naming the space. */
  function JoinReply(success: bool, space: string, size: Sizer, newId: string, now: int): (r: Result<Frame>)
    requires newId != []
    ensures r.Ok? ==> r.value.cls == CommandFrame
    ensures r.Ok? ==> r.value.name == Some(if success then "join" else "join-failed")
    ensures r.Ok? ==> r.value.data == map["space" := VStr(space)]
  {
    NewFrame(CommandFrame, NamedArgs(VStr(if success then "join" else "join-failed"), VMap(map["space" := VStr(space)])),
             size, newId, now)
  }

  /** The broker after a join, and the reply (which may fail to build after
      the join has already been recorded). */
  datatype JoinOutcome = JoinOutcome(spaces: Spaces, reply: Result<Frame>)

  /** The space filed under `space`, or a new empty one of that name. */
  function Named(s: Spaces, space: string): (r: Space)
    ensures space in s.spaces ==> r == s.spaces[space]
    ensures space !in s.spaces ==> r == Space(space, {})
  {
    if space in s.spaces then s.spaces[space] else Space(space, {})
  }

  /** `Spaces.join`: the space is created on first use; an agent that is
      already a member gets `join-failed` and nothing changes. */
  function Join(s: Spaces, agent: string, space: string, size: Sizer, newId: string, now: int): (r: JoinOutcome)
    requires newId != []
    ensures space in s.spaces && agent in s.spaces[space].agents ==>
              r == JoinOutcome(s, JoinReply(false, Named(s, space).name, size, newId, now))
    ensures !(space in s.spaces && agent in s.spaces[space].agents) ==>
              && r.reply == JoinReply(true, Named(s, space).name, size, newId, now)
              && space in r.spaces.spaces
              && r.spaces.spaces[space].agents == (if space in s.spaces then s.spaces[space].agents else {}) + {agent}
              && r.spaces.agents == s.agents
              && (forall n | n != space :: (n in r.spaces.spaces <==> n in s.spaces) && (n in s.spaces ==> r.spaces.spaces[n] == s.spaces[n]))
              && r.spaces.order == (if space in s.spaces then s.order else s.order + [space])
  {
    var sp := Named(s, space);
    match SpaceJoin(sp, agent)
    case Err(_) => JoinOutcome(s, JoinReply(false, sp.name, size, newId, now))
    case Ok(sp') =>
      var order := if space in s.spaces then s.order else s.order + [space];
      JoinOutcome(s.(order := order, spaces := s.spaces[space := sp']), JoinReply(true, sp.name, size, newId, now))
  }

  /** A join keeps the broker consistent. */
  lemma JoinPreservesInv(s: Spaces, agent: string, space: string, size: Sizer, newId: string, now: int)
    requires newId != []
    requires Inv(s)
    ensures Inv(Join(s, agent, space, size, newId, now).spaces)
  {
    var r := Join(s, agent, space, size, newId, now).spaces;
    if space !in s.spaces {
      assert space !in s.order;
      assert forall i | 0 <= i < |s.order| :: (s.order + [space])[i] == s.order[i];
    }
  }

  /** After a join the agent is a member of the space, and joining again
      answers `join-failed` without changing anything. */
  lemma JoinTwice(s: Spaces, agent: string, space: string, size: Sizer, newId: string, now: int)
    requires newId != []
    requires Inv(s)
    ensures var s1 := Join(s, agent, space, size, newId, now).spaces;
            && space in s1.spaces && agent in s1.spaces[space].agents
            && Join(s1, agent, space, size, newId, now) == JoinOutcome(s1, JoinReply(false, space, size, newId, now))
  {
    JoinPreservesInv(s, agent, space, size, newId, now);
  }

  /** `agent_connect`: a name already registered, or a truthy object that
      is not a connection, is a ValueError. */
  function AgentConnect(s: Spaces, agent: string, h: Handle): (r: Result<Spaces>)
    ensures agent in s.agents ==> r == Err(ValueError)
    ensures agent !in s.agents && h.NotConnection? && Truthy(h.v) ==> r == Err(ValueError)
    ensures r.Ok? <==> agent !in s.agents && !(h.NotConnection? && Truthy(h.v))
    ensures r.Ok? ==> r.value == s.(agents := s.agents[agent := h])
  {
    if agent in s.agents then Err(ValueError)
    else if h.NotConnection? && Truthy(h.v) then Err(ValueError)
    else Ok(s.(agents := s.agents[agent := h]))
  }

  /** A registered agent is listed among all agents, and only it is added;
      the members of every space stay as they were, and the same name
      cannot register a second time. */
  lemma AgentConnectThenAgents(s: Spaces, agent: string, h: Handle, h2: Handle)
    requires AgentConnect(s, agent, h).Ok?
    ensures var s' := AgentConnect(s, agent, h).value;
            && Agents(s', VNone) == Ok(Agents(s, VNone).value + {agent})
            && (forall space | Truthy(space) :: Agents(s', space) == Agents(s, space))
            && AgentConnect(s', agent, h2) == Err(ValueError)
  {
    var s' := AgentConnect(s, agent, h).value;
    assert s'.agents.Keys == s.agents.Keys + {agent};
  }

  /** After a join the space is known and lists the agent among its members. */
  lemma JoinThenAgents(s: Spaces, agent: string, space: string, size: Sizer, newId: string, now: int)
    requires newId != [] && space != []
    ensures var s' := Join(s, agent, space, size, newId, now).spaces;
            Agents(s', VStr(space)).Ok? && agent in Agents(s', VStr(space)).value
  {
  }

  /** The connections one space's members are registered with. */
  datatype Group = Group(space: string, connections: set<nat>)

  /** A frame handed to one connection. */
  datatype Sent = Sent(connection: nat, frame: Frame)

  /** The members of a space resolved to their connections: a member that
      never registered is a KeyError (raised before anything is sent to the
      space), and a member registered without a connection cannot be sent to. */
  function GroupOf(s: Spaces, name: string): (r: Result<Group>)
    ensures name !in s.spaces ==> r == Err(KeyError)
    ensures name in s.spaces && !(s.spaces[name].agents <= s.agents.Keys) ==> r == Err(KeyError)
    ensures name in s.spaces && s.spaces[name].agents <= s.agents.Keys && (exists a | a in s.spaces[name].agents :: !s.agents[a].Connection?) ==> r == Err(AttributeError)
    ensures r.Ok? ==> name in s.spaces && s.spaces[name].agents <= s.agents.Keys
    ensures r.Ok? ==> forall a | a in s.spaces[name].agents :: s.agents[a].Connection?
    ensures r.Ok? ==> r.value == Group(name, set a | a in s.spaces[name].agents :: s.agents[a].id)
  {
    if name !in s.spaces then Err(KeyError)
    else
      var members := s.spaces[name].agents;
      if !(members <= s.agents.Keys) then Err(KeyError)
      else if exists a | a in members :: !s.agents[a].Connection? then Err(AttributeError)
      else Ok(Group(name, set a | a in members :: s.agents[a].id))
  }

  /** The groups of several spaces, in order; the first failing space stops
      the relay. */
  function Groups(s: Spaces, names: seq<string>): (r: Result<seq<Group>>)
    ensures r.Ok? ==> |r.value| == |names|
    ensures r.Ok? ==> forall i | 0 <= i < |names| :: GroupOf(s, names[i]) == Ok(r.value[i])
    ensures r.Err? ==> exists i | 0 <= i < |names| :: GroupOf(s, names[i]).Err?
  {
    if names == [] then Ok([])
    else
      var g :- GroupOf(s, names[0]);
      var rest :- Groups(s, names[1..]);
      assert forall i | 1 <= i < |names| :: names[1..][i - 1] == names[i];
      Ok([g] + rest)
  }

  /** The spaces a non-command frame is relayed to: the frame's space when
      its source is a member, else every space of the source (every space
      at all when the frame has no source). */
  function Targets(s: Spaces, f: Frame): (r: Result<seq<string>>)
    ensures SpacesOf(s, Source(f)).Err? ==> r == SpacesOf(s, Source(f))
    ensures SpacesOf(s, Source(f)).Ok? ==> r.Ok?
    ensures r.Ok? && Truthy(Frames.Space(f)) && Frames.Space(f).VStr? && Frames.Space(f).s in SpacesOf(s, Source(f)).value ==>
              r.value == [Frames.Space(f).s]
    ensures r.Ok? && !(Truthy(Frames.Space(f)) && Frames.Space(f).VStr? && Frames.Space(f).s in SpacesOf(s, Source(f)).value) ==>
              r.value == SpacesOf(s, Source(f)).value
  {
    var space := Frames.Space(f);
    var mine :- SpacesOf(s, Source(f));
    if Truthy(space) && space.VStr? && space.s in mine then Ok([space.s]) else Ok(mine)
  }

  /** What a broadcast did: relayed a frame to groups of connections, or
      handled a command (and possibly answered it on one connection). */
  datatype Relay = Delivered(groups: seq<Group>) | Handled(reply: Option<Sent>)

  /** The broker after a broadcast and what it did or the exception raised. */
  datatype BroadcastOutcome = BroadcastOutcome(spaces: Spaces, result: Result<Relay>)

  /** `handle_command`: the source must be a registered agent (a list or
      dict source cannot be looked up: TypeError); a `join`
      command joins the source to the space its payload names and answers
      on the source's connection. Other commands are ignored. */
  function HandleCommand(s: Spaces, cmd: Frame, size: Sizer, newId: string, now: int): (r: BroadcastOutcome)
    requires newId != []
    ensures cmd.cls != CommandFrame ==> r == BroadcastOutcome(s, Err(ValueError))
    ensures cmd.cls == CommandFrame && !Hashable(Source(cmd)) ==> r == BroadcastOutcome(s, Err(TypeError))
    ensures cmd.cls == CommandFrame && Hashable(Source(cmd)) && !(Source(cmd).VStr? && Source(cmd).s in s.agents) ==>
              r == BroadcastOutcome(s, Err(KeyError))
    ensures cmd.cls == CommandFrame && Source(cmd).VStr? && Source(cmd).s in s.agents && cmd.name != Some("join") ==>
              r == BroadcastOutcome(s, Ok(Handled(None)))
    ensures cmd.cls == CommandFrame && Source(cmd).VStr? && Source(cmd).s in s.agents && cmd.name == Some("join")
            && Attr(cmd.data, "space").VStr? && |cmd.data| > 0 ==>
              var j := Join(s, Source(cmd).s, Attr(cmd.data, "space").s, size, newId, now);
              && r.spaces == j.spaces
              && (j.reply.Ok? && s.agents[Source(cmd).s].Connection? ==>
                    r.result == Ok(Handled(Some(Sent(s.agents[Source(cmd).s].id, j.reply.value)))))
              && (j.reply.Err? ==> r.result == Err(j.reply.error))
              && (s.agents[Source(cmd).s].NotConnection? && j.reply.Ok? ==> r.result == Err(AttributeError))
  {
    if cmd.cls != CommandFrame then BroadcastOutcome(s, Err(ValueError))
    else
      var source := Source(cmd);
      if !Hashable(source) then BroadcastOutcome(s, Err(TypeError))
      else if !(source.VStr? && source.s in s.agents) then BroadcastOutcome(s, Err(KeyError))
      else if cmd.name != Some("join") then BroadcastOutcome(s, Ok(Handled(None)))
      else
        match DataAttrAsWritten(cmd, "space")
        case Err(e) => BroadcastOutcome(s, Err(e))
        case Ok(space) =>
          if !space.VStr? then BroadcastOutcome(s, Err(TypeError))
          else
            var j := Join(s, source.s, space.s, size, newId, now);
            match j.reply
            case Err(e) => BroadcastOutcome(j.spaces, Err(e))
            case Ok(reply) =>
              match s.agents[source.s]
              case NotConnection(_) => BroadcastOutcome(j.spaces, Err(AttributeError))
              case Connection(id) => BroadcastOutcome(j.spaces, Ok(Handled(Some(Sent(id, reply)))))
  }

  /** `Spaces.broadcast`: commands are handled by the broker; any other
      frame goes to every connection in its target spaces. */
  function Broadcast(s: Spaces, f: Frame, size: Sizer, newId: string, now: int): (r: BroadcastOutcome)
    requires newId != []
    ensures f.cls == CommandFrame ==> r == HandleCommand(s, f, size, newId, now)
    ensures f.cls != CommandFrame ==> r.spaces == s
    ensures f.cls != CommandFrame && Targets(s, f).Err? ==> r.result == Err(Targets(s, f).error)
    ensures f.cls != CommandFrame && r.result.Ok? ==>
              && r.result.value.Delivered?
              && Targets(s, f).Ok?
              && |r.result.value.groups| == |Targets(s, f).value|
              && forall i | 0 <= i < |Targets(s, f).value| :: GroupOf(s, Targets(s, f).value[i]) == Ok(r.result.value.groups[i])
  {
    if f.cls == CommandFrame then HandleCommand(s, f, size, newId, now)
    else
      match Targets(s, f)
      case Err(e) => BroadcastOutcome(s, Err(e))
      case Ok(ts) =>
        match Groups(s, ts)
        case Err(e) => BroadcastOutcome(s, Err(e))
        case Ok(gs) => BroadcastOutcome(s, Ok(Delivered(gs)))
  }

  /** A frame aimed at a space its source belongs to reaches that space only. */
  lemma BroadcastToOwnSpace(s: Spaces, f: Frame, space: string, size: Sizer, newId: string, now: int)
    requires newId != []
    requires Inv(s)
    requires f.cls != CommandFrame
    requires space != [] && Frames.Space(f) == VStr(space) && Source(f).VStr? && Source(f).s != []
    requires space in s.spaces && Source(f).s in s.spaces[space].agents
    ensures Targets(s, f) == Ok([space])
    ensures Broadcast(s, f, size, newId, now).result.Ok? ==>
              Broadcast(s, f, size, newId, now).result.value.groups == [GroupOf(s, space).value]
  {
    assert space in SpacesOf(s, Source(f)).value;
  }

  /** A frame without a space reaches exactly the spaces its source joined. */
  lemma BroadcastToSourceSpaces(s: Spaces, f: Frame, size: Sizer, newId: string, now: int)
    requires newId != []
    requires f.cls != CommandFrame
    requires !Truthy(Frames.Space(f)) && Source(f).VStr? && Source(f).s != []
    ensures Targets(s, f).Ok?
    ensures forall n :: n in Targets(s, f).value <==> n in s.order && n in s.spaces && Source(f).s in s.spaces[n].agents
  {
  }
}

=== FILE: states.dfy ===
/** States: a dict of named fields whose updates can be vetoed by state
    handlers, reached through item and attribute syntax. */
module States {
  import opened Results
  import opened PyValues
  import opened Utils
  import opened Frames
  import opened Handlers
  import opened Matching
  import opened Fields

  /** What sits under a state name: a field, or (after the `data` dict is
      written directly) some other object. */
  datatype Slot = FieldSlot(f: Field) | RawSlot(v: Value)

  /** The state table, the frame-handler callback, and the registry of
      state handlers. */
  datatype States = States(data: map<string, Slot>, callback: Obj, handlers: HandlerRegistry)

  /** The external behaviour an update needs: the callback's answer for a
      frame, a handler and the `internal` flag, the order the matched set is iterated in, the field classes' hooks, the matching libraries,
      the serializer size, and the id and clock of a new frame. */
  datatype Env = Env(
    call: (Frame, Handler, bool) -> Result<Value>,
    order: seq<Handler> -> seq<Handler>,
    classes: string -> FieldHooks,
    mx: Matchers,
    size: Sizer,
    newId: string,
    now: int)

  const ClassName := "States"

  /** The constructor: a truthy non-callable callback is a ValueError. */
  function NewStates(callback: Obj): (r: Result<States>)
    ensures r.Ok? <==> !ObjTruthy(callback) || Callable(callback)
    ensures r.Ok? ==> r.value == States(map[], callback, EmptyRegistry)
  {
    if ObjTruthy(callback) && !Callable(callback) then Err(ValueError)
    else Ok(States(map[], callback, EmptyRegistry))
  }

  /** The `callback` setter is stricter than the constructor: anything
      other than None or a callable is a ValueError. */
  function SetCallback(s: States, callback: Obj): (r: Result<States>)
    ensures r.Ok? <==> callback == Val(VNone) || Callable(callback)
    ensures r.Ok? ==> r.value == s.(callback := callback)
  {
    if callback != Val(VNone) && !Callable(callback) then Err(ValueError)
    else Ok(s.(callback := callback))
  }

  /** What `_add_state` is given: a field, or a plain value to wrap in one. */
  datatype StateArg = AField(f: Field) | AValue(v: Value)

  /** `_add_state`: wraps a plain value in a base field (named by its
      `objectId` until renamed), renames the field `States.<name>` and
      files it, replacing whatever was there. */
  function AddState(s: States, name: string, arg: StateArg, objectId: string): (r: States)
    ensures r.callback == s.callback && r.handlers == s.handlers
    ensures r.data.Keys == s.data.Keys + {name}
    ensures forall k | k in s.data && k != name :: r.data[k] == s.data[k]
    ensures r.data[name].FieldSlot? && r.data[name].f.name == VStr(ClassName + "." + name)
    ensures arg.AField? ==> r.data[name].f == arg.f.(name := VStr(ClassName + "." + name))
    ensures arg.AValue? ==> r.data[name].f == Field(BaseKind, arg.v, arg.v, VStr(ClassName + "." + name))
  {
    var f := match arg
      case AField(f) => f
      case AValue(v) => NewField(BaseKind, BaseHooks, v, VNone, objectId).value;
    s.(data := s.data[name := FieldSlot(f.(name := VStr(ClassName + "." + name)))])
  }

  /** `_get_state`: the field's value; a missing name is a KeyError and a
      slot that is not a field a ValueError. */
  function GetState(s: States, name: string): (r: Result<Value>)
    ensures name !in s.data <==> r == Err(KeyError)
    ensures name in s.data && s.data[name].RawSlot? <==> r == Err(ValueError)
    ensures name in s.data && s.data[name].FieldSlot? ==> r == Ok(ValueOf(s.data[name].f))
  {
    if name !in s.data then Err(KeyError)
    else match s.data[name]
      case RawSlot(_) => Err(ValueError)
      case FieldSlot(f) => Ok(ValueOf(f))
  }

  /** The answer of the last handler consulted; True when there is none.
      Every call is internal. A failing call stops the walk. */
  function LastAnswer(frame: Frame, hs: seq<Handler>, call: (Frame, Handler, bool) -> Result<Value>, answer: Value): (r: Result<Value>)
    ensures (forall i | 0 <= i < |hs| :: call(frame, hs[i], true).Ok?) ==>
              r == (if hs == [] then Ok(answer) else call(frame, hs[|hs| - 1], true))
    ensures r.Err? ==> exists i | 0 <= i < |hs| :: call(frame, hs[i], true) == r
    decreases |hs|
  {
    if hs == [] then Ok(answer)
    else
      var a :- call(frame, hs[0], true);
      LastAnswer(frame, hs[1..], call, a)
  }

  /** The outcome of `_update_state`: the new table, and when a callback is
      installed, the state frame that was matched and the handlers it went to. */
  datatype Update = Update(states: States, frame: Option<Frame>, consulted: seq<Handler>)

  /** The state frame announcing a change: named after the state, carrying
      the proposed and the current value. */
  function ChangeFrame(name: string, value: Value, last: Value, env: Env): (r: Result<Frame>)
    requires env.newId != []
    ensures r.Ok? ==> r.value.cls == StateFrame && r.value.name == Some(name)
    ensures r.Ok? ==> r.value.data == map["value" := value, "last" := last]
  {
    NewFrame(StateFrame, NamedArgs(VStr(name), VMap(map["value" := value, "last" := last])), env.size, env.newId, env.now)
  }

  /** Writes the value through the field's hooks. */
  function Commit(s: States, name: string, f: Field, value: Value, env: Env): (r: Result<States>)
    ensures r.Ok? <==> SetValue(f, HooksOf(env.classes, f.kind), value).Ok?
    ensures r.Ok? ==> r.value == s.(data := s.data[name := FieldSlot(SetValue(f, HooksOf(env.classes, f.kind), value).value)])
  {
    var f' :- SetValue(f, HooksOf(env.classes, f.kind), value);
    Ok(s.(data := s.data[name := FieldSlot(f')]))
  }

  /** `_update_state`. Without a callback the value is written. With one,
      a state frame is matched against the state handlers, each handler is
      run in turn, and the last one's answer decides: it must be a bool,
      and only True writes the value. */
  function UpdateState(s: States, name: string, value: Value, env: Env): (r: Result<Update>)
    requires env.newId != []
    ensures name !in s.data ==> r == Err(KeyError)
    ensures name in s.data && s.data[name].RawSlot? ==> r == Err(ValueError)
    ensures r.Ok? ==> r.value.states.callback == s.callback && r.value.states.handlers == s.handlers
    ensures r.Ok? ==> r.value.states.data.Keys == s.data.Keys
    ensures r.Ok? ==> forall k | k in s.data && k != name :: r.value.states.data[k] == s.data[k]
    ensures r.Ok? ==> name in s.data && s.data[name].FieldSlot?
    ensures r.Ok? && !ObjTruthy(s.callback) ==>
              Commit(s, name, s.data[name].f, value, env) == Ok(r.value.states) && r.value.consulted == []
    ensures r.Ok? && ObjTruthy(s.callback) ==> r.value.frame.Some?
    ensures r.Ok? && ObjTruthy(s.callback) ==>
              && ChangeFrame(name, value, ValueOf(s.data[name].f), env).Ok?
              && exists m :: Match(s.handlers, ChangeFrame(name, value, ValueOf(s.data[name].f), env).value, env.mx, env.size)
                               == Ok((r.value.frame.value, m))
                             && r.value.consulted == Iterated(env.order, m)
    ensures r.Ok? && ObjTruthy(s.callback) ==>
              var answer := LastAnswer(r.value.frame.value, r.value.consulted, env.call, VBool(true));
              || (answer == Ok(VBool(true)) && Commit(s, name, s.data[name].f, value, env) == Ok(r.value.states))
              || (answer == Ok(VBool(false)) && r.value.states == s)
  {
    if name !in s.data then Err(KeyError)
    else match s.data[name]
      case RawSlot(_) => Err(ValueError)
      case FieldSlot(f) =>
        if !ObjTruthy(s.callback) then
          var s' :- Commit(s, name, f, value, env);
          Ok(Update(s', None, []))
        else
          var frame0 :- ChangeFrame(name, value, ValueOf(f), env);
          var matched :- Match(s.handlers, frame0, env.mx, env.size);
          var (frame, matchedHs) := matched;
          var hs := Iterated(env.order, matchedHs);
          var answer :- LastAnswer(frame, hs, env.call, VBool(true));
          if !answer.VBool? then Err(ValueError)
          else if !answer.b then Ok(Update(s, Some(frame), hs))
          else
            var s' :- Commit(s, name, f, value, env);
            Ok(Update(s', Some(frame), hs))
  }

  /** `_remove_state`: a missing name is a KeyError. */
  function RemoveState(s: States, name: string): (r: Result<States>)
    ensures name !in s.data <==> r == Err(KeyError)
    ensures r.Ok? ==> r.value.data == s.data - {name} && r.value.callback == s.callback && r.value.handlers == s.handlers
  {
    if name !in s.data then Err(KeyError) else Ok(s.(data := s.data - {name}))
  }

  /** `__setitem__`: updates an existing state, adds a new one. */
  function SetItem(s: States, key: string, value: Value, objectId: string, env: Env): (r: Result<States>)
    requires env.newId != []
    ensures key in s.data ==> r == (var u :- UpdateState(s, key, value, env); Ok(u.states))
    ensures key !in s.data ==> r == Ok(AddState(s, key, AValue(value), objectId))
  {
    if key in s.data then
      var u :- UpdateState(s, key, value, env);
      Ok(u.states)
    else Ok(AddState(s, key, AValue(value), objectId))
  }

  /** Names `__setattr__` and `__getattribute__` hand to the object itself. */
  predicate ObjectAttribute(key: string) {
    key == "data" || key == "callback" || StartsWith(key, "_")
  }

  /** `__setattr__`: the callback goes through its setter; a private name
      or a callable value is stored on the object and leaves the state
      table alone; anything else is a state write. */
  function SetAttr(s: States, key: string, v: Obj, objectId: string, env: Env): (r: Result<States>)
    requires env.newId != []
    requires key != "data" && key != "_trigger_frame_handler" && key != "_handlers"
    ensures key == "callback" ==> r == SetCallback(s, v)
    ensures key != "callback" && (StartsWith(key, "_") || Callable(v)) ==> r == Ok(s)
    ensures !ObjectAttribute(key) && v.Val? ==> r == SetItem(s, key, v.v, objectId, env)
  {
    if key == "callback" then SetCallback(s, v)
    else if StartsWith(key, "_") || (ObjTruthy(v) && Callable(v)) then Ok(s)
    else SetItem(s, key, v.v, objectId, env)
  }

  /** What an attribute read yields: something found on the object itself,
      or a state's value. */
  datatype Lookup = ObjectValue | StateValue(v: Value)

  /** `__getattribute__`. `methods` are the names the class resolves to a
      truthy callable; those win over states of the same name. Any other
      attribute the object has reads as None, and a name the object lacks
      is a state read. */
  function GetAttr(s: States, item: string, methods: set<string>, plain: set<string>): (r: Result<Lookup>)
    ensures ObjectAttribute(item) ==> r == Ok(ObjectValue)
    ensures !ObjectAttribute(item) && item in methods ==> r == Ok(ObjectValue)
    ensures !ObjectAttribute(item) && item !in methods && item in plain ==> r == Ok(StateValue(VNone))
    ensures !ObjectAttribute(item) && item !in methods && item !in plain ==>
              r == (var v :- GetState(s, item); Ok(StateValue(v)))
  {
    if ObjectAttribute(item) || item in methods then Ok(ObjectValue)
    else if item in plain then Ok(StateValue(VNone))
    else
      var v :- GetState(s, item);
      Ok(StateValue(v))
  }

  /** `add_handler` on the state handler registry. */
  function AddHandler(s: States, name: string, h: Handler): (r: Result<States>)
    ensures r.Ok? <==> Add(s.handlers, name, HHandler(h)).Ok?
    ensures r.Ok? ==> r.value == s.(handlers := Add(s.handlers, name, HHandler(h)).value)
  {
    var reg :- Add(s.handlers, name, HHandler(h));
    Ok(s.(handlers := reg))
  }

  /** `remove_handler` on the state handler registry. */
  function RemoveHandler(s: States, name: string, h: Handler): (r: Result<States>)
    ensures r.Ok? <==> Remove(s.handlers, name, h).Ok?
    ensures r.Ok? ==> r.value == s.(handlers := Remove(s.handlers, name, h).value)
  {
    var reg :- Remove(s.handlers, name, h);
    Ok(s.(handlers := reg))
  }

  // ---- properties ----

  /** A value stored under a new name reads back unchanged. */
  lemma AddThenGet(s: States, name: string, v: Value, objectId: string)
    ensures GetState(AddState(s, name, AValue(v), objectId), name) == Ok(v)
  {
  }

  /** Without a callback an update of a base field always lands. */
  lemma UpdateWithoutCallbackLands(s: States, name: string, v: Value, env: Env)
    requires env.newId != []
    requires !ObjTruthy(s.callback)
    requires name in s.data && s.data[name].FieldSlot? && s.data[name].f.kind == BaseKind
    ensures UpdateState(s, name, v, env).Ok?
    ensures GetState(UpdateState(s, name, v, env).value.states, name) ==
            Ok(if v == VNone then s.data[name].f.default else v)
  {
  }

  /** A last handler answering False vetoes the update: the table is
      unchanged. Answering True writes the value. */
  lemma {:induction false} LastHandlerDecides(s: States, name: string, v: Value, env: Env)
    requires env.newId != []
    requires UpdateState(s, name, v, env).Ok?
    requires ObjTruthy(s.callback)
    requires UpdateState(s, name, v, env).value.consulted != []
    ensures var u := UpdateState(s, name, v, env).value;
            var last := u.consulted[|u.consulted| - 1];
            && env.call(u.frame.value, last, true).Ok?
            && (env.call(u.frame.value, last, true) == Ok(VBool(false)) ==> u.states == s)
            && (env.call(u.frame.value, last, true) == Ok(VBool(true)) ==>
                  Commit(s, name, s.data[name].f, v, env) == Ok(u.states))
  {
    var u := UpdateState(s, name, v, env).value;
    var f := u.frame.value;
    var hs := u.consulted;
    assert LastAnswer(f, hs, env.call, VBool(true)).Ok?;
    LastAnswerOk(f, hs, env.call, VBool(true));
  }

  /** A walk that succeeds succeeded at every step, so its answer is the
      last handler's. */
  lemma {:induction false} LastAnswerOk(frame: Frame, hs: seq<Handler>, call: (Frame, Handler, bool) -> Result<Value>, answer: Value)
    requires LastAnswer(frame, hs, call, answer).Ok?
    ensures forall i | 0 <= i < |hs| :: call(frame, hs[i], true).Ok?
    ensures hs != [] ==> LastAnswer(frame, hs, call, answer) == call(frame, hs[|hs| - 1], true)
    decreases |hs|
  {
    if hs != [] {
      var a := call(frame, hs[0], true).value;
      LastAnswerOk(frame, hs[1..], call, a);
      assert forall i | 1 <= i < |hs| :: hs[1..][i - 1] == hs[i];
    }
  }

  /** An answer that is not a bool is rejected and nothing is written. */
  lemma NonBoolAnswerRejected(s: States, name: string, v: Value, env: Env, frame: Frame, hs: seq<Handler>)
    requires env.newId != []
    requires name in s.data && s.data[name].FieldSlot? && ObjTruthy(s.callback)
    requires ChangeFrame(name, v, ValueOf(s.data[name].f), env).Ok?
    requires Match(s.handlers, ChangeFrame(name, v, ValueOf(s.data[name].f), env).value, env.mx, env.size) == Ok((frame, hs))
    requires var run := Iterated(env.order, hs);
             LastAnswer(frame, run, env.call, VBool(true)).Ok? && !LastAnswer(frame, run, env.call, VBool(true)).value.VBool?
    ensures UpdateState(s, name, v, env) == Err(ValueError)
  {
    var f0 := ChangeFrame(name, v, ValueOf(s.data[name].f), env).value;
    assert Match(s.handlers, f0, env.mx, env.size).value == (frame, hs);
  }

  /** Deleting a state makes it unreadable. */
  lemma RemoveThenGet(s: States, name: string)
    requires name in s.data
    ensures GetState(RemoveState(s, name).value, name) == Err(KeyError)
  {
  }
}

=== FILE: symbols.dfy ===
/** The closed enumeration of frame kinds and its integer encoding. */
module Symbols {
  import opened Results

  datatype Kind = Timer | Unset | Command | Event | Message | Request | Response | State

  /** The integer value of each kind, as carried in the `kind` field on the wire. */
  function KindValue(k: Kind): (r: int)
    ensures -1 <= r <= 6
    ensures k == Timer <==> r == -1
    ensures k == Unset <==> r == 0
    ensures k == Command <==> r == 1
    ensures k == Event <==> r == 2
    ensures k == Message <==> r == 3
    ensures k == Request <==> r == 4
    ensures k == Response <==> r == 5
    ensures k == State <==> r == 6
  {
    match k
    case Timer => -1
    case Unset => 0
    case Command => 1
    case Event => 2
    case Message => 3
    case Request => 4
    case Response => 5
    case State => 6
  }

  /** `Kind(i)`: the member whose value is `i`, if any. */
  function KindOf(i: int): (r: Option<Kind>)
    ensures r.Some? <==> -1 <= i <= 6
    ensures r.Some? ==> KindValue(r.value) == i
  {
    if i == -1 then Some(Timer)
    else if i == 0 then Some(Unset)
    else if i == 1 then Some(Command)
    else if i == 2 then Some(Event)
    else if i == 3 then Some(Message)
    else if i == 4 then Some(Request)
    else if i == 5 then Some(Response)
    else if i == 6 then Some(State)
    else None
  }

  /** Distinct kinds carry distinct values, so the encoding is injective
      and `KindOf` inverts it. */
  lemma KindValueInjective(a: Kind, b: Kind)
    ensures KindValue(a) == KindValue(b) ==> a == b
    ensures KindOf(KindValue(a)) == Some(a)
  {
  }
}

=== FILE: utils.dfy ===
/** The validators and the sparse dict encoding shared by frames and handlers. */
module Utils {
  import opened Results
  import opened PyValues
  import opened Symbols

  /** The length of `json.dumps(d)`; the serializer is not modelled, so
      callers supply it. */
  type Sizer = map<string, Value> -> nat

  const MaxNameLength := 128
  const MaxDataSize := 1024 * 10
  const MaxMetaSize := 512

  /** What a caller may pass as `kind`: nothing, an integer, a member of the
      enum, or some other object. */
  datatype KindArg = KNone | KInt(i: int) | KKind(k: Kind) | KOther

  /** The `kind` argument that a dict value produces when splatted into a
      call; a bool is an int in Python. */
  function KindArgOf(v: Value): KindArg {
    match v
    case VNone => KNone
    case VInt(i) => KInt(i)
    case VBool(b) => KInt(if b then 1 else 0)
    case _ => KOther
  }

  /** `deflate_dict`: drop every entry whose value is falsy. */
  function Deflate(m: map<string, Value>): (r: map<string, Value>)
    ensures forall k :: k in r <==> k in m && Truthy(m[k])
    ensures forall k | k in r :: r[k] == m[k]
  {
    map k | k in m && Truthy(m[k]) :: m[k]
  }

  /** Deflating twice is deflating once. */
  lemma DeflateIdempotent(m: map<string, Value>)
    ensures Deflate(Deflate(m)) == Deflate(m)
  {
  }

  predicate ValidName(s: string) {
    s != [] && !Blank(s) && |s| <= MaxNameLength
  }

  /** `validate_name`: None passes as None; anything that is not a non-blank
      string of at most 128 characters is a ValueError. */
  function ValidateName(v: Value): (r: Result<Option<string>>)
    ensures v == VNone <==> r == Ok(None)
    ensures r.Ok? && r.value.Some? <==> v.VStr? && ValidName(v.s)
    ensures r.Ok? && r.value.Some? ==> v == VStr(r.value.value)
    ensures r.Err? ==> r.error == ValueError
  {
    match v
    case VNone => Ok(None)
    case VStr(s) =>
      if s == [] || Blank(s) then Err(ValueError)
      else if |s| > MaxNameLength then Err(ValueError)
      else Ok(Some(s))
    case _ => Err(ValueError)
  }

  /** `validate_kind`: None is unset, an int is looked up in the enum, a
      member passes through, anything else is a ValueError. */
  function ValidateKind(a: KindArg): (r: Result<Kind>)
    ensures a == KNone ==> r == Ok(Unset)
    ensures a.KKind? ==> r == Ok(a.k)
    ensures a.KInt? ==> (r.Ok? <==> -1 <= a.i <= 6)
    ensures a.KInt? && r.Ok? ==> KindValue(r.value) == a.i
    ensures r.Err? ==> r.error == ValueError
    ensures a == KOther ==> r.Err?
  {
    match a
    case KNone => Ok(Unset)
    case KInt(i) =>
      (match KindOf(i)
       case Some(k) => Ok(k)
       case None => Err(ValueError))
    case KKind(k) => Ok(k)
    case KOther => Err(ValueError)
  }

  /** `validate_data`: None is an empty payload; a dict (or a FrameData,
      which unwraps to its dict) must serialize to under 10 KiB. */
  function ValidateData(v: Value, size: Sizer): (r: Result<map<string, Value>>)
    ensures v == VNone ==> r == Ok(map[])
    ensures v.VMap? ==> (r.Ok? <==> size(v.m) < MaxDataSize)
    ensures v.VMap? && r.Ok? ==> r.value == v.m
    ensures !v.VNone? && !v.VMap? ==> r == Err(AssertionError)
    ensures r.Err? ==> r.error == AssertionError
  {
    match v
    case VNone => Ok(map[])
    case VMap(m) => if size(m) < MaxDataSize then Ok(m) else Err(AssertionError)
    case _ => Err(AssertionError)
  }

  /** `validate_meta`: None is an empty map; a dict must serialize to
      under 512 bytes. */
  function ValidateMeta(v: Value, size: Sizer): (r: Result<map<string, Value>>)
    ensures v == VNone ==> r == Ok(map[])
    ensures v.VMap? ==> (r.Ok? <==> size(v.m) < MaxMetaSize)
    ensures v.VMap? && r.Ok? ==> r.value == v.m
    ensures !v.VNone? && !v.VMap? ==> r == Err(AssertionError)
    ensures r.Err? ==> r.error == AssertionError
  {
    match v
    case VNone => Ok(map[])
    case VMap(m) => if size(m) < MaxMetaSize then Ok(m) else Err(AssertionError)
    case _ => Err(AssertionError)
  }

  /** `validate_id`: None or a string. */
  function ValidateId(v: Value): (r: Result<Option<string>>)
    ensures v == VNone <==> r == Ok(None)
    ensures v.VStr? <==> r.Ok? && r.value.Some?
    ensures v.VStr? ==> r == Ok(Some(v.s))
    ensures r.Err? ==> r.error == AssertionError
  {
    match v
    case VNone => Ok(None)
    case VStr(s) => Ok(Some(s))
    case _ => Err(AssertionError)
  }
}

=== FILE: values.dfy ===
/** The Python value universe the modelled code manipulates.

    Frame payloads, meta entries, option values and state values are JSON-like
    Python objects; `Value` covers those. `Obj` adds callables, which the source
    distinguishes with `callable()` and `iscoroutinefunction()`. Floats are not
    modelled. String helpers mirror the `str` methods the source calls. */
module PyValues {

  datatype Value =
    | VNone
    | VBool(b: bool)
    | VInt(i: int)
    | VStr(s: string)
    | VList(items: seq<Value>)
    | VMap(m: map<string, Value>)

  /** Python truthiness (`bool(v)`). */
  predicate Truthy(v: Value) {
    match v
    case VNone => false
    case VBool(b) => b
    case VInt(i) => i != 0
    case VStr(s) => |s| > 0
    case VList(items) => |items| > 0
    case VMap(m) => |m| > 0
  }

  /** Any Python object a caller may pass where the source expects a callable.
      `ref` stands for the function's identity, `coroutine` for
      `iscoroutinefunction`, `selfParam` for a parameter named `self`. */
  datatype Obj =
    | Val(v: Value)
    | Fn(ref: nat, coroutine: bool, selfParam: bool)

  predicate Callable(o: Obj) {
    o.Fn?
  }

  predicate ObjTruthy(o: Obj) {
    match o
    case Val(v) => Truthy(v)
    case Fn(_, _, _) => true
  }

  /** Whether `hash(v)` succeeds: a list or a dict cannot be a dict key or a
      set element (TypeError). */
  predicate Hashable(v: Value) {
    !v.VList? && !v.VMap?
  }

  /** Python's `==` on hashable values: besides equal values, `True == 1`
      and `False == 0`. */
  predicate PyEq(v: Value, w: Value) {
    || v == w
    || (v.VBool? && w.VInt? && w.i == (if v.b then 1 else 0))
    || (v.VInt? && w.VBool? && v.i == (if w.b then 1 else 0))
  }

  /** The dict key a hashable value stands for: a bool and the integer it
      equals are one key, so a bool is filed as its integer. */
  function Key(v: Value): (r: Value)
    ensures !r.VBool? && Hashable(r) == Hashable(v)
    ensures PyEq(v, r)
  {
    if v.VBool? then VInt(if v.b then 1 else 0) else v
  }

  /** Two hashable values share a key exactly when Python finds them equal. */
  lemma KeyIffPyEq(v: Value, w: Value)
    requires Hashable(v) && Hashable(w)
    ensures Key(v) == Key(w) <==> PyEq(v, w)
  {
  }

  /** Whether an object can be a set element: every function can. */
  predicate ObjHashable(o: Obj) {
    o.Fn? || Hashable(o.v)
  }

  /** The set element an object stands for (see `Key`). */
  function ObjKey(o: Obj): (r: Obj)
    ensures Callable(r) == Callable(o) && ObjHashable(r) == ObjHashable(o)
    ensures o.Fn? ==> r == o
  {
    if o.Val? then Val(Key(o.v)) else o
  }

  /** `m.get(k, None)` on a dict. */
  function Get(m: map<string, Value>, k: string): (r: Value)
    ensures k !in m ==> r == VNone
    ensures k in m ==> r == m[k]
  {
    if k in m then m[k] else VNone
  }

  /** The characters `str.isspace()` accepts, hence the ones `str.strip()` removes. */
  predicate IsSpace(c: char) {
    || ('\t' <= c <= '\r')
    || ('\U{1c}' <= c <= '\U{1f}')
    || c == ' '
    || c == '\U{85}'
    || c == '\U{a0}'
    || c == '\U{1680}'
    || ('\U{2000}' <= c <= '\U{200a}')
    || c == '\U{2028}'
    || c == '\U{2029}'
    || c == '\U{202f}'
    || c == '\U{205f}'
    || c == '\U{3000}'
  }

  /** `len(s.strip()) == 0`. */
  predicate Blank(s: string) {
    forall i :: 0 <= i < |s| ==> IsSpace(s[i])
  }

  function TrimLeft(s: string): (r: string)
    ensures |r| <= |s| && r == s[|s| - |r|..]
    ensures r != [] ==> !IsSpace(r[0])
    ensures forall i :: 0 <= i < |s| - |r| ==> IsSpace(s[i])
  {
    if s != [] && IsSpace(s[0]) then TrimLeft(s[1..]) else s
  }

  function TrimRight(s: string): (r: string)
    ensures |r| <= |s| && r == s[..|r|]
    ensures r != [] ==> !IsSpace(r[|r| - 1])
    ensures forall i :: |r| <= i < |s| ==> IsSpace(s[i])
  {
    if s != [] && IsSpace(s[|s| - 1]) then TrimRight(s[..|s| - 1]) else s
  }

  /** `s.strip()`. */
  function Strip(s: string): string {
    TrimRight(TrimLeft(s))
  }

  /** `s.lower()`, for ASCII letters only. */
  function Lower(s: string): (r: string)
    ensures |r| == |s|
  {
    seq(|s|, i requires 0 <= i < |s| => if 'A' <= s[i] <= 'Z' then (s[i] as int + 32) as char else s[i])
  }

  /** `s.startswith(p)`. */
  predicate StartsWith(s: string, p: string) {
    |p| <= |s| && s[..|p|] == p
  }

  /** `s.split(sep)` with a one-character separator: never empty, and
      `n` separators give `n + 1` pieces. */
  function Split(s: string, sep: char): (r: seq<string>)
    ensures |r| > 0
  {
    if s == [] then [[]]
    else
      var rest := Split(s[1..], sep);
      if s[0] == sep then [[]] + rest else [[s[0]] + rest[0]] + rest[1..]
  }

  /** `sep.join(parts)`. */
  function Join(parts: seq<string>, sep: char): string
    requires |parts| > 0
  {
    if |parts| == 1 then parts[0] else parts[0] + [sep] + Join(parts[1..], sep)
  }

  /** Splitting and re-joining on the same separator gives back the string. */
  lemma {:induction false} SplitJoin(s: string, sep: char)
    ensures Join(Split(s, sep), sep) == s
  {
    if s != [] {
      var rest := Split(s[1..], sep);
      SplitJoin(s[1..], sep);
      if s[0] == sep {
        assert Split(s, sep) == [[]] + rest;
        assert ([[]] + rest)[1..] == rest;
      } else {
        var parts := [[s[0]] + rest[0]] + rest[1..];
        assert Split(s, sep) == parts;
        if |rest| == 1 {
          assert Join(rest, sep) == rest[0];
        } else {
          assert parts[1..] == rest[1..];
          assert Join(rest, sep) == rest[0] + [sep] + Join(rest[1..], sep);
        }
      }
    }
  }

  /** No piece of a split contains the separator. */
  lemma {:induction false} SplitPiecesLackSeparator(s: string, sep: char)
    ensures forall i :: 0 <= i < |Split(s, sep)| ==> sep !in Split(s, sep)[i]
  {
    if s != [] {
      SplitPiecesLackSeparator(s[1..], sep);
      var rest := Split(s[1..], sep);
      if s[0] != sep {
        assert sep !in rest[0];
        assert sep !in [s[0]] + rest[0];
      }
    }
  }
}

=== FILE: zentropian.dfy ===
/** Zentropian: the base class of agents. It owns a state table, an event
    registry and a connection registry, routes frames to handlers, and
    emits events locally and over its connections. */
module Zentropian {
  import opened Results
  import opened PyValues
  import opened Symbols
  import opened Utils
  import opened Frames
  import opened Handlers
  import opened Matching
  import opened Fields
  import opened Connections
  import St = States
  import Ev = Events

  /** The identity of the bound `_trigger_frame_handler` method, which both
      registries are given as their callback. */
  const TriggerRef: nat := 0

  const Callback: Obj := Fn(TriggerRef, false, false)

  /** An agent: its name (None once the setter is given None), its states,
      its events and its connections. */
  datatype Zentropian = Zentropian(
    name: Option<string>,
    states: St.States,
    events: Ev.Events,
    conns: ConnectionRegistry)

  /** One positional argument handed to a handler's function. */
  datatype Arg = SelfArg | FrameArg(frame: Frame)

  /** The external behaviour the agent needs: calling a handler's wrapped
      function (named by `fnRef`) with arguments, the order a matched set
      is iterated in, the field classes' hooks, the matching libraries, the
      serializer size, and a new frame's id and time. */
  datatype Env = Env(
    invoke: (nat, seq<Arg>) -> Result<Value>,
    order: seq<Handler> -> seq<Handler>,
    classes: string -> FieldHooks,
    mx: Matchers,
    size: Sizer,
    newId: string,
    now: int)

  /** The arguments a handler receives: the agent when it asks for `self`,
      then the frame, except for timer handlers. */
  function Payload(frame: Frame, h: Handler): (r: seq<Arg>)
    ensures SelfArg in r <==> h.passSelf
    ensures FrameArg(frame) in r <==> h.kind != Timer
    ensures h.passSelf ==> r[0] == SelfArg
    ensures |r| == (if h.passSelf then 1 else 0) + (if h.kind != Timer then 1 else 0)
  {
    (if h.passSelf then [SelfArg] else []) + (if h.kind != Timer then [FrameArg(frame)] else [])
  }

  /** `_trigger_frame_handler`: coroutine handlers are refused; any other
      handler's function is called with its payload and its answer returned. */
  function Trigger(frame: Frame, h: Handler, invoke: (nat, seq<Arg>) -> Result<Value>): (r: Result<Value>)
    ensures h.runAsync ==> r == Err(NotImplementedError)
    ensures !h.runAsync ==> r == invoke(h.fnRef, Payload(frame, h))
  {
    if h.runAsync then Err(NotImplementedError) else invoke(h.fnRef, Payload(frame, h))
  }

  /** The callback both registries run handlers through. It takes the
      `internal` flag and, like `_trigger_frame_handler`, does not use it. */
  function Call(invoke: (nat, seq<Arg>) -> Result<Value>): (Frame, Handler, bool) -> Result<Value> {
    (f, h, internal) => Trigger(f, h, invoke)
  }

  function StatesEnv(env: Env): St.Env {
    St.Env(Call(env.invoke), env.order, env.classes, env.mx, env.size, env.newId, env.now)
  }

  function EventsEnv(env: Env): Ev.Env {
    Ev.Env(Call(env.invoke), env.order, env.mx, env.size, env.newId, env.now)
  }

  /** `add_handler`: event handlers go to the events, state handlers to the
      states; any other kind is a ValueError. */
  function AddHandler(z: Zentropian, h: Handler): (r: Result<Zentropian>)
    ensures h.kind != Event && h.kind != State ==> r == Err(ValueError)
    ensures h.kind == Event ==> (r.Ok? <==> Add(z.events.handlers, h.name, HHandler(h)).Ok?)
    ensures h.kind == State ==> (r.Ok? <==> Add(z.states.handlers, h.name, HHandler(h)).Ok?)
    ensures r.Ok? && h.kind == Event ==>
              r.value == z.(events := z.events.(handlers := Add(z.events.handlers, h.name, HHandler(h)).value))
    ensures r.Ok? && h.kind == State ==>
              r.value == z.(states := z.states.(handlers := Add(z.states.handlers, h.name, HHandler(h)).value))
  {
    if h.kind == Event then
      var e :- Ev.AddHandler(z.events, h.name, h);
      Ok(z.(events := e))
    else if h.kind == State then
      var s :- St.AddHandler(z.states, h.name, h);
      Ok(z.(states := s))
    else Err(ValueError)
  }

  /** A handler is filed in the registry of its kind under its key. */
  predicate Registered(z: Zentropian, h: Handler) {
    && (h.kind == Event ==> h in At(z.events.handlers.table, KeyFor(h.name, h)))
    && (h.kind == State ==> h in At(z.states.handlers.table, KeyFor(h.name, h)))
  }

  /** Adding a handler registers it and keeps every handler registered before. */
  lemma AddHandlerRegisters(z: Zentropian, h: Handler, g: Handler)
    requires AddHandler(z, h).Ok?
    ensures Registered(AddHandler(z, h).value, h)
    ensures Registered(z, g) ==> Registered(AddHandler(z, h).value, g)
  {
  }

  /** Registers the handlers of one decorated method, in order. */
  function AddAll(z: Zentropian, hs: seq<Handler>): (r: Result<Zentropian>)
    ensures r.Ok? ==> r.value.name == z.name && r.value.conns == z.conns
    ensures r.Ok? ==> r.value.states.data == z.states.data && r.value.states.callback == z.states.callback
    ensures r.Ok? ==> r.value.events.callback == z.events.callback
    decreases |hs|
  {
    if hs == [] then Ok(z)
    else
      var z' :- AddHandler(z, hs[0]);
      AddAll(z', hs[1..])
  }

  /** `inspect_handlers`: the `meta` lists of the decorated methods, in the
      order the object lists its attributes, are registered one by one. */
  function InspectHandlers(z: Zentropian, metas: seq<seq<Handler>>): (r: Result<Zentropian>)
    ensures r.Ok? ==> r.value.name == z.name && r.value.conns == z.conns
    ensures r.Ok? ==> r.value.states.data == z.states.data && r.value.states.callback == z.states.callback
    ensures r.Ok? ==> r.value.events.callback == z.events.callback
    decreases |metas|
  {
    if metas == [] then Ok(z)
    else
      var z' :- AddAll(z, metas[0]);
      InspectHandlers(z', metas[1..])
  }

  /** Every handler a successful `AddAll` was given ends up registered, and
      so does every handler registered before. */
  lemma {:induction false} AddAllRegisters(z: Zentropian, hs: seq<Handler>, g: Handler)
    requires AddAll(z, hs).Ok?
    ensures forall i | 0 <= i < |hs| :: Registered(AddAll(z, hs).value, hs[i])
    ensures Registered(z, g) ==> Registered(AddAll(z, hs).value, g)
    decreases |hs|
  {
    if hs != [] {
      var z' := AddHandler(z, hs[0]).value;
      AddHandlerRegisters(z, hs[0], g);
      AddAllRegisters(z', hs[1..], g);
      forall i | 0 <= i < |hs|
        ensures Registered(AddAll(z, hs).value, hs[i])
      {
        if i == 0 {
          AddHandlerRegisters(z, hs[0], hs[0]);
          AddAllRegisters(z', hs[1..], hs[0]);
        } else {
          assert hs[i] == hs[1..][i - 1];
        }
      }
    }
  }

  /** After inspection every handler of every decorated method is registered. */
  lemma {:induction false} InspectRegistersAll(z: Zentropian, metas: seq<seq<Handler>>, g: Handler)
    requires InspectHandlers(z, metas).Ok?
    ensures forall i, j | 0 <= i < |metas| && 0 <= j < |metas[i]| :: Registered(InspectHandlers(z, metas).value, metas[i][j])
    ensures Registered(z, g) ==> Registered(InspectHandlers(z, metas).value, g)
    decreases |metas|
  {
    if metas != [] {
      var z' := AddAll(z, metas[0]).value;
      AddAllRegisters(z, metas[0], g);
      InspectRegistersAll(z', metas[1..], g);
      forall i, j | 0 <= i < |metas| && 0 <= j < |metas[i]|
        ensures Registered(InspectHandlers(z, metas).value, metas[i][j])
      {
        if i == 0 {
          AddAllRegisters(z, metas[0], metas[0][j]);
          InspectRegistersAll(z', metas[1..], metas[0][j]);
        } else {
          assert metas[i] == metas[1..][i - 1];
          InspectRegistersAll(z', metas[1..], metas[i][j]);
        }
      }
    }
  }

  /** The name a new agent takes: a truthy name must be valid, and a falsy
      one is replaced by a fresh hex id. */
  function InitialName(name: Value, newId: string): (r: Result<string>)
    ensures !Truthy(name) ==> r == Ok(newId)
    ensures Truthy(name) ==> (r.Ok? <==> name.VStr? && ValidName(name.s))
    ensures Truthy(name) && r.Ok? ==> name == VStr(r.value)
    ensures r.Err? ==> r.error == ValueError
  {
    if !Truthy(name) then Ok(newId)
    else
      var n :- ValidateName(name);
      Ok(if n.Some? then n.value else newId)
  }

  /** `Zentropian.__init__`: names the agent, gives both registries the
      trigger callback, starts with no connections, and registers the
      handlers of its decorated methods. */
  function NewZentropian(name: Value, newId: string, metas: seq<seq<Handler>>): (r: Result<Zentropian>)
    ensures r.Ok? ==> InitialName(name, newId).Ok? && r.value.name == Some(InitialName(name, newId).value)
    ensures r.Ok? ==> r.value.conns == NoConnections && !Connected(r.value.conns)
    ensures r.Ok? ==> r.value.states.data == map[] && r.value.states.callback == Callback
    ensures r.Ok? ==> r.value.events.callback == Callback
    ensures InitialName(name, newId).Err? ==> r.Err?
  {
    var n :- InitialName(name, newId);
    var states := St.NewStates(Callback).value;
    var events := Ev.NewEvents(Callback).value;
    InspectHandlers(Zentropian(Some(n), states, events, NoConnections), metas)
  }

  /** The `name` setter: validated; None is accepted and clears the name. */
  function SetName(z: Zentropian, name: Value): (r: Result<Zentropian>)
    ensures r.Ok? <==> name == VNone || (name.VStr? && ValidName(name.s))
    ensures name == VNone ==> r == Ok(z.(name := None))
    ensures r.Ok? && name.VStr? ==> r.value == z.(name := Some(name.s))
  {
    var n :- ValidateName(name);
    Ok(z.(name := n))
  }

  /** `handle_frame` as written: it asks the event registry and the state
      table for a `match` method neither has. The event registry raises
      AttributeError; the state table turns the attribute into a state read,
      which fails for a missing state and otherwise yields a value that
      cannot be called. */
  function HandleFrameAsWritten(z: Zentropian, frame: Frame): (r: Outcome)
    ensures frame.cls == EventFrame ==> r == Fail(AttributeError)
    ensures frame.cls == StateFrame && "match" !in z.states.data ==> r == Fail(KeyError)
    ensures r != Pass
  {
    if frame.cls == EventFrame then Fail(AttributeError)
    else if frame.cls == StateFrame then
      match St.GetState(z.states, "match")
      case Err(e) => Fail(e)
      case Ok(_) => Fail(TypeError)
    else Fail(ValueError)
  }

  /** Runs each handler through the trigger; answers are discarded and the
      first failing call stops the run. */
  function TriggerAll(frame: Frame, hs: seq<Handler>, invoke: (nat, seq<Arg>) -> Result<Value>): (r: Outcome)
    ensures r == Pass <==> forall i | 0 <= i < |hs| :: Trigger(frame, hs[i], invoke).Ok?
    ensures r.Fail? ==> exists i | 0 <= i < |hs| :: Trigger(frame, hs[i], invoke) == Err(r.error)
  {
    if hs == [] then Pass
    else
      match Trigger(frame, hs[0], invoke)
      case Err(e) => Fail(e)
      case Ok(_) =>
        var rest := TriggerAll(frame, hs[1..], invoke);
        assert forall i | 1 <= i < |hs| :: hs[1..][i - 1] == hs[i];
        rest
  }

  /** The frame after matching and the handlers it was handed to. */
  datatype Handled = Handled(frame: Frame, handlers: seq<Handler>)

  /** The registry an incoming frame is matched against: the events' for an
      event frame, the states' for a state frame. */
  function RegistryFor(z: Zentropian, frame: Frame): (r: Option<HandlerRegistry>)
    ensures frame.cls == EventFrame ==> r == Some(z.events.handlers)
    ensures frame.cls == StateFrame ==> r == Some(z.states.handlers)
    ensures frame.cls != EventFrame && frame.cls != StateFrame ==> r == None
  {
    if frame.cls == EventFrame then Some(z.events.handlers)
    else if frame.cls == StateFrame then Some(z.states.handlers)
    else None
  }

  /** `handle_frame` as intended: an event or state frame is matched against
      the handlers of its kind and every matched handler is triggered; any
      other frame is a ValueError. */
  function HandleFrame(z: Zentropian, frame: Frame, env: Env): (r: Result<Handled>)
    ensures RegistryFor(z, frame).None? ==> r == Err(ValueError)
    ensures r.Ok? ==> RegistryFor(z, frame).Some?
    ensures r.Ok? ==> Match(RegistryFor(z, frame).value, frame, env.mx, env.size) == Ok((r.value.frame, r.value.handlers))
    ensures r.Ok? ==> forall h | h in r.value.handlers :: Trigger(r.value.frame, h, env.invoke).Ok?
    ensures RegistryFor(z, frame).Some? && Match(RegistryFor(z, frame).value, frame, env.mx, env.size).Err? ==> r.Err?
  {
    match RegistryFor(z, frame)
    case None => Err(ValueError)
    case Some(reg) =>
      var matched :- Match(reg, frame, env.mx, env.size);
      var (f, hs) := matched;
      var o := TriggerAll(f, Iterated(env.order, hs), env.invoke);
      if o.Fail? then Err(o.error) else Ok(Handled(f, hs))
  }

  /** An event frame named after registered exact handlers reaches them
      when handled; the code as written fails on the same frame. */
  lemma HandleFrameReachesExactHandlers(z: Zentropian, frame: Frame, env: Env)
    requires frame.cls == EventFrame && frame.name.Some?
    requires frame.name.value in z.events.handlers.exact
    requires At(z.events.handlers.table, frame.name.value) != []
    requires forall i | 0 <= i < |At(z.events.handlers.table, frame.name.value)| ::
               Trigger(frame, At(z.events.handlers.table, frame.name.value)[i], env.invoke).Ok?
    ensures HandleFrame(z, frame, env) == Ok(Handled(frame, At(z.events.handlers.table, frame.name.value)))
    ensures HandleFrameAsWritten(z, frame) == Fail(AttributeError)
  {
    ExactNameWins(z.events.handlers, frame, env.mx, env.size);
    var hs := At(z.events.handlers.table, frame.name.value);
    var run := Iterated(env.order, hs);
    forall i | 0 <= i < |run|
      ensures Trigger(frame, run[i], env.invoke).Ok?
    {
      assert run[i] in hs;
      var j :| 0 <= j < |hs| && hs[j] == run[i];
    }
  }

  /** `emit` as written: it hands `source` and `reply_to` to an events
      `emit` that accepts neither, so every call is a TypeError. */
  function EmitAsWritten(z: Zentropian, name: Value, data: Value, space: Value, internal: bool, replyTo: Value): (r: Result<Frame>)
    ensures r == Err(TypeError)
  {
    Err(TypeError)
  }

  /** What an emit did: the emitted frame, the local handlers it reached,
      and the fan-out to the connections when it was broadcast. */
  datatype Emitted = Emitted(frame: Frame, handlers: seq<Handler>, broadcast: Option<Fanout>)

  /** The agent's name as a routing value. */
  function NameValue(z: Zentropian): (r: Value)
    ensures z.name.Some? ==> r == VStr(z.name.value)
    ensures z.name.None? ==> r == VNone
  {
    if z.name.Some? then VStr(z.name.value) else VNone
  }

  /** `emit` as intended: the event is emitted locally with the agent as its
      source, then broadcast on the default tag unless internal or
      unconnected, and returned. */
  function Emit(z: Zentropian, name: Value, data: Value, space: Value, internal: bool, replyTo: Value, env: Env): (r: Result<Emitted>)
    requires env.newId != []
    ensures r.Ok? ==> Ev.EmitFrame(z.events, name, data, space, internal, NameValue(z), replyTo, EventsEnv(env))
                      == Ok(Ev.Emission(r.value.frame, r.value.handlers))
    ensures r.Ok? ==> (r.value.broadcast.Some? <==> !internal && Connected(z.conns))
    ensures r.Ok? && r.value.broadcast.Some? ==> Fan(z.conns, NoTags, BroadcastCall(r.value.frame)) == Ok(r.value.broadcast.value)
    ensures Ev.EmitFrame(z.events, name, data, space, internal, NameValue(z), replyTo, EventsEnv(env)).Err? ==> r.Err?
  {
    var e :- Ev.EmitFrame(z.events, name, data, space, internal, NameValue(z), replyTo, EventsEnv(env));
    if !internal && Connected(z.conns) then
      var fan :- Fan(z.conns, NoTags, BroadcastCall(e.frame));
      Ok(Emitted(e.frame, e.handlers, Some(fan)))
    else Ok(Emitted(e.frame, e.handlers, None))
  }

  /** An internal emit never reaches the connections, and a named agent is
      the source of what it emits. */
  lemma InternalEmitStaysLocal(z: Zentropian, name: Value, data: Value, space: Value, replyTo: Value, env: Env)
    requires env.newId != []
    requires Emit(z, name, data, space, true, replyTo, env).Ok?
    requires z.name.Some? && z.name.value != [] && Truthy(replyTo)
    ensures Emit(z, name, data, space, true, replyTo, env).value.broadcast.None?
    ensures Source(Emit(z, name, data, space, true, replyTo, env).value.frame) == VStr(z.name.value)
  {
    Ev.EmitCarriesRouting(z.events, name, data, space, true, NameValue(z), replyTo, EventsEnv(env));
  }

  /** `connect` and `bind` use the default connection class for the
      endpoint's scheme; `id` stands for the new connection's identity and
      `t` for how the transport implements the call. A coroutine is spawned,
      as the corrected `CallSpawned` has it. */
  function Connect(z: Zentropian, endpoint: string, tag: string, id: nat, t: TransportCall): (r: Result<Zentropian>)
    ensures r.Ok? <==> Connections.Connect(z.conns, endpoint, VNone, tag, NoClass, id, CallSpawned(t)).Ok?
    ensures r.Ok? ==> r.value == z.(conns := Connections.Connect(z.conns, endpoint, VNone, tag, NoClass, id, CallSpawned(t)).value.registry)
    ensures r.Ok? ==> Connected(r.value.conns)
    ensures t.Sync? && t.outcome.Fail? ==> r.Err?
    ensures t.Coroutine? ==> (r.Ok? <==> Connections.Build(endpoint, NoClass, id).Ok?)
  {
    var o :- Connections.Connect(z.conns, endpoint, VNone, tag, NoClass, id, CallSpawned(t));
    Ok(z.(conns := o.registry))
  }

  function Bind(z: Zentropian, endpoint: string, tag: string, id: nat, t: TransportCall): (r: Result<Zentropian>)
    ensures r.Ok? <==> Connections.Bind(z.conns, endpoint, tag, NoClass, id, CallSpawned(t)).Ok?
    ensures r.Ok? ==> r.value == z.(conns := Connections.Bind(z.conns, endpoint, tag, NoClass, id, CallSpawned(t)).value.registry)
    ensures r.Ok? ==> Connected(r.value.conns)
    ensures t.Sync? && t.outcome.Fail? ==> r.Err?
    ensures t.Coroutine? ==> (r.Ok? <==> Connections.Build(endpoint, NoClass, id).Ok?)
  {
    var o :- Connections.Bind(z.conns, endpoint, tag, NoClass, id, CallSpawned(t));
    Ok(z.(conns := o.registry))
  }

  /** `join`: the join call fanned out over the selected tags. */
  function Join(z: Zentropian, space: string, tags: TagsArg): (r: Result<Fanout>)
    ensures r == Fan(z.conns, tags, JoinCall(space))
  {
    Fan(z.conns, tags, JoinCall(space))
  }

  /** The truthiness of a `tags` argument. */
  predicate TagsGiven(t: TagsArg) {
    match t
    case NoTags => false
    case TagString(s) => s != []
    case TagList(ns) => ns != []
  }

  /** `close`: both an endpoint and tags is a ValueError; otherwise the
      connections of the endpoint, of the tags, or all of them are closed. */
  function Close(z: Zentropian, endpoint: Value, tags: TagsArg): (r: Result<seq<set<Conn>>>)
    ensures Truthy(endpoint) && TagsGiven(tags) ==> r == Err(ValueError)
    ensures Truthy(endpoint) && !TagsGiven(tags) && ConnectionsByEndpoint(z.conns, endpoint).Err? ==>
              r == Err(ConnectionsByEndpoint(z.conns, endpoint).error)
    ensures Truthy(endpoint) && !TagsGiven(tags) && ConnectionsByEndpoint(z.conns, endpoint).Ok? ==>
              r == Ok([ConnectionsByEndpoint(z.conns, endpoint).value])
    ensures !Truthy(endpoint) && TagsGiven(tags) ==> r == ConnectionsByTags(z.conns, tags)
    ensures !Truthy(endpoint) && !TagsGiven(tags) ==> r == Ok([z.conns.all])
  {
    if Truthy(endpoint) && TagsGiven(tags) then Err(ValueError)
    else if Truthy(endpoint) then
      var cs :- ConnectionsByEndpoint(z.conns, endpoint);
      Ok([cs])
    else if TagsGiven(tags) then ConnectionsByTags(z.conns, tags)
    else Ok([z.conns.all])
  }

  /** The keyword defaults of a decorator-built handler. */
  function DecoratorArgs(kind: Kind, name: Value, fn: Obj, exact: Value, parse: Value, fuzzy: Value): HandlerArgs {
    HandlerArgs(KKind(kind), name, fn, VNone, exact, parse, fuzzy, VBool(false), map[])
  }

  /** The `on_state` and `on_event` methods: the decorated function is
      wrapped in a handler of the matching kind and registered at once. */
  function OnStateMethod(z: Zentropian, name: Value, fn: Obj, exact: Value, parse: Value, fuzzy: Value, uid: nat): (r: Result<Zentropian>)
    ensures NewHandler(DecoratorArgs(State, name, fn, exact, parse, fuzzy), uid).Err? ==> r.Err?
    ensures r.Ok? ==> NewHandler(DecoratorArgs(State, name, fn, exact, parse, fuzzy), uid).Ok?
    ensures r.Ok? ==>
              var h := NewHandler(DecoratorArgs(State, name, fn, exact, parse, fuzzy), uid).value;
              && h.kind == State
              && Add(z.states.handlers, h.name, HHandler(h)).Ok?
              && r.value == z.(states := z.states.(handlers := Add(z.states.handlers, h.name, HHandler(h)).value))
  {
    var h :- NewHandler(DecoratorArgs(State, name, fn, exact, parse, fuzzy), uid);
    var s :- St.AddHandler(z.states, h.name, h);
    Ok(z.(states := s))
  }

  function OnEventMethod(z: Zentropian, name: Value, fn: Obj, exact: Value, parse: Value, fuzzy: Value, uid: nat): (r: Result<Zentropian>)
    ensures NewHandler(DecoratorArgs(Event, name, fn, exact, parse, fuzzy), uid).Err? ==> r.Err?
    ensures r.Ok? ==> NewHandler(DecoratorArgs(Event, name, fn, exact, parse, fuzzy), uid).Ok?
    ensures r.Ok? ==>
              var h := NewHandler(DecoratorArgs(Event, name, fn, exact, parse, fuzzy), uid).value;
              && h.kind == Event
              && Add(z.events.handlers, h.name, HHandler(h)).Ok?
              && r.value == z.(events := z.events.(handlers := Add(z.events.handlers, h.name, HHandler(h)).value))
  {
    var h :- NewHandler(DecoratorArgs(Event, name, fn, exact, parse, fuzzy), uid);
    var e :- Ev.AddHandler(z.events, h.name, h);
    Ok(z.(events := e))
  }

  /** The module-level `on_state` and `on_event` decorators: the handler is
      appended to the function's `meta` list, which is created when the
      function has none. */
  function Decorate(meta: Option<seq<Handler>>, kind: Kind, name: Value, fn: Obj, exact: Value, parse: Value, fuzzy: Value, uid: nat): (r: Result<seq<Handler>>)
    ensures r.Ok? <==> NewHandler(DecoratorArgs(kind, name, fn, exact, parse, fuzzy), uid).Ok?
    ensures r.Ok? ==>
              var h := NewHandler(DecoratorArgs(kind, name, fn, exact, parse, fuzzy), uid).value;
              r.value == (if meta.Some? then meta.value else []) + [h] && h.kind == kind
  {
    var h :- NewHandler(DecoratorArgs(kind, name, fn, exact, parse, fuzzy), uid);
    Ok((if meta.Some? then meta.value else []) + [h])
  }

  /** A function decorated for a state and then inspected ends up in the
      state registry; the method form registers the same handler directly. */
  lemma DecoratedMethodIsRegistered(z: Zentropian, name: Value, fn: Obj, exact: Value, parse: Value, fuzzy: Value, uid: nat)
    requires Decorate(None, State, name, fn, exact, parse, fuzzy, uid).Ok?
    requires InspectHandlers(z, [Decorate(None, State, name, fn, exact, parse, fuzzy, uid).value]).Ok?
    ensures var h := NewHandler(DecoratorArgs(State, name, fn, exact, parse, fuzzy), uid).value;
            && Registered(InspectHandlers(z, [Decorate(None, State, name, fn, exact, parse, fuzzy, uid).value]).value, h)
            && (OnStateMethod(z, name, fn, exact, parse, fuzzy, uid).Ok? ==>
                  Registered(OnStateMethod(z, name, fn, exact, parse, fuzzy, uid).value, h))
  {
    var metas := [Decorate(None, State, name, fn, exact, parse, fuzzy, uid).value];
    var h := NewHandler(DecoratorArgs(State, name, fn, exact, parse, fuzzy), uid).value;
    InspectRegistersAll(z, metas, h);
    assert metas[0][0] == h;
  }
}
